=== FILE: README.md ===
# Coupon store model

A Dafny model of the data core of a coupon-sharing web application.

**The store (`DatabaseStorage`).** It keeps five tables: categories, brands, coupons, feedback votes and click audit rows.
- The model is an immutable `Storage.Store` value: one sequence per table, plus one serial counter per table.
- Every store operation returns the store it leaves behind together with what the original hands back to its caller.
- It lists coupons with filters, a case-insensitive search and three orderings.
- It reads, creates, updates and deletes single coupons.
- It records feedback votes and counts them.
- It bumps click and conversion counters.
- It computes the admin dashboard figures.
- It gets or creates brands and categories by slug, and seeds the start-up data.

**Around the store**, the model covers:
- the shared API contract: route paths, `buildUrl`'s placeholder substitution, and the `sort` enum;
- the request-body schemas derived from the tables;
- the server handlers for listing, PATCH, DELETE, click and convert, with the responses each one produces;
- the start-up seed;
- the client's list-query builder;
- the coupon card's score colours and score bars.

**What the database contributes.** The behaviour the PostgreSQL database adds is modelled explicitly:
- serial ids are spent even by inserts that fail or are skipped;
- NULL is an `Option`;
- the foreign keys of the schema are enforced;
- `ILIKE` is a real LIKE matcher with `%`, `_`, backslash escapes and ASCII case folding;
- `ORDER BY ... DESC` puts NULL first.

**JavaScript values.** JSON bodies distinguish absent, `null` and given fields (`Wrappers.Field`). JavaScript's `Number()` and `String()` on integers are `Text.JsNumber` and `Text.IntToString`.

**Modules, in dependency order:**
- `Wrappers`, `Tables`, `Text`, `Like`: general helpers;
- `Schema`, `Ordering`: record shapes and sort orders;
- `Storage`: the store's operations;
- `StoreProps`, `StoreValid`, `ClickAudit`, `ListingProps`: lemmas about the store;
- `Api`, `Server`, `CouponQuery`: the shared API, the server handlers and the client's query builder;
- `CouponCard`: the card's score display.

## Model

| member | source | states |
|---|---|---|
| Storage.SortKeyOf | server/storage.ts:73-78 | 'newest' selects creation order and 'expiring' selects expiry order; every other value, absent included, gets the default order |
| Storage.ListedCoupons | server/storage.ts:58-80 | the listed coupons are exactly the stored coupons the WHERE conjunction accepts, with the same multiplicities, sorted by the selected key |
| Storage.ListCoupons | server/storage.ts:48-87 | the listing holds exactly the eligible coupons, as a permutation of the filtered table and sorted by the selected key; each one is joined with the brand and category it references, or with null when no row matches |
| Storage.GetCoupon | server/storage.ts:89-106 | a result exists iff some coupon has that id, active or not; the result is that coupon with its joined brand and category |
| Storage.CreateCoupon | server/storage.ts:108-111 | succeeds iff the category and brand ids name existing rows; the new row takes the next id, the given columns and the defaults (score 0, active, counters 0, timestamps now) and is appended; a failed insert still spends the id |
| Storage.UpdateCoupon | server/storage.ts:113-119 | an update that supplies no column fails with 'No values to set' and changes nothing; otherwise an unknown id changes nothing and returns no row, and the update succeeds iff the resulting references exist, and a successful update of a known id always returns the row, with exactly the supplied columns changed, while the store rewrites only rows with that id |
| Storage.ApplyUpdate | server/storage.ts:115 | `.set(u)` never changes the id, the score, the verification time, the two counters or the creation time; `StoreProps.UpdateKeepsUnsuppliedColumns` states the other columns |
| Storage.DeleteCoupon | server/storage.ts:121-123 | fails iff the coupon exists and a feedback row references it; otherwise exactly the rows with that id disappear |
| Storage.CreateFeedback | server/storage.ts:125-128 | succeeds iff the coupon id is null or names a coupon; the vote takes the next id and is appended; the id is spent either way |
| Storage.Tally | server/storage.ts:130-141 | positive votes never exceed total votes, and total votes never exceed the table's rows |
| Storage.FeedbackStatsFor | server/storage.ts:130-141 | positive never exceeds total, and total never exceeds the size of the feedback table |
| Storage.RecordClick | server/storage.ts:144-151 | always appends a click row with the next click id; succeeds iff the coupon exists, and then returns the old count plus one and bumps only that coupon; on failure the coupons are unchanged but the click row stays |
| Storage.RecordClickChecked | server/storage.ts:144-151 | corrected form: an unknown id leaves the whole store unchanged; a known id gives the same result and store as the original |
| Storage.RecordConversion | server/storage.ts:153-159 | succeeds iff the coupon exists, and then returns the old conversion count plus one and bumps that coupon; an unknown id leaves the store unchanged |
| Storage.TopCoupons | server/storage.ts:169-176 | the top list is a prefix of the dashboard listing, with min(5, number of coupons) entries |
| Storage.AdminAnalytics | server/storage.ts:161-178 | counts every coupon; pending coupons never exceed the total; the top list is the first five of the dashboard listing; all figures are 0 on an empty table |
| StoreProps.ListedAndPendingPartition | server/storage.ts:161-177 | the default listing and the pending figure never add up to more than the total, and add up to exactly the total when no row has a NULL active flag |
| StoreProps.UpdatePendingDelta | server/storage.ts:113-119 | a successful update moves the pending figure by exactly whether the row was, and now is, deactivated |
| StoreProps.DeactivateRaisesPending | server/storage.ts:113-119 | deactivating an active coupon succeeds and raises the pending figure by exactly one |
| StoreProps.PendingIsCount | server/storage.ts:166 | the pending figure is exactly the number of rows whose `isActive` is false |
| Storage.DashboardListsAll | server/storage.ts:169 | the dashboard listing (inactive included, 'popular' sort) has one entry per stored coupon |
| Storage.SlugFor | server/storage.ts:185 | a non-empty slug is kept unchanged; a derived slug has the name's length and holds no space and no upper-case letter; the slug is empty only when both the slug and the name are |
| Storage.GetOrCreateBrand | server/storage.ts:184-190 | the result carries the derived slug; an existing brand with that slug is returned and the store is unchanged; otherwise a brand with the next id and no logo is appended |
| Storage.IconOrDefault | server/storage.ts:200 | a stored category icon is never empty: an absent or empty icon becomes 'Tag', any other icon is kept |
| Storage.GetOrCreateCategory | server/storage.ts:196-202 | an existing category with the derived slug is returned unchanged; otherwise a category with the next id, the icon or 'Tag', and the parent is appended |
| Storage.SeedCategory | server/storage.ts:205 | one seed row is inserted iff its slug is free; the id is drawn either way; nothing else changes |
| Storage.SeedCategories | server/storage.ts:204-206 | existing rows are kept as a prefix; one id is drawn per row; no other table changes |
| Storage.SeedCategoriesPresent | server/storage.ts:204-206 | every seed slug has a category row afterwards, whether it was inserted or already there |
| Storage.SeedBrand | server/storage.ts:209 | one brand seed row is inserted iff its slug is free; the id is drawn either way; nothing else changes |
| Storage.SeedBrands | server/storage.ts:208-210 | existing rows are kept as a prefix; one id is drawn per row; no other table changes |
| Storage.SeedBrandsPresent | server/storage.ts:208-210 | every seed slug has a brand row afterwards, whether it was inserted or already there |
| StoreProps.TallyCounts | server/storage.ts:131-136 | the one-pass tally equals `count(*)` and the count of `worked` votes over the feedback rows for that coupon |
| StoreProps.NoVotesNoStats | server/storage.ts:138-141 | a coupon without votes reports total 0 and positive 0 |
| StoreProps.CreateFeedbackCounts | server/storage.ts:125-141 | a stored vote raises its coupon's total by one and its positive count by one iff it worked; other coupons' stats are unchanged |
| StoreProps.RecordClickCounts | server/storage.ts:144-151 | on an existing coupon the click returns the old count plus one; that coupon's row is bumped; every other id reads as before; ids stay unique |
| StoreProps.RecordClickTotals | server/storage.ts:144-167 | a click raises the dashboard's total clicks by exactly one, leaves total conversions unchanged, and adds one audit row |
| StoreProps.RecordConversionCounts | server/storage.ts:153-159 | on an existing coupon the conversion returns the old count plus one and bumps only that coupon |
| StoreProps.RecordConversionTotals | server/storage.ts:153-167 | a conversion raises total conversions by exactly one and leaves total clicks and the audit log unchanged |
| StoreProps.ClickTimes | server/storage.ts:146-147 | n successive clicks raise the coupon's count by exactly n and add n audit rows (no lost updates) |
| StoreProps.UnknownCouponCounters | server/storage.ts:144-159 | on an unknown id both counters fail and leave the coupons untouched; the conversion leaves the whole store unchanged |
| StoreProps.ClientInsertDefaults | shared/schema.ts:83-88 | a client-parsed insert gets the next id, score 0, both timestamps now, counters 0 and isActive true unless given, whatever the body says about the generated columns |
| StoreProps.UpdateKeepsUnsuppliedColumns | shared/routes.ts:55 | a partial update never changes the id, score, timestamps or counters; every column it does not supply is kept; a null isActive clears it |
| StoreProps.UpdateCouponTouchesOneRow | server/storage.ts:113-119 | a successful update changes only the coupon with that id, keeps the table size and leaves every other table as it was |
| StoreProps.DeleteCouponRemovesOnlyThatId | server/storage.ts:121-123 | after a delete, the id no longer resolves, every other id resolves as before, and no other table changes |
| StoreProps.DeleteUnknownIsNoOp | server/storage.ts:121-123 | deleting an unknown id succeeds and leaves the store unchanged |
| StoreValid.EmptyStoreValid | shared/schema.ts:12-50 | an empty database satisfies the keys, unique slugs, foreign keys and counter invariants |
| StoreValid.CreateCouponValid | server/storage.ts:108-111 | coupon creation preserves the store invariant |
| StoreValid.UpdateCouponValid | server/storage.ts:113-119 | coupon update preserves the store invariant |
| StoreValid.DeleteCouponValid | server/storage.ts:121-123 | a successful delete preserves the store invariant, including the feedback foreign key |
| StoreValid.CreateFeedbackValid | server/storage.ts:125-128 | vote creation preserves the store invariant |
| StoreValid.RecordClickValid | server/storage.ts:144-151 | recording a click preserves the store invariant |
| StoreValid.RecordConversionValid | server/storage.ts:153-159 | recording a conversion preserves the store invariant |
| StoreValid.GetOrCreateBrandValid | server/storage.ts:184-190 | get-or-create of a brand preserves the store invariant, unique slugs included |
| StoreValid.GetOrCreateCategoryValid | server/storage.ts:196-202 | get-or-create of a category preserves the store invariant, unique slugs included |
| StoreValid.GetOrCreateBrandIdempotent | server/storage.ts:184-190 | a second call with the same name and slug returns the same brand and changes nothing |
| StoreValid.GetOrCreateCategoryIdempotent | server/storage.ts:196-202 | a second call with the same arguments returns the same category and changes nothing |
| StoreValid.GetOrCreateBrandKeysOnSlug | server/storage.ts:186-187 | with an explicit slug, a later call under a different name returns the brand first created |
| StoreValid.SeedCategoriesValid | server/storage.ts:204-206 | seeding categories with conflict skipping preserves the store invariant |
| StoreValid.SeedBrandsValid | server/storage.ts:208-210 | seeding brands with conflict skipping preserves the store invariant |
| ClickAudit.EmptyStoreClicksBacked | server/storage.ts:144-151 | on an empty database every click count equals the number of its audit rows |
| ClickAudit.RecordClickCheckedBacked | server/storage.ts:144-151 | corrected click recording keeps every coupon's click count equal to its audit rows |
| ClickAudit.CreateCouponBacked | server/storage.ts:108-111 | a new coupon starts with as many clicks as it has audit rows: none |
| ClickAudit.RecordConversionBacked | server/storage.ts:153-159 | conversions keep click counts matching the audit log |
| ClickAudit.UpdateCouponBacked | server/storage.ts:113-119 | updates keep click counts matching the audit log |
| ClickAudit.DeleteCouponBacked | server/storage.ts:121-123 | deletes keep click counts matching the audit log |
| ClickAudit.RecordClickUnknownLeavesRow | server/storage.ts:144-151 | a click on a not-yet-issued id fails but still adds an audit row, breaking the match between counts and audit rows |
| ClickAudit.OrphanClickMiscounts | server/storage.ts:144-151 | on an empty database, a click on id 1 followed by a create gives coupon 1 with count 0 but one audit row |
| ClickAudit.CheckedClickLeavesNoRow | server/storage.ts:144-151 | the corrected click on id 1 of an empty database fails and leaves the database empty |
| ListingProps.SameEffectSameListing | server/storage.ts:58-80 | two filters with the same truthy ids, non-empty search, sort key and inactive flag give the same listing |
| ListingProps.FalsyIdsFilterNothing | server/storage.ts:63-68 | an id of 0 or NaN lists the same as no id |
| ListingProps.EmptySearchFiltersNothing | server/storage.ts:69-71 | an empty search lists the same as no search |
| ListingProps.OtherSortsAreDefault | server/storage.ts:73-78 | any sort other than 'newest' or 'expiring' ('popular', unknown words) lists in the default order |
| ListingProps.LiteralSearchIsSubstring | server/storage.ts:69-70 | for a search without LIKE metacharacters, the search clause accepts exactly the coupons whose title or code contains the text, ignoring case |
| ListingProps.ActiveOnlyByDefault | server/storage.ts:59-61 | without includeInactive every listed coupon is active |
| ListingProps.ListingOrder | server/storage.ts:73-80 | consecutive entries obey the selected order: newest first; latest expiry first with no expiry before any date; default by score, then creation time, both descending |
| ListingProps.DashboardIncludesEveryCoupon | server/storage.ts:169 | every stored coupon, active or not, appears in the dashboard listing |
| ListingProps.TopCouponsRankFirst | server/storage.ts:169-176 | every top coupon ranks at least as high as every coupon left out |
| Ordering.Insert | server/storage.ts:73-80 | inserting into a sorted list keeps it sorted and adds exactly that element |
| Ordering.Sort | server/storage.ts:73-80 | the result is sorted by the key and is a permutation of the input |
| Ordering.PrecedesTotal | server/storage.ts:73-78 | any two coupons are comparable under each ordering |
| Ordering.PrecedesTransitive | server/storage.ts:73-78 | each ordering is transitive |
| Ordering.StrictlyAheadComesFirst | server/storage.ts:73-80 | in a sorted listing, a coupon that strictly ranks ahead appears earlier |
| Tables.Where | server/storage.ts:80 | filtering keeps exactly the rows that satisfy the condition, as a sub-multiset |
| Tables.Find | server/storage.ts:90-100 | a hit is a matching row of the table; no hit iff no row matches |
| Like.SearchIsSubstring | server/storage.ts:70 | ILIKE with '%search%' on a literal search is case-insensitive substring containment |
| Like.ILike | server/storage.ts:70 | a non-empty pattern of only '%' matches every text; `Like.SearchIsSubstring`, `Like.LiteralPrefix` and `Like.LeadingPercent` state the rest |
| Like.LiteralPrefix | server/storage.ts:70 | a literal followed by '%' matches exactly the texts that start with it, ignoring case |
| Like.LeadingPercent | server/storage.ts:70 | a leading '%' matches iff the rest of the pattern matches some suffix |
| Like.FlyMatchesFly50 | server/storage.ts:70 | the search 'fly' finds the code 'FLY50' |
| Text.SlugShape | server/storage.ts:185 | a derived slug has the name's length, no spaces and no upper-case ASCII letters, and keeps every other character |
| Text.SlugIdempotent | server/storage.ts:185 | deriving a slug from a slug changes nothing |
| Text.IndexOf | shared/routes.ts:160-161 | the first occurrence of the pattern, or none iff the text does not contain it |
| Text.NatToStringValue | client/src/hooks/use-coupons.ts:13-14 | the decimal digits of n read back as n |
| Text.NumberOfIntToString | server/routes.ts:23-24 | `Number(String(i))` is i |
| Text.JsNumber | server/routes.ts:23-24 | digit strings give their value, with a leading '+' kept and a leading '-' negated; the empty string gives 0; a finite result comes only from an optionally signed digit string |
| Schema.ParseInsertCoupon | shared/schema.ts:83-88 | succeeds iff the five required text fields are given and no expiry date is; a failure names one of those fields, code before title; a given expiry date fails with 'Expected date, received string' once the fields before it are given; the insert carries the body's columns and never a score |
| Schema.ParseUpdateCoupon | shared/routes.ts:55 | succeeds iff no required text column is set to null and no expiry date is given; a given expiry date fails with 'Expected date, received string'; it supplies exactly the fields the body gives, with the body's values, and passes nullable fields through |
| Schema.ParseInsertFeedback | shared/schema.ts:90-93 | succeeds iff `worked` is given, and then carries the body's coupon, user and vote |
| Schema.CouponParsersIgnoreGeneratedColumns | shared/schema.ts:83-88 | id, score, last-verified and created-at in a body never affect the insert or the update |
| Schema.FeedbackParserIgnoresGeneratedColumns | shared/schema.ts:90-93 | id and created-at in a feedback body never affect the insert |
| Schema.ParseConfidence | shared/schema.ts:112-116 | accepts exactly 'high', 'medium' and 'low', naming the value it parsed |
| Schema.ConfidenceRoundTrip | shared/schema.ts:114 | parsing a confidence's name gives it back |
| Api.ParamString | shared/routes.ts:161 | strings pass through; a number's text reads back as that number |
| Api.ExpandPlain | shared/routes.ts:161 | a replacement without '$' is inserted literally |
| Api.ReplaceFirst | shared/routes.ts:161 | a text without the pattern is returned unchanged |
| Api.Substitute | shared/routes.ts:159-163 | a URL without a colon holds no placeholder, so every parameter leaves it unchanged |
| Api.BuildUrl | shared/routes.ts:156-166 | a path without a colon comes back unchanged whatever the parameters; `Api.FillOnePlaceholder`, `Api.SubstitutionIsSequential` and `Api.DollarPatternExpanded` state the filling |
| Api.ReplaceFirstPlain | shared/routes.ts:161 | a '$'-free replacement swaps exactly the first occurrence of the pattern |
| Api.BuildUrlWithoutParams | shared/routes.ts:156-166 | without params, or with an empty record, the path is returned as it is |
| Api.MissingKeyIgnored | shared/routes.ts:159-160 | a key whose placeholder is not in the URL leaves it unchanged |
| Api.PlaceholderFoundAt | shared/routes.ts:160 | in a path whose prefix has no ':', the first occurrence of the placeholder is right after the prefix |
| Api.FillOnePlaceholder | shared/routes.ts:156-166 | one parameter replaces its placeholder with the parameter's text and keeps the rest of the path |
| Api.CouponRoutesWithId | shared/routes.ts:37-100 | filling `:id` in the get, validate, vote, click and convert paths gives `/api/coupons/<id>` with the route suffix |
| Api.SubstitutionIsSequential | shared/routes.ts:159-163 | for any path and keys, a value that is a later key's placeholder is itself substituted by that later key's value |
| Api.DollarPatternExpanded | shared/routes.ts:161 | for any path and key, a value starting with '$&' puts the matched placeholder back in front of the rest of the value |
| Api.ParseSort | shared/routes.ts:28 | accepts an absent sort or exactly 'newest', 'popular' and 'expiring', and names the value it parsed |
| Api.SortNameRoundTrip | shared/routes.ts:28 | parsing a sort name's text gives the name back |
| Api.SortNamesSelectOrders | server/storage.ts:73-78 | 'newest' and 'expiring' select their orders; 'popular' selects the same order as no sort |
| Server.QueryValue | server/routes.ts:22-26 | a value is read iff the key occurs, and it is a value paired with that key |
| Server.NumberParam | server/routes.ts:23-24 | an absent or empty parameter gives no number; any other gives `Number(value)` |
| Server.ParseListQuery | server/routes.ts:21-27 | includeInactive holds iff the query says exactly 'true'; search and sort pass through; ids are `Number()` of non-empty values |
| Server.IncludeInactiveOnlyForTrue | server/routes.ts:26 | any value other than 'true' keeps inactive coupons out |
| Server.ZeroOrJunkIdsIgnored | server/routes.ts:23-24 | ids '0' and 'abc' filter nothing |
| Server.DecimalIdFilters | server/routes.ts:23 | a positive decimal id filters on exactly that id |
| Server.ListRoute | server/routes.ts:20-30 | answers 200 with exactly the coupons the parsed filters accept iff every applied id filter fits a 32-bit integer column, and leaves the request unanswered otherwise |
| Server.OutOfRangeIdUnanswered | server/routes.ts:20-30 | a categoryId of 2147483648 or more leaves the listing request unanswered |
| Server.PatchRoute | server/routes.ts:32-44 | 400 with the first schema message iff the body fails the update schema; a valid body that supplies no column, or a valid body with a path id outside the 32-bit integer range, leaves the request unanswered; 404 'Coupon not found' iff the id is in range and unknown; for a known in-range id and a supplied column, 200 iff the resulting references exist, and then the store holds the updated row; a foreign-key failure leaves the request unanswered and the store unchanged |
| Server.PatchThenGet | server/routes.ts:32-44 | after a 200 from PATCH, reading the coupon back gives the answered row, and every other id reads as before |
| Server.PatchExpiryRejected | server/routes.ts:32-44 | a body that gives an expiry date and no null text column is answered 400 'Expected date, received string', store unchanged |
| Server.EmptyPatchUnanswered | server/routes.ts:32-44 | a body that gives only successScore supplies no column, so the request is left unanswered and the store unchanged |
| Server.DeleteRoute | server/routes.ts:46-49 | answers 204 and removes exactly that id, except when the coupon has feedback or the id lies outside the 32-bit integer range, which leaves the request unanswered and the store unchanged; an unknown in-range id gives 204 and no change |
| Server.ClickRoute | server/routes.ts:51-54 | 200 with the new count iff the id is in the 32-bit integer range and the coupon exists, else unanswered; an in-range id adds an audit row either way, and an out-of-range id writes nothing |
| Server.ConvertRoute | server/routes.ts:56-59 | 200 with the new count iff the id is in the 32-bit integer range and the coupon exists; otherwise unanswered with the store unchanged |
| Server.OutOfRangePathIdUnanswered | server/routes.ts:32-59 | with path id 3000000000, a valid PATCH, the DELETE, the click and the conversion all go unanswered and leave the store unchanged |
| Server.SeedTables | server/routes.ts:91-109 | seeding categories and brands leaves the coupons, feedback, clicks and the coupon id sequence untouched |
| Server.SeedWith | server/routes.ts:88-140 | a store that already has categories is returned unchanged; otherwise seeding keeps the votes and clicks, and only appends at most two coupons |
| Server.SeedDatabase | server/routes.ts:88-140 | the same for the shipped seed lists: a seeded store is left alone, votes and clicks are kept, and at most two coupons are appended |
| Server.SlugsAfterSeeding | server/routes.ts:91-113 | seed lists holding 'flights', 'shopping', 'amazon' and 'makemytrip' leave those four slugs present, whatever the tables held before |
| Server.SeededSlugsPresent | server/routes.ts:91-113 | after the category and brand seeds, the slugs the seed coupons look up all exist |
| Server.SeedWithFills | server/routes.ts:88-139 | with no categories and seed lists holding the looked-up slugs, both tables end up non-empty and exactly the two coupon inserts follow |
| Server.SeedFillsEmptyStore | server/routes.ts:88-139 | with no categories, the seed fills both tables and then inserts the flights coupon and the electronics coupon, in that order |
| Server.SeedOnlyWhenEmpty | server/routes.ts:89-90 | with any category present the seed changes nothing |
| Server.SeedWithIdempotent | server/routes.ts:88-140 | for any seed lists holding the looked-up slugs, seeding twice equals seeding once |
| Server.SeedIdempotent | server/routes.ts:88-140 | seeding twice, at any two times, equals seeding once |
| Server.SeedInserts | server/routes.ts:115-138 | on tables that hold the looked-up slugs, the two inserts succeed and store FLY50 (score 85, a week out) and TECH10 (score 92, three days out), both active |
| Server.TwoInserts | server/storage.ts:108-111 | two inserts into an empty coupon table, both with existing references, leave exactly their two rows, in order, with consecutive ids |
| Server.SeedWithCoupons | server/routes.ts:88-140 | for any seed lists holding the looked-up slugs, an empty database ends with exactly the two seed coupons |
| Server.SeededCoupons | server/routes.ts:88-140 | on an empty database the seed leaves exactly those two coupons |
| Server.SeedCouponsOrder | server/routes.ts:116-137 | on the seeded coupons the default listing is TECH10 then FLY50, and 'expiring' is FLY50 then TECH10 |
| Server.SeedWithValid | server/routes.ts:88-140 | for any seed lists holding the looked-up slugs, seeding preserves the store invariant |
| Server.SeedDatabaseValid | server/routes.ts:88-140 | seeding preserves the store invariant |
| CouponQuery.TextParam | client/src/hooks/use-coupons.ts:12 | a text filter is sent iff it is present and non-empty |
| CouponQuery.IdParam | client/src/hooks/use-coupons.ts:13-14 | an id filter is sent iff it is present and non-zero |
| CouponQuery.BuildListQuery | client/src/hooks/use-coupons.ts:11-15 | only the keys search, categoryId, brandId and sort are sent, at most one each |
| CouponQuery.BuildListQueryOrder | client/src/hooks/use-coupons.ts:12-15 | keys are sent in the order search, categoryId, brandId, sort |
| CouponQuery.ClientNeverIncludesInactive | client/src/hooks/use-coupons.ts:11-15 | the client never asks for inactive coupons |
| CouponQuery.SentValues | client/src/hooks/use-coupons.ts:12-15 | the server reads back, for each key, the value the client sent, or nothing when it sent none |
| CouponQuery.QueryRoundTrip | client/src/hooks/use-coupons.ts:11-15 | parsing the client's query gives back exactly the truthy filters, with active coupons only |
| CouponQuery.ListingMatchesClientFilters | client/src/hooks/use-coupons.ts:11-15 | the server lists exactly what the client's filters select, falsy ones included |
| CouponCard.ScoreBucket | client/src/components/CouponCard.tsx:35-47 | gray iff the score is null or 0; green iff at least 70; yellow iff 40 to 69; red iff non-zero and below 40 |
| CouponCard.ScoreColor | client/src/components/CouponCard.tsx:35-40 | the badge classes are those of the score's bucket |
| CouponCard.ScoreBarColor | client/src/components/CouponCard.tsx:42-47 | the bar classes are those of the score's bucket |
| CouponCard.ColoursAgree | client/src/components/CouponCard.tsx:35-47 | the badge colour chain and the bar colour chain pick the same bucket |
| CouponCard.ClassesDistinguishBuckets | client/src/components/CouponCard.tsx:35-47 | different buckets always get different badge classes and different bar classes |
| CouponCard.DisplayScore | client/src/components/CouponCard.tsx:82 | the displayed score is 0 iff the bucket is gray, and is the score itself otherwise |
| CouponCard.LitBars | client/src/components/CouponCard.tsx:74-78 | at most three bars are lit |
| CouponCard.LitBarsByRange | client/src/components/CouponCard.tsx:74-78 | 0, 1, 2 or 3 bars are lit for scores up to 25, 26-50, 51-75 and above 75; bar k is lit iff k does not exceed the lit count |
| CouponCard.LitBarsMonotone | client/src/components/CouponCard.tsx:78 | a higher score never lights fewer bars |
| CouponCard.NullScoreLooksLikeZero | client/src/components/CouponCard.tsx:36-43 | a null score displays, colours and lights bars exactly like 0 |

## Left out

- The vote, validate and AI-scoring handlers are not modelled, nor the chat, image and auth integrations. Scoring calls an external model, and none of these is part of the store core. `Schema.ParseConfidence` covers only the enum of the validate response.
- getBrands, getCategories, getUser, createUser and the brand/category POST handlers are not modelled separately. The first four are plain table reads or writes; the POST handlers call the modelled get-or-create.
- The users table and the `userId` foreign keys are not modelled: the users table is not part of this model. User ids are opaque optional strings.
- The clicks table, the coupons' `clickCount`/`conversionCount` columns and the categories' `parentId` column do not appear in shared/schema.ts. The model takes their shapes from how server/storage.ts uses them: counters default to 0, a click row has an id, a coupon id (an `integer` column, like every id column) and an optional user, and `parentId` is an optional integer that the get-or-create and the seed of server/storage.ts:196-206 write as they receive it. No foreign key is assumed on clicks or on `parentId`.
- Concurrency is not modelled. Each store operation is one atomic step, so `StoreProps.ClickTimes` states the no-lost-update property for sequential calls only.
- Time is a parameter (`now`) rather than a clock reading. The seed uses one reading for both expiry dates and the insert times, whereas the original reads the clock separately for each.
- Server.PatchRoute, Server.DeleteRoute, Server.ClickRoute, Server.ConvertRoute: path ids are integers. A non-numeric path id makes `Number(req.params.id)` NaN, which PostgreSQL rejects as an `integer` parameter just as it rejects an out-of-range one, so the request goes unanswered and no audit row is written. The model states that behaviour for out-of-range integer ids; the NaN input itself is not modelled.
- Text.JsNumber: recognises only decimal integers with an optional leading '+' or '-', and the empty string. Whitespace, decimals, exponents, hex and 'Infinity' all give NaN, unlike JavaScript.
- Text.Lower: folds ASCII letters only, as does the `ILIKE` matcher. There is no Unicode case mapping.
- Query strings are pairs of already-decoded strings. URL encoding, repeated keys read as arrays by Express, and the `URL` object's serialisation are left out.
- `buildUrl` takes its params as a sequence in `Object.entries` order. JavaScript's reordering of integer-like keys is not modelled.
- The listing's left joins are modelled as lookups of the first row with the referenced id. A join that matches several rows cannot happen while ids are unique.
- Storage.DeleteCoupon: the schema declares no cascade, so deleting a coupon that has feedback is rejected by the foreign key. The handler then never answers, instead of the 204 the route contract lists; `Server.DeleteRoute` states this case.
- The UI rendering beyond the score badge and bars is not modelled: layout, animation, CategoryPill, pages and the admin screens.
- Server.ClickRoute and Server.ConvertRoute: an unknown id makes the original throw, and the request is left unanswered. The 404 listed in the route contract is never sent.
- Storage.RecordClick, Storage.RecordConversion, Server.ListRoute: counters and serial ids are unbounded integers. In the database they are 32-bit `integer` columns, so the increment that would pass 2147483647 fails with 'integer out of range' and leaves the request unanswered (for a click, after the audit row is written). Only the listing's id filters and the handlers' path ids are bounded in the model.
- Schema.CouponBody: fields arrive already typed (text, integer, boolean), so zod's type errors such as `"code": 5` or `"categoryId": "3"` are not modelled. A given `expiryDate` is always the string JSON makes of a date, which the date column rejects.

## Findings

| source | as written | input that shows it | evidently intended | confidence | as-written member | corrected member |
|---|---|---|---|---|---|---|
| server/storage.ts:144-151 | the click audit row is inserted before the update that finds out whether the coupon exists; for an unknown id the update returns no row and the call throws, but the audit row stays | on an empty database, a click on coupon 1 then the creation of a coupon (which receives id 1): the coupon's `clickCount` is 0 while one audit row names it | a click on an unknown coupon writes nothing, so every coupon's `clickCount` equals its number of audit rows | medium, not executed | Storage.RecordClick, ClickAudit.OrphanClickMiscounts | Storage.RecordClickChecked, ClickAudit.RecordClickCheckedBacked |

The route contract (shared/routes.ts:90-97) answers a click on an unknown coupon with 404 Not Found, which leaves nothing behind. The code writes the audit row first. The model follows the code in `Storage.RecordClick`, and gives the intended behaviour in `Storage.RecordClickChecked`.

=== FILE: api.dfy ===
/**
 * The shared API contract: the route paths, `buildUrl`'s template
 * substitution, and the list endpoint's `sort` enum.
 */
module Api {
  import opened Wrappers
  import opened Text
  import opened Schema
  import opened Ordering
  import opened Storage

  // ---------------------------------------------------------------------
  // Paths

  const ListPath := "/api/coupons"
  const CouponPath := "/api/coupons/:id"
  const ValidatePath := "/api/coupons/:id/validate"
  const VotePath := "/api/coupons/:id/vote"
  const ClickPath := "/api/coupons/:id/click"
  const ConvertPath := "/api/coupons/:id/convert"
  const AnalyticsPath := "/api/admin/analytics"

  // ---------------------------------------------------------------------
  // `buildUrl`

  /** A value of the `params` record: `string | number` (integers here). */
  datatype ParamValue = Str(text: string) | Num(n: int)

  /** `String(value)`. */
  function ParamString(v: ParamValue): (r: string)
    ensures v.Str? ==> r == v.text
    ensures v.Num? ==> JsNumber(r) == Finite(v.n)
  {
    match v
    case Str(t) => t
    case Num(n) => NumberOfIntToString(n); IntToString(n)
  }

  predicate NoDollar(s: string)
  {
    forall i :: 0 <= i < |s| ==> s[i] != '$'
  }

  /**
   * The replacement text `String.prototype.replace` inserts for a string
   * pattern: `$$` is a dollar, `$&` the match, `` $` `` the text before it,
   * `$'` the text after it, and any other `$` stands for itself.
   */
  function ExpandReplacement(rep: string, matched: string, before: string, after: string): string
    decreases |rep|
  {
    if |rep| == 0 then ""
    else if rep[0] == '$' && |rep| >= 2 && rep[1] == '$' then "$" + ExpandReplacement(rep[2..], matched, before, after)
    else if rep[0] == '$' && |rep| >= 2 && rep[1] == '&' then matched + ExpandReplacement(rep[2..], matched, before, after)
    else if rep[0] == '$' && |rep| >= 2 && rep[1] == '`' then before + ExpandReplacement(rep[2..], matched, before, after)
    else if rep[0] == '$' && |rep| >= 2 && rep[1] == '\'' then after + ExpandReplacement(rep[2..], matched, before, after)
    else [rep[0]] + ExpandReplacement(rep[1..], matched, before, after)
  }

  /** Without a dollar sign the replacement is inserted as it is. */
  lemma {:induction false} ExpandPlain(rep: string, matched: string, before: string, after: string)
    requires NoDollar(rep)
    ensures ExpandReplacement(rep, matched, before, after) == rep
    decreases |rep|
  {
    if |rep| > 0 {
      ExpandPlain(rep[1..], matched, before, after);
      assert rep == [rep[0]] + rep[1..];
    }
  }

  /** `s.replace(pat, rep)` for a string `pat`: only the first occurrence is replaced. */
  function ReplaceFirst(s: string, pat: string, rep: string): (r: string)
    ensures IndexOf(s, pat).None? ==> r == s
  {
    match IndexOf(s, pat)
    case None => s
    case Some(i) =>
      var before, after := s[..i], s[i + |pat|..];
      before + ExpandReplacement(rep, pat, before, after) + after
  }

  /** The first occurrence of `pat` is replaced by a dollar-free `rep`; the rest of `s` stays. */
  lemma ReplaceFirstPlain(s: string, pat: string, rep: string)
    requires NoDollar(rep)
    requires IndexOf(s, pat).Some?
    ensures var i := IndexOf(s, pat).value;
      ReplaceFirst(s, pat, rep) == s[..i] + rep + s[i + |pat|..]
  {
    var i := IndexOf(s, pat).value;
    ExpandPlain(rep, pat, s[..i], s[i + |pat|..]);
  }

  /** The placeholder a parameter named `key` fills. */
  function Placeholder(key: string): string { ":" + key }

  /** A URL without a colon holds no placeholder. */
  lemma NoColonNoPlaceholder(url: string, key: string)
    ensures (forall i :: 0 <= i < |url| ==> url[i] != ':') ==> IndexOf(url, Placeholder(key)).None?
  {
    if (forall i :: 0 <= i < |url| ==> url[i] != ':') && Contains(url, Placeholder(key)) {
      var j :| OccursAt(url, Placeholder(key), j);
      assert url[j..j + |Placeholder(key)|][0] == ':';
    }
  }

  /** The `forEach` over the entries: each step works on the previous step's URL. */
  function Substitute(url: string, params: seq<(string, ParamValue)>): (r: string)
    ensures (forall i :: 0 <= i < |url| ==> url[i] != ':') ==> r == url
    decreases |params|
  {
    if |params| == 0 then url
    else
      var (key, value) := params[0];
      NoColonNoPlaceholder(url, key);
      var next := if IndexOf(url, Placeholder(key)).Some? then ReplaceFirst(url, Placeholder(key), ParamString(value)) else url;
      Substitute(next, params[1..])
  }

  /** `buildUrl(path, params?)`; the entries are in the record's own order. */
  function BuildUrl(path: string, params: Option<seq<(string, ParamValue)>>): (r: string)
    ensures (forall i :: 0 <= i < |path| ==> path[i] != ':') ==> r == path
  {
    if params.None? then path else Substitute(path, params.value)
  }

  /** Without parameters, or with an empty record, the path comes back unchanged. */
  lemma BuildUrlWithoutParams(path: string)
    ensures BuildUrl(path, None) == path
    ensures BuildUrl(path, Some([])) == path
  {
  }

  /** A parameter whose placeholder is not in the URL is skipped. */
  lemma MissingKeyIgnored(url: string, key: string, v: ParamValue, rest: seq<(string, ParamValue)>)
    requires !Contains(url, Placeholder(key))
    ensures Substitute(url, [(key, v)] + rest) == Substitute(url, rest)
  {
    assert ([(key, v)] + rest)[1..] == rest;
  }

  /** A template whose only colon starts the placeholder: the first match is right there. */
  lemma PlaceholderFoundAt(pre: string, key: string, post: string)
    requires forall i :: 0 <= i < |pre| ==> pre[i] != ':'
    ensures IndexOf(pre + Placeholder(key) + post, Placeholder(key)) == Some(|pre|)
  {
    var s := pre + Placeholder(key) + post;
    var p := Placeholder(key);
    assert s[|pre|..|pre| + |p|] == p;
    assert OccursAt(s, p, |pre|);
    forall j | 0 <= j < |pre| ensures !OccursAt(s, p, j) {
      assert s[j] == pre[j];
      assert p[0] == ':';
    }
    assert Contains(s, p);
  }

  /**
   * Filling the single placeholder of `pre:keypost` with a dollar-free value
   * yields `pre`, the value and `post`.
   */
  lemma FillOnePlaceholder(pre: string, key: string, post: string, v: ParamValue)
    requires forall i :: 0 <= i < |pre| ==> pre[i] != ':'
    requires NoDollar(ParamString(v))
    ensures BuildUrl(pre + Placeholder(key) + post, Some([(key, v)])) == pre + ParamString(v) + post
  {
    var s := pre + Placeholder(key) + post;
    PlaceholderFoundAt(pre, key, post);
    ReplaceFirstPlain(s, Placeholder(key), ParamString(v));
    assert s[..|pre|] == pre;
    assert s[|pre| + |Placeholder(key)|..] == post;
    var filled := ReplaceFirst(s, Placeholder(key), ParamString(v));
    assert [(key, v)][1..] == [];
    assert Substitute(s, [(key, v)]) == Substitute(filled, []);
  }

  /** Every coupon route fills its id the same way: `/api/coupons/<id><suffix>`. */
  lemma CouponRoutesWithId(n: int)
    ensures BuildUrl(CouponPath, Some([("id", Num(n))])) == "/api/coupons/" + IntToString(n)
    ensures BuildUrl(ValidatePath, Some([("id", Num(n))])) == "/api/coupons/" + IntToString(n) + "/validate"
    ensures BuildUrl(VotePath, Some([("id", Num(n))])) == "/api/coupons/" + IntToString(n) + "/vote"
    ensures BuildUrl(ClickPath, Some([("id", Num(n))])) == "/api/coupons/" + IntToString(n) + "/click"
    ensures BuildUrl(ConvertPath, Some([("id", Num(n))])) == "/api/coupons/" + IntToString(n) + "/convert"
  {
    var pre := "/api/coupons/";
    assert CouponPath == pre + Placeholder("id") + "";
    assert ValidatePath == pre + Placeholder("id") + "/validate";
    assert VotePath == pre + Placeholder("id") + "/vote";
    assert ClickPath == pre + Placeholder("id") + "/click";
    assert ConvertPath == pre + Placeholder("id") + "/convert";
    FillOnePlaceholder(pre, "id", "", Num(n));
    FillOnePlaceholder(pre, "id", "/validate", Num(n));
    FillOnePlaceholder(pre, "id", "/vote", Num(n));
    FillOnePlaceholder(pre, "id", "/click", Num(n));
    FillOnePlaceholder(pre, "id", "/convert", Num(n));
  }

  /**
   * Substitution is sequential: a value that is itself a later key's
   * placeholder is filled in by that later parameter.
   */
  lemma SubstitutionIsSequential(pre: string, a: string, b: string, post: string, y: string)
    requires forall i :: 0 <= i < |pre| ==> pre[i] != ':'
    requires NoDollar(b) && NoDollar(y)
    ensures BuildUrl(pre + Placeholder(a) + post, Some([(a, Str(Placeholder(b))), (b, Str(y))])) == pre + y + post
  {
    var s := pre + Placeholder(a) + post;
    var params := [(a, Str(Placeholder(b))), (b, Str(y))];
    assert NoDollar(Placeholder(b)) by {
      forall i | 0 <= i < |Placeholder(b)| ensures Placeholder(b)[i] != '$' {
        if i > 0 {
          assert Placeholder(b)[i] == b[i - 1];
        }
      }
    }
    var next := pre + Placeholder(b) + post;
    PlaceholderFoundAt(pre, a, post);
    ReplaceFirstPlain(s, Placeholder(a), Placeholder(b));
    assert s[..|pre|] == pre && s[|pre| + |Placeholder(a)|..] == post;
    assert ReplaceFirst(s, Placeholder(a), Placeholder(b)) == next;
    assert params[1..] == [(b, Str(y))];
    assert Substitute(s, params) == Substitute(next, params[1..]);
    FillOnePlaceholder(pre, b, post, Str(y));
  }

  /** A `$&` in a value is expanded to the placeholder it replaces. */
  lemma DollarPatternExpanded(pre: string, key: string, post: string, rest: string)
    requires forall i :: 0 <= i < |pre| ==> pre[i] != ':'
    requires NoDollar(rest)
    ensures BuildUrl(pre + Placeholder(key) + post, Some([(key, Str("$&" + rest))])) == pre + Placeholder(key) + rest + post
  {
    var p := Placeholder(key);
    var s := pre + p + post;
    PlaceholderFoundAt(pre, key, post);
    assert s[..|pre|] == pre && s[|pre| + |p|..] == post;
    ExpandMatch(rest, p, pre, post);
    var filled := ReplaceFirst(s, p, "$&" + rest);
    assert filled == pre + p + rest + post;
    assert [(key, Str("$&" + rest))][1..] == [];
    assert Substitute(s, [(key, Str("$&" + rest))]) == Substitute(filled, []);
  }

  /** `$&` followed by dollar-free text expands to the match followed by that text. */
  lemma ExpandMatch(rest: string, matched: string, before: string, after: string)
    requires NoDollar(rest)
    ensures ExpandReplacement("$&" + rest, matched, before, after) == matched + rest
  {
    var rep := "$&" + rest;
    assert rep[0] == '$' && rep[1] == '&' && rep[2..] == rest;
    ExpandPlain(rest, matched, before, after);
  }

  // ---------------------------------------------------------------------
  // The list endpoint's `sort` enum

  datatype SortName = SortNewest | SortPopular | SortExpiring

  function SortNameText(n: SortName): string
  {
    match n
    case SortNewest => "newest"
    case SortPopular => "popular"
    case SortExpiring => "expiring"
  }

  /** `z.enum(['newest', 'popular', 'expiring']).optional()`. */
  function ParseSort(s: Option<string>): (r: Result<Option<SortName>, Issue>)
    ensures r.Success? <==> s.None? || s.value in {"newest", "popular", "expiring"}
    ensures r.Success? && r.value.Some? ==> s == Some(SortNameText(r.value.value))
    ensures r.Success? && r.value.None? ==> s.None?
  {
    match s
    case None => Success(None)
    case Some(t) =>
      if t == "newest" then Success(Some(SortNewest))
      else if t == "popular" then Success(Some(SortPopular))
      else if t == "expiring" then Success(Some(SortExpiring))
      else Failure(Issue("sort", "Invalid enum value. Expected 'newest' | 'popular' | 'expiring'"))
  }

  /** Every accepted name parses back to itself. */
  lemma SortNameRoundTrip(n: SortName)
    ensures ParseSort(Some(SortNameText(n))) == Success(Some(n))
  {
  }

  /** The store orders each accepted name as named: 'popular' is the default order. */
  lemma SortNamesSelectOrders()
    ensures SortKeyOf(Some(SortNameText(SortNewest))) == Newest
    ensures SortKeyOf(Some(SortNameText(SortExpiring))) == Expiring
    ensures SortKeyOf(Some(SortNameText(SortPopular))) == SortKeyOf(None) == ScoreThenNewest
  {
  }
}

=== FILE: card.dfy ===
/**
 * The success-score badge of a coupon card: its colour bucket, its three
 * bars and the percentage it shows. A score is a nullable integer column.
 */
module CouponCard {
  import opened Wrappers

  datatype Bucket = Gray | Green | Yellow | Red

  /** The thresholds: a falsy score (NULL or 0) is gray, then 70 and 40. */
  function ScoreBucket(score: Option<int>): (b: Bucket)
    ensures b == Gray <==> score.None? || score.value == 0
    ensures b == Green <==> score.Some? && score.value >= 70
    ensures b == Yellow <==> score.Some? && 40 <= score.value < 70
    ensures b == Red <==> score.Some? && score.value != 0 && score.value < 40
  {
    if score.None? || score.value == 0 then Gray
    else if score.value >= 70 then Green
    else if score.value >= 40 then Yellow
    else Red
  }

  function BadgeClasses(b: Bucket): string
  {
    match b
    case Gray => "bg-gray-200 text-gray-600"
    case Green => "bg-green-100 text-green-700 border-green-200"
    case Yellow => "bg-yellow-100 text-yellow-700 border-yellow-200"
    case Red => "bg-red-100 text-red-700 border-red-200"
  }

  function BarClasses(b: Bucket): string
  {
    match b
    case Gray => "bg-gray-300"
    case Green => "bg-green-500"
    case Yellow => "bg-yellow-500"
    case Red => "bg-red-500"
  }

  /** `getScoreColor(score)`, with its own chain of tests. */
  function ScoreColor(score: Option<int>): (r: string)
    ensures r == BadgeClasses(ScoreBucket(score))
  {
    if score.None? || score.value == 0 then "bg-gray-200 text-gray-600"
    else if score.value >= 70 then "bg-green-100 text-green-700 border-green-200"
    else if score.value >= 40 then "bg-yellow-100 text-yellow-700 border-yellow-200"
    else "bg-red-100 text-red-700 border-red-200"
  }

  /** `getScoreBarColor(score)`, with its own chain of tests. */
  function ScoreBarColor(score: Option<int>): (r: string)
    ensures r == BarClasses(ScoreBucket(score))
  {
    if score.None? || score.value == 0 then "bg-gray-300"
    else if score.value >= 70 then "bg-green-500"
    else if score.value >= 40 then "bg-yellow-500"
    else "bg-red-500"
  }

  /** Badge and bars always pick the same bucket, and each bucket has its own classes. */
  lemma ColoursAgree(score: Option<int>)
    ensures ScoreColor(score) == BadgeClasses(ScoreBucket(score))
    ensures ScoreBarColor(score) == BarClasses(ScoreBucket(score))
  {
  }

  lemma ClassesDistinguishBuckets(a: Bucket, b: Bucket)
    ensures BadgeClasses(a) == BadgeClasses(b) <==> a == b
    ensures BarClasses(a) == BarClasses(b) <==> a == b
  {
  }

  /** `coupon.successScore || 0`: the percentage shown. */
  function DisplayScore(score: Option<int>): (r: int)
    ensures r == 0 <==> ScoreBucket(score) == Gray
    ensures score.Some? && score.value != 0 ==> r == score.value
  {
    if score.None? then 0 else score.value
  }

  /** Bar `bar` (1, 2 or 3) is drawn at full opacity when the shown score exceeds 25 per bar. */
  predicate BarLit(score: Option<int>, bar: int)
  {
    DisplayScore(score) > bar * 25
  }

  /** How many of the three bars are lit. */
  function LitBars(score: Option<int>): (n: nat)
    ensures n <= 3
  {
    (if BarLit(score, 1) then 1 else 0) + (if BarLit(score, 2) then 1 else 0) + (if BarLit(score, 3) then 1 else 0)
  }

  /** The lit bars are a prefix: bar 1, then bars 1 and 2, then all three, at 25, 50 and 75. */
  lemma LitBarsByRange(score: Option<int>)
    ensures var v := DisplayScore(score);
      && (v <= 25 ==> LitBars(score) == 0)
      && (25 < v <= 50 ==> LitBars(score) == 1)
      && (50 < v <= 75 ==> LitBars(score) == 2)
      && (75 < v ==> LitBars(score) == 3)
    ensures forall bar :: 1 <= bar <= 3 ==> (BarLit(score, bar) <==> bar <= LitBars(score))
  {
  }

  /** A higher score never lights fewer bars. */
  lemma LitBarsMonotone(a: int, b: int)
    requires a <= b
    ensures LitBars(Some(a)) <= LitBars(Some(b))
  {
  }

  /** A NULL score shows as 0%, lights no bar and is gray, exactly like a score of 0. */
  lemma NullScoreLooksLikeZero()
    ensures DisplayScore(None) == DisplayScore(Some(0)) == 0
    ensures LitBars(None) == LitBars(Some(0)) == 0
    ensures ScoreBucket(None) == ScoreBucket(Some(0)) == Gray
  {
  }
}

=== FILE: clicks.dfy ===
/**
 * The click audit table against the coupons' `clickCount` column. Clicks have
 * no foreign key, so `recordClick` as written leaves a row behind for an id no
 * coupon has; the checked variant writes nothing in that case, and then every
 * coupon's counter equals the number of click rows naming it.
 */
module ClickAudit {
  import opened Wrappers
  import opened Tables
  import opened Schema
  import opened Storage
  import opened StoreProps
  import opened StoreValid

  function ClickFor(id: int): Click -> bool { (k: Click) => k.couponId == id }

  /** Number of audit rows naming coupon `id`. */
  function ClicksOn(s: Store, id: int): nat
  {
    Count(s.clicks, ClickFor(id))
  }

  /**
   * Every click row names an id already handed out to a coupon, and every
   * coupon's counter equals the number of rows naming it.
   */
  predicate ClicksBacked(s: Store)
  {
    && (forall k :: k in s.clicks ==> k.couponId < s.nextCouponId)
    && (forall c :: c in s.coupons ==> c.clickCount == ClicksOn(s, c.id))
  }

  lemma EmptyStoreClicksBacked()
    ensures ClicksBacked(EmptyStore())
  {
  }

  /** Appending a click row adds one to the count of its coupon and to no other. */
  lemma ClicksOnAppend(s: Store, k: Click, id: int)
    ensures Count(s.clicks + [k], ClickFor(id)) == ClicksOn(s, id) + (if k.couponId == id then 1 else 0)
  {
    WhereAppend(s.clicks, k, ClickFor(id));
  }

  /** An id at or above the coupon sequence has no click rows in a backed store. */
  lemma NoClicksOnFreshId(s: Store, id: int)
    requires ClicksBacked(s)
    requires id >= s.nextCouponId
    ensures ClicksOn(s, id) == 0
  {
    WhereNone(s.clicks, ClickFor(id));
  }

  // ---------------------------------------------------------------------
  // The corrected click keeps the audit in step

  /** One row of the coupon table after a checked click agrees with the click rows. */
  lemma CheckedClickRowBacked(s: Store, id: int, userId: Option<string>, i: int)
    requires ClicksBacked(s)
    requires CouponById(s, id).Some?
    requires 0 <= i < |s.coupons|
    ensures var t := RecordClickChecked(s, id, userId).store;
      0 <= i < |t.coupons| && t.coupons[i].clickCount == ClicksOn(t, t.coupons[i].id)
  {
    var k := Click(s.nextClickId, id, userId);
    var t := RecordClickChecked(s, id, userId).store;
    var before := s.coupons[i];
    assert before in s.coupons;
    assert t.clicks == s.clicks + [k];
    assert t.coupons == UpdateWhereId(s.coupons, id, BumpClicks);
    assert t.coupons[i] == if before.id == id then BumpClicks(before) else before;
    ClicksOnAppend(s, k, before.id);
  }

  lemma RecordClickCheckedBacked(s: Store, id: int, userId: Option<string>)
    requires Valid(s) && ClicksBacked(s)
    ensures ClicksBacked(RecordClickChecked(s, id, userId).store)
  {
    if CouponById(s, id).Some? {
      var t := RecordClickChecked(s, id, userId).store;
      assert CouponById(s, id).value in s.coupons;
      forall c | c in t.coupons ensures c.clickCount == ClicksOn(t, c.id) {
        var i :| 0 <= i < |t.coupons| && t.coupons[i] == c;
        CheckedClickRowBacked(s, id, userId, i);
      }
    }
  }

  lemma CreateCouponBacked(s: Store, c: CouponInsert, now: Timestamp)
    requires Valid(s) && ClicksBacked(s)
    ensures ClicksBacked(CreateCoupon(s, c, now).store)
  {
    var r := CreateCoupon(s, c, now);
    if r.result.Success? {
      NoClicksOnFreshId(s, s.nextCouponId);
    }
  }

  lemma RecordConversionBacked(s: Store, id: int)
    requires Valid(s) && ClicksBacked(s)
    ensures ClicksBacked(RecordConversion(s, id).store)
  {
    var t := RecordConversion(s, id).store;
    forall c | c in t.coupons ensures c.clickCount == ClicksOn(t, c.id) {
      var i :| 0 <= i < |t.coupons| && t.coupons[i] == c;
      assert s.coupons[i] in s.coupons;
    }
  }

  lemma UpdateCouponBacked(s: Store, id: int, u: CouponUpdate)
    requires Valid(s) && ClicksBacked(s)
    ensures ClicksBacked(UpdateCoupon(s, id, u).store)
  {
    var t := UpdateCoupon(s, id, u).store;
    forall c | c in t.coupons ensures c.clickCount == ClicksOn(t, c.id) {
      var i :| 0 <= i < |t.coupons| && t.coupons[i] == c;
      assert s.coupons[i] in s.coupons;
    }
  }

  lemma DeleteCouponBacked(s: Store, id: int)
    requires Valid(s) && ClicksBacked(s)
    requires DeleteCoupon(s, id).Success?
    ensures ClicksBacked(DeleteCoupon(s, id).value)
  {
  }

  // ---------------------------------------------------------------------
  // The click as written

  /**
   * A click on an id the sequence has not reached yet fails, yet its row stays
   * and names no coupon, so the audit is no longer backed.
   */
  lemma RecordClickUnknownLeavesRow(s: Store, id: int, userId: Option<string>)
    requires Valid(s) && ClicksBacked(s)
    requires id >= s.nextCouponId
    ensures RecordClick(s, id, userId).result.Failure?
    ensures |RecordClick(s, id, userId).store.clicks| == |s.clicks| + 1
    ensures !ClicksBacked(RecordClick(s, id, userId).store)
  {
    assert CouponById(s, id).None?;
    var t := RecordClick(s, id, userId).store;
    assert t.clicks[|s.clicks|] in t.clicks;
  }

  /** A coupon with no references, as a client would create it. */
  function PlainInsert(): CouponInsert
  {
    CouponInsert("FLY50", "50% off flights", "Half price", None, None, "50%", None,
                 "https://example.com", Absent, None, None)
  }

  /**
   * A click on coupon 1 of an empty database fails; the coupon created next
   * gets id 1 and a `clickCount` of 0, but one click row already names it.
   */
  lemma OrphanClickMiscounts()
    ensures var s1 := RecordClick(EmptyStore(), 1, None);
      && s1.result.Failure?
      && var s2 := CreateCoupon(s1.store, PlainInsert(), 0).store;
      && CouponById(s2, 1).Some?
      && CouponById(s2, 1).value.clickCount == 0
      && ClicksOn(s2, 1) == 1
  {
    var s1 := RecordClick(EmptyStore(), 1, None).store;
    var s2 := CreateCoupon(s1, PlainInsert(), 0).store;
    assert s2.coupons[0].id == 1;
    assert Where(s2.clicks, ClickFor(1)) == s2.clicks;
  }

  /** The corrected click on the same empty database changes nothing. */
  lemma CheckedClickLeavesNoRow()
    ensures RecordClickChecked(EmptyStore(), 1, None) == Step(EmptyStore(), Failure(NoRowReturned))
  {
  }
}

=== FILE: like.dfy ===
/**
 * PostgreSQL `ILIKE` pattern matching, as used by the coupon search filter:
 * `%` matches any run of characters, `_` exactly one, a backslash makes the next
 * pattern character literal, and letters compare after ASCII lower-casing.
 */
module Like {
  import opened Text

  /** Characters that are not literal inside a `LIKE` pattern. */
  predicate IsMeta(c: char)
  {
    c == '%' || c == '_' || c == '\\'
  }

  /** Text that `LIKE` reads literally. */
  predicate Literal(s: string)
  {
    forall i :: 0 <= i < |s| ==> !IsMeta(s[i])
  }

  /**
   * `t ILIKE p`. A pattern ending in a lone backslash is an error in PostgreSQL;
   * the search patterns built here always end in `%`, so that case never arises
   * and is read here as a literal backslash.
   */
  predicate ILike(t: string, p: string)
    ensures |p| > 0 && (forall i :: 0 <= i < |p| ==> p[i] == '%') ==> ILike(t, p)
    decreases |p|, |t|
  {
    if |p| == 0 then |t| == 0
    else if p[0] == '%' then ILike(t, p[1..]) || (|t| > 0 && ILike(t[1..], p))
    else if p[0] == '_' then |t| > 0 && ILike(t[1..], p[1..])
    else if p[0] == '\\' && |p| >= 2 then |t| > 0 && LowerChar(t[0]) == LowerChar(p[1]) && ILike(t[1..], p[2..])
    else |t| > 0 && LowerChar(t[0]) == LowerChar(p[0]) && ILike(t[1..], p[1..])
  }

  /** The pattern `%${search}%` built by the listing query. */
  function SearchPattern(search: string): string
  {
    "%" + search + "%"
  }

  /** Equal after ASCII lower-casing. */
  predicate EqualIgnoringCase(a: string, b: string)
  {
    |a| == |b| && forall i :: 0 <= i < |a| ==> LowerChar(a[i]) == LowerChar(b[i])
  }

  /** `s` occurs in `t`, ignoring ASCII case. */
  ghost predicate ContainsIgnoringCase(t: string, s: string)
  {
    exists i :: MatchesAt(t, s, i)
  }

  /** `s` occurs in `t` at index `i`, ignoring ASCII case. */
  predicate MatchesAt(t: string, s: string, i: int)
  {
    0 <= i && i + |s| <= |t| && EqualIgnoringCase(t[i..i + |s|], s)
  }

  lemma {:induction false} TrailingPercentMatchesAll(t: string)
    ensures ILike(t, "%")
    decreases |t|
  {
    assert "%"[1..] == "";
    if |t| > 0 {
      TrailingPercentMatchesAll(t[1..]);
    }
  }

  /** A literal followed by `%` matches exactly the texts that start with it. */
  lemma {:induction false} LiteralPrefix(t: string, s: string)
    requires Literal(s)
    ensures ILike(t, s + "%") <==> |s| <= |t| && EqualIgnoringCase(t[..|s|], s)
    decreases |s|
  {
    if |s| == 0 {
      assert s + "%" == "%";
      TrailingPercentMatchesAll(t);
    } else {
      var p := s + "%";
      assert p[0] == s[0] && !IsMeta(s[0]);
      assert p[1..] == s[1..] + "%";
      assert Literal(s[1..]) by {
        forall i | 0 <= i < |s[1..]| ensures !IsMeta(s[1..][i]) {
          assert s[1..][i] == s[i + 1];
        }
      }
      if |t| > 0 {
        LiteralPrefix(t[1..], s[1..]);
        if |s| <= |t| {
          assert t[1..][..|s| - 1] == t[..|s|][1..];
          EqualIgnoringCaseCons(t[..|s|], s);
        }
      }
    }
  }

  lemma EqualIgnoringCaseCons(a: string, b: string)
    requires |a| == |b| > 0
    ensures EqualIgnoringCase(a, b) <==> LowerChar(a[0]) == LowerChar(b[0]) && EqualIgnoringCase(a[1..], b[1..])
  {
    if LowerChar(a[0]) == LowerChar(b[0]) && EqualIgnoringCase(a[1..], b[1..]) {
      forall i | 1 <= i < |a| ensures LowerChar(a[i]) == LowerChar(b[i]) {
        assert a[i] == a[1..][i - 1] && b[i] == b[1..][i - 1];
      }
    }
  }

  /** A leading `%` lets the rest of the pattern match any suffix of the text. */
  lemma {:induction false} LeadingPercent(t: string, q: string)
    ensures ILike(t, "%" + q) <==> exists i :: 0 <= i <= |t| && ILike(t[i..], q)
    decreases |t|
  {
    var p := "%" + q;
    assert p[1..] == q;
    assert t[0..] == t;
    if |t| > 0 {
      LeadingPercent(t[1..], q);
      if ILike(t[1..], p) {
        var i :| 0 <= i <= |t| - 1 && ILike(t[1..][i..], q);
        assert t[1..][i..] == t[i + 1..];
      }
      if exists i :: 0 <= i <= |t| && ILike(t[i..], q) {
        var i :| 0 <= i <= |t| && ILike(t[i..], q);
        if i > 0 {
          assert t[1..][i - 1..] == t[i..];
        }
      }
    }
  }

  /**
   * For a search text without `%`, `_` or backslash, the listing's pattern
   * `%search%` matches exactly the texts containing the search, ignoring case.
   */
  lemma SearchIsSubstring(t: string, search: string)
    requires Literal(search)
    ensures ILike(t, SearchPattern(search)) <==> ContainsIgnoringCase(t, search)
  {
    var q := search + "%";
    assert SearchPattern(search) == "%" + q;
    LeadingPercent(t, q);
    if ILike(t, SearchPattern(search)) {
      var i :| 0 <= i <= |t| && ILike(t[i..], q);
      LiteralPrefix(t[i..], search);
      assert t[i..][..|search|] == t[i..i + |search|];
      assert MatchesAt(t, search, i);
    }
    if ContainsIgnoringCase(t, search) {
      var i :| MatchesAt(t, search, i);
      LiteralPrefix(t[i..], search);
      assert t[i..][..|search|] == t[i..i + |search|];
    }
  }

  /** The example of the listing's behaviour: searching "fly" finds the code "FLY50". */
  lemma FlyMatchesFly50()
    ensures ILike("FLY50", SearchPattern("fly"))
  {
    SearchIsSubstring("FLY50", "fly");
    assert MatchesAt("FLY50", "fly", 0);
  }
}

=== FILE: listing_props.dfy ===
/** Properties of the coupon listing (`getCoupons`) and of the dashboard's top five. */
module ListingProps {
  import opened Wrappers
  import opened Tables
  import opened Text
  import opened Like
  import opened Schema
  import opened Ordering
  import opened Storage

  /** Two filters that every guard of the listing query reads the same way. */
  predicate SameEffect(f: ListFilter, g: ListFilter)
  {
    && IdFilter(f.categoryId) == IdFilter(g.categoryId)
    && IdFilter(f.brandId) == IdFilter(g.brandId)
    && SearchFilter(f.search) == SearchFilter(g.search)
    && SortKeyOf(f.sort) == SortKeyOf(g.sort)
    && f.includeInactive == g.includeInactive
  }

  lemma SameEffectSameListing(s: Store, f: ListFilter, g: ListFilter)
    requires SameEffect(f, g)
    ensures ListCoupons(s, f) == ListCoupons(s, g)
  {
    forall c | c in s.coupons ensures EligibleUnder(f)(c) == EligibleUnder(g)(c) {
      assert Eligible(f, c) == Eligible(g, c);
    }
    WhereCongruent(s.coupons, EligibleUnder(f), EligibleUnder(g));
  }

  /** A category or brand filter of 0 or NaN is falsy and filters nothing, like no filter at all. */
  lemma FalsyIdsFilterNothing(s: Store, f: ListFilter)
    ensures ListCoupons(s, f.(categoryId := Some(Finite(0)))) == ListCoupons(s, f.(categoryId := None))
    ensures ListCoupons(s, f.(categoryId := Some(NaN))) == ListCoupons(s, f.(categoryId := None))
    ensures ListCoupons(s, f.(brandId := Some(Finite(0)))) == ListCoupons(s, f.(brandId := None))
    ensures ListCoupons(s, f.(brandId := Some(NaN))) == ListCoupons(s, f.(brandId := None))
  {
    SameEffectSameListing(s, f.(categoryId := Some(Finite(0))), f.(categoryId := None));
    SameEffectSameListing(s, f.(categoryId := Some(NaN)), f.(categoryId := None));
    SameEffectSameListing(s, f.(brandId := Some(Finite(0))), f.(brandId := None));
    SameEffectSameListing(s, f.(brandId := Some(NaN)), f.(brandId := None));
  }

  /** An empty search text filters nothing. */
  lemma EmptySearchFiltersNothing(s: Store, f: ListFilter)
    ensures ListCoupons(s, f.(search := Some(""))) == ListCoupons(s, f.(search := None))
  {
    SameEffectSameListing(s, f.(search := Some("")), f.(search := None));
  }

  /** 'popular', and any value other than 'newest' and 'expiring', lists in the default order. */
  lemma OtherSortsAreDefault(s: Store, f: ListFilter, sort: string)
    requires sort != "newest" && sort != "expiring"
    ensures ListCoupons(s, f.(sort := Some(sort))) == ListCoupons(s, f.(sort := None))
  {
    SameEffectSameListing(s, f.(sort := Some(sort)), f.(sort := None));
  }

  /**
   * With a non-empty search free of `%`, `_` and backslash, a coupon passes the
   * search exactly when the search occurs in its title or its code, ignoring case.
   */
  lemma LiteralSearchIsSubstring(f: ListFilter, c: Coupon)
    requires f.search.Some? && f.search.value != "" && Literal(f.search.value)
    ensures Eligible(f, c) <==>
      Eligible(f.(search := None), c) &&
      (ContainsIgnoringCase(c.title, f.search.value) || ContainsIgnoringCase(c.code, f.search.value))
  {
    SearchIsSubstring(c.title, f.search.value);
    SearchIsSubstring(c.code, f.search.value);
  }

  /** Without `includeInactive` only active coupons are listed (a NULL `isActive` is not active). */
  lemma ActiveOnlyByDefault(s: Store, f: ListFilter)
    requires !f.includeInactive
    ensures forall i :: 0 <= i < |ListCoupons(s, f)| ==> ListCoupons(s, f)[i].coupon.isActive == Some(true)
  {
    var r := ListCoupons(s, f);
    forall i | 0 <= i < |r| ensures r[i].coupon.isActive == Some(true) {
      assert CouponsOf(r)[i] == r[i].coupon;
      assert r[i].coupon in CouponsOf(r);
    }
  }

  /** The order each `sort` value produces, stated on the columns it reads. */
  lemma ListingOrder(s: Store, f: ListFilter)
    ensures var r := ListCoupons(s, f);
      forall i, j :: 0 <= i < j < |r| ==>
        var a, b := r[i].coupon, r[j].coupon;
        && (f.sort == Some("newest") ==> a.createdAt >= b.createdAt)
        && (f.sort == Some("expiring") ==> (b.expiryDate.None? ==> a.expiryDate.None?))
        && (f.sort == Some("expiring") && a.expiryDate.Some? && b.expiryDate.Some? ==> a.expiryDate.value >= b.expiryDate.value)
        && (f.sort != Some("newest") && f.sort != Some("expiring") ==>
              a.successScore > b.successScore || (a.successScore == b.successScore && a.createdAt >= b.createdAt))
  {
    var r := ListCoupons(s, f);
    forall i, j | 0 <= i < j < |r| ensures Precedes(SortKeyOf(f.sort), r[i].coupon, r[j].coupon) {
      assert CouponsOf(r)[i] == r[i].coupon && CouponsOf(r)[j] == r[j].coupon;
    }
  }

  /** Every coupon, active or not, appears in the dashboard listing. */
  lemma DashboardIncludesEveryCoupon(s: Store, c: Coupon)
    requires c in s.coupons
    ensures c in CouponsOf(ListCoupons(s, DashboardFilter()))
  {
  }

  /** Each of the top five ranks at or ahead of every coupon after them in the default order. */
  lemma TopCouponsRankFirst(s: Store)
    ensures var top, all := TopCoupons(s), ListCoupons(s, DashboardFilter());
      forall i, j :: 0 <= i < |top| <= j < |all| ==> Precedes(ScoreThenNewest, top[i].coupon, all[j].coupon)
  {
    var top, all := TopCoupons(s), ListCoupons(s, DashboardFilter());
    forall i, j | 0 <= i < |top| <= j < |all| ensures Precedes(ScoreThenNewest, top[i].coupon, all[j].coupon) {
      assert top[i] == all[i];
      assert CouponsOf(all)[i] == all[i].coupon && CouponsOf(all)[j] == all[j].coupon;
    }
  }
}

=== FILE: ordering.dfy ===
/**
 * The orderings the coupon listing sorts by. Every ordering is a total preorder
 * on coupons; SQL leaves the order of tied rows open, so the contracts speak
 * only of sortedness and permutation.
 */
module Ordering {
  import opened Wrappers
  import opened Schema

  /** The `ORDER BY` lists of the listing query. */
  datatype SortKey =
    | ScoreThenNewest   // successScore DESC, createdAt DESC
    | Newest            // createdAt DESC
    | Expiring          // expiryDate DESC

  /** `expiryDate DESC`: PostgreSQL puts NULL first in a descending order. */
  predicate ExpiryNoEarlier(a: Option<Timestamp>, b: Option<Timestamp>)
  {
    a.None? || (b.Some? && a.value >= b.value)
  }

  /** Coupon `a` may be listed before coupon `b` under key `k`. */
  predicate Precedes(k: SortKey, a: Coupon, b: Coupon)
  {
    match k
    case ScoreThenNewest =>
      a.successScore > b.successScore || (a.successScore == b.successScore && a.createdAt >= b.createdAt)
    case Newest => a.createdAt >= b.createdAt
    case Expiring => ExpiryNoEarlier(a.expiryDate, b.expiryDate)
  }

  lemma PrecedesTotal(k: SortKey, a: Coupon, b: Coupon)
    ensures Precedes(k, a, b) || Precedes(k, b, a)
  {
  }

  lemma PrecedesTransitive(k: SortKey, a: Coupon, b: Coupon, c: Coupon)
    requires Precedes(k, a, b) && Precedes(k, b, c)
    ensures Precedes(k, a, c)
  {
  }

  predicate SortedBy(k: SortKey, s: seq<Coupon>)
  {
    forall i, j :: 0 <= i < j < |s| ==> Precedes(k, s[i], s[j])
  }

  /** A row that may precede every row of a sorted sequence may be put in front of it. */
  lemma SortedCons(k: SortKey, a: Coupon, t: seq<Coupon>)
    requires SortedBy(k, t)
    requires forall i :: 0 <= i < |t| ==> Precedes(k, a, t[i])
    ensures SortedBy(k, [a] + t)
  {
    var r := [a] + t;
    forall i, j | 0 <= i < j < |r| ensures Precedes(k, r[i], r[j]) {
      if i > 0 {
        assert r[i] == t[i - 1] && r[j] == t[j - 1];
      }
    }
  }

  /** A row that precedes the head of a sorted sequence precedes all of it. */
  lemma PrecedesHead(k: SortKey, x: Coupon, s: seq<Coupon>)
    requires SortedBy(k, s) && |s| > 0 && Precedes(k, x, s[0])
    ensures forall j :: 0 <= j < |s| ==> Precedes(k, x, s[j])
  {
    forall j | 0 <= j < |s| ensures Precedes(k, x, s[j]) {
      if j > 0 {
        PrecedesTransitive(k, x, s[0], s[j]);
      }
    }
  }

  /** Inserts `x` into a sorted sequence, after every row it does not strictly precede. */
  function Insert(k: SortKey, x: Coupon, s: seq<Coupon>): (r: seq<Coupon>)
    requires SortedBy(k, s)
    ensures SortedBy(k, r)
    ensures multiset(r) == multiset(s) + multiset{x}
    ensures forall i :: 0 <= i < |r| ==> r[i] == x || r[i] in s
    decreases |s|
  {
    if |s| == 0 then [x]
    else if Precedes(k, x, s[0]) && !Precedes(k, s[0], x) then
      PrecedesHead(k, x, s);
      SortedCons(k, x, s);
      [x] + s
    else
      var rest := Insert(k, x, s[1..]);
      InsertBehindHead(k, x, s, rest);
      [s[0]] + rest
  }

  /** The recursive case of `Insert`: the head stays in front of the insertion into the tail. */
  lemma InsertBehindHead(k: SortKey, x: Coupon, s: seq<Coupon>, rest: seq<Coupon>)
    requires SortedBy(k, s) && |s| > 0 && Precedes(k, s[0], x)
    requires SortedBy(k, rest)
    requires multiset(rest) == multiset(s[1..]) + multiset{x}
    requires forall i :: 0 <= i < |rest| ==> rest[i] == x || rest[i] in s[1..]
    ensures SortedBy(k, [s[0]] + rest)
    ensures multiset([s[0]] + rest) == multiset(s) + multiset{x}
    ensures forall i :: 0 <= i < |[s[0]] + rest| ==> ([s[0]] + rest)[i] == x || ([s[0]] + rest)[i] in s
  {
    assert s == [s[0]] + s[1..];
    forall i | 0 <= i < |rest| ensures Precedes(k, s[0], rest[i]) {
      if rest[i] != x {
        var j :| 0 <= j < |s[1..]| && s[1..][j] == rest[i];
        assert s[j + 1] == rest[i];
      }
    }
    SortedCons(k, s[0], rest);
  }

  /** Insertion sort: a sorted permutation of `s`. */
  function Sort(k: SortKey, s: seq<Coupon>): (r: seq<Coupon>)
    ensures SortedBy(k, r)
    ensures multiset(r) == multiset(s)
    ensures |r| == |s|
    decreases |s|
  {
    if |s| == 0 then []
    else
      assert s == [s[0]] + s[1..];
      Insert(k, s[0], Sort(k, s[1..]))
  }

  /** In a sorted list, a coupon strictly ahead of another under the key comes first. */
  lemma StrictlyAheadComesFirst(k: SortKey, s: seq<Coupon>, i: int, j: int)
    requires SortedBy(k, s)
    requires 0 <= i < |s| && 0 <= j < |s|
    requires Precedes(k, s[i], s[j]) && !Precedes(k, s[j], s[i])
    ensures i < j
  {
  }
}

=== FILE: query.dfy ===
/**
 * The client's side of the list endpoint: `useCoupons` turns its filters into
 * query parameters, and the server's parsing turns them back into the
 * filters `getCoupons` receives.
 */
module CouponQuery {
  import opened Wrappers
  import opened Tables
  import opened Text
  import opened Storage
  import opened ListingProps
  import opened Server

  /** The `filters` argument of `useCoupons`. */
  datatype ClientFilters = ClientFilters(
    search: Option<string>,
    categoryId: Option<int>,
    brandId: Option<int>,
    sort: Option<string>)

  /** A string filter is sent when it is truthy: present and non-empty. */
  function TextParam(key: string, v: Option<string>): (q: Query)
    ensures q == [] <==> v.None? || v.value == ""
  {
    if v.Some? && v.value != "" then [(key, v.value)] else []
  }

  /** A number filter is sent when it is truthy: present and non-zero, as `n.toString()`. */
  function IdParam(key: string, v: Option<int>): (q: Query)
    ensures q == [] <==> v.None? || v.value == 0
  {
    if v.Some? && v.value != 0 then [(key, IntToString(v.value))] else []
  }

  /** The query string `useCoupons` builds: search, categoryId, brandId, sort, in that order. */
  function BuildListQuery(f: Option<ClientFilters>): (q: Query)
    ensures forall p :: p in q ==> p.0 in {"search", "categoryId", "brandId", "sort"}
    ensures |q| <= 4
  {
    match f
    case None => []
    case Some(c) =>
      TextParam("search", c.search) + IdParam("categoryId", c.categoryId)
        + IdParam("brandId", c.brandId) + TextParam("sort", c.sort)
  }

  /** The parameters appear in the fixed order search, categoryId, brandId, sort. */
  function KeyRank(key: string): int
  {
    if key == "search" then 0 else if key == "categoryId" then 1 else if key == "brandId" then 2 else 3
  }

  lemma BuildListQueryOrder(f: Option<ClientFilters>)
    ensures var q := BuildListQuery(f);
      forall i, j :: 0 <= i < j < |q| ==> KeyRank(q[i].0) < KeyRank(q[j].0)
  {
  }

  /** `includeInactive` is never sent, so the server lists active coupons only. */
  lemma ClientNeverIncludesInactive(f: Option<ClientFilters>)
    ensures QueryValue(BuildListQuery(f), "includeInactive").None?
    ensures !ParseListQuery(BuildListQuery(f)).includeInactive
  {
  }

  /** The number the server reads back for a sent id: the id itself. */
  function SentId(v: Option<int>): Option<Numeric>
  {
    if v.Some? && v.value != 0 then Some(Finite(v.value)) else None
  }

  function SentText(v: Option<string>): Option<string>
  {
    if v.Some? && v.value != "" then v else None
  }

  /** What the server parses from the client's query: the truthy filters, active coupons only. */
  function Received(c: ClientFilters): ListFilter
  {
    ListFilter(SentId(c.categoryId), SentId(c.brandId), SentText(c.search), SentText(c.sort), false)
  }

  /** The value the server reads for each key is the one the client sent, if it sent one. */
  lemma SentValues(c: ClientFilters)
    ensures QueryValue(BuildListQuery(Some(c)), "search") == SentText(c.search)
    ensures QueryValue(BuildListQuery(Some(c)), "sort") == SentText(c.sort)
    ensures QueryValue(BuildListQuery(Some(c)), "categoryId") ==
      if SentId(c.categoryId).Some? then Some(IntToString(c.categoryId.value)) else None
    ensures QueryValue(BuildListQuery(Some(c)), "brandId") ==
      if SentId(c.brandId).Some? then Some(IntToString(c.brandId.value)) else None
  {
    var s, ci, b, so := TextParam("search", c.search), IdParam("categoryId", c.categoryId),
                        IdParam("brandId", c.brandId), TextParam("sort", c.sort);
    assert BuildListQuery(Some(c)) == s + (ci + (b + so));
    FirstWithKey(s, ci, b, so, "search");
    FirstWithKey(s, ci, b, so, "categoryId");
    FirstWithKey(s, ci, b, so, "brandId");
    FirstWithKey(s, ci, b, so, "sort");
  }

  /** The first pair with a key in four concatenated parts is the first one in the first part that has it. */
  lemma FirstWithKey(a: Query, b: Query, c: Query, d: Query, key: string)
    ensures Find(a + (b + (c + d)), KeyIs(key)) ==
      if Find(a, KeyIs(key)).Some? then Find(a, KeyIs(key))
      else if Find(b, KeyIs(key)).Some? then Find(b, KeyIs(key))
      else if Find(c, KeyIs(key)).Some? then Find(c, KeyIs(key))
      else Find(d, KeyIs(key))
  {
    FindConcat(a, b + (c + d), KeyIs(key));
    FindConcat(b, c + d, KeyIs(key));
    FindConcat(c, d, KeyIs(key));
  }

  /** Round trip: the server recovers every filter the client sent, exactly. */
  lemma QueryRoundTrip(c: ClientFilters)
    ensures ParseListQuery(BuildListQuery(Some(c))) == Received(c)
  {
    var q := BuildListQuery(Some(c));
    SentValues(c);
    IdReadBack(QueryValue(q, "categoryId"), c.categoryId);
    IdReadBack(QueryValue(q, "brandId"), c.brandId);
    ClientNeverIncludesInactive(Some(c));
  }

  /** An id the client sent is parsed back to the same number. */
  lemma IdReadBack(v: Option<string>, id: Option<int>)
    requires v == if SentId(id).Some? then Some(IntToString(id.value)) else None
    ensures NumberParam(v) == SentId(id)
  {
    if SentId(id).Some? {
      NumberOfIntToString(id.value);
    }
  }

  /** The filters as the client means them, with nothing dropped. */
  function Meant(c: ClientFilters): ListFilter
  {
    ListFilter(
      if c.categoryId.Some? then Some(Finite(c.categoryId.value)) else None,
      if c.brandId.Some? then Some(Finite(c.brandId.value)) else None,
      c.search, c.sort, false)
  }

  /**
   * Dropping the falsy filters on the way changes nothing: the server lists
   * exactly what the client's filters select, among active coupons.
   */
  lemma ListingMatchesClientFilters(s: Store, c: ClientFilters)
    ensures ListCoupons(s, ParseListQuery(BuildListQuery(Some(c)))) == ListCoupons(s, Meant(c))
  {
    var f := ParseListQuery(BuildListQuery(Some(c)));
    QueryRoundTrip(c);
    assert f == Received(c);
    ReceivedMeansMeant(c);
    SameEffectSameListing(s, Received(c), Meant(c));
  }

  /** The filters the server receives act exactly like the ones the client meant. */
  lemma ReceivedMeansMeant(c: ClientFilters)
    ensures SameEffect(Received(c), Meant(c))
  {
  }
}

=== FILE: schema.dfy ===
/**
 * Record shapes of the coupon store (tables `categories`, `brands`, `coupons`,
 * `feedback`, `clicks`) and the request-body parsers derived from them.
 */
module Schema {
  import opened Wrappers

  /** Milliseconds since the epoch. */
  type Timestamp = int

  /** A category row; `parentId` is the one-level nesting the store writes. */
  datatype Category = Category(id: int, name: string, slug: string, icon: string, parentId: Option<int>)

  datatype Brand = Brand(id: int, name: string, slug: string, logoUrl: Option<string>, affiliateBaseUrl: Option<string>)

  /**
   * A coupon row. `isActive` is a nullable column (default true), so it is kept
   * as an `Option`: a NULL row is neither listed as active nor counted as pending.
   * `clickCount` and `conversionCount` are the counters the store increments.
   */
  datatype Coupon = Coupon(
    id: int,
    code: string,
    title: string,
    description: string,
    categoryId: Option<int>,
    brandId: Option<int>,
    discountAmount: string,
    expiryDate: Option<Timestamp>,
    successScore: int,
    lastVerified: Timestamp,
    affiliateLink: string,
    isActive: Option<bool>,
    userId: Option<string>,
    clickCount: int,
    conversionCount: int,
    createdAt: Timestamp)

  datatype Feedback = Feedback(id: int, couponId: Option<int>, userId: Option<string>, worked: bool, createdAt: Timestamp)

  /** One row of the click audit log. */
  datatype Click = Click(id: int, couponId: int, userId: Option<string>)

  /** The first problem a schema parse reports: the field and its message. */
  datatype Issue = Issue(field: string, message: string)

  /** A nullable column written from a body field: absent and null both store NULL. */
  function Nullable<T>(f: Field<T>): (r: Option<T>)
    ensures r.Some? <==> f.Given?
    ensures r.Some? ==> r.value == f.value
  {
    match f
    case Given(v) => Some(v)
    case _ => None
  }

  // ---------------------------------------------------------------------
  // Coupon bodies

  /**
   * A JSON body for a coupon: any column of the table, each absent, null or given.
   * A JSON body cannot carry a date, so a given `expiryDate` is the text the
   * client sent (`JSON.stringify` writes a date as a string).
   */
  datatype CouponBody = CouponBody(
    id: Field<int>,
    code: Field<string>,
    title: Field<string>,
    description: Field<string>,
    categoryId: Field<int>,
    brandId: Field<int>,
    discountAmount: Field<string>,
    expiryDate: Field<string>,
    successScore: Field<int>,
    lastVerified: Field<Timestamp>,
    affiliateLink: Field<string>,
    isActive: Field<bool>,
    userId: Field<string>,
    createdAt: Field<Timestamp>)

  /**
   * The values a coupon insert carries. `id`, `createdAt` and `lastVerified` have
   * no place here: the store generates them. `successScore` is not part of the
   * insert schema either (the parser always leaves it `None`), but the store's own
   * insert passes on a score when its caller supplies one, as the seed data does.
   */
  datatype CouponInsert = CouponInsert(
    code: string,
    title: string,
    description: string,
    categoryId: Option<int>,
    brandId: Option<int>,
    discountAmount: string,
    expiryDate: Option<Timestamp>,
    affiliateLink: string,
    isActive: Field<bool>,
    userId: Option<string>,
    successScore: Option<int>)

  /** A partial coupon update: `None`/`Absent` leaves a column alone, `Null` clears it. */
  datatype CouponUpdate = CouponUpdate(
    code: Option<string>,
    title: Option<string>,
    description: Option<string>,
    categoryId: Field<int>,
    brandId: Field<int>,
    discountAmount: Option<string>,
    expiryDate: Field<Timestamp>,
    affiliateLink: Option<string>,
    isActive: Field<bool>,
    userId: Field<string>)

  /** The problem with a required text field, if any. */
  function RequiredText(name: string, f: Field<string>): (r: Option<Issue>)
    ensures r.None? <==> f.Given?
    ensures r.Some? ==> r.value.field == name
  {
    match f
    case Absent => Some(Issue(name, "Required"))
    case Null => Some(Issue(name, "Expected string, received null"))
    case Given(_) => None
  }

  /** The problem with an optional but non-nullable text field, if any. */
  function OptionalText(name: string, f: Field<string>): (r: Option<Issue>)
    ensures r.None? <==> !f.Null?
    ensures r.Some? ==> r.value.field == name
  {
    if f.Null? then Some(Issue(name, "Expected string, received null")) else None
  }

  /**
   * The problem with a nullable `timestamp` column read from a JSON body: the
   * schema checks it as a date, which no JSON value is, so only absent and null pass.
   */
  function DateField(name: string, f: Field<string>): (r: Option<Issue>)
    ensures r.None? <==> !f.Given?
    ensures r.Some? ==> r.value.field == name
  {
    if f.Given? then Some(Issue(name, "Expected date, received string")) else None
  }

  /** The first of two issues, checking fields in schema order. */
  function OrElse(first: Option<Issue>, rest: Option<Issue>): (r: Option<Issue>)
    ensures r.None? <==> first.None? && rest.None?
  {
    if first.Some? then first else rest
  }

  /**
   * `insertCouponSchema.parse(body)`: the five text columns without a default are
   * required; the generated columns and `successScore` are dropped from the body.
   * Fields are checked in column order, so an `expiryDate` issue comes after
   * `discountAmount` and before `affiliateLink`.
   */
  function ParseInsertCoupon(b: CouponBody): (r: Result<CouponInsert, Issue>)
    ensures r.Success? <==>
      && b.code.Given? && b.title.Given? && b.description.Given? && b.discountAmount.Given? && b.affiliateLink.Given?
      && !b.expiryDate.Given?
    ensures r.Failure? ==> r.error.field in {"code", "title", "description", "discountAmount", "expiryDate", "affiliateLink"}
    ensures r.Failure? && !b.code.Given? ==> r.error.field == "code"
    ensures r.Failure? && b.code.Given? && !b.title.Given? ==> r.error.field == "title"
    ensures b.code.Given? && b.title.Given? && b.description.Given? && b.discountAmount.Given? && b.expiryDate.Given? ==>
      r == Failure(Issue("expiryDate", "Expected date, received string"))
    ensures r.Success? ==>
      && r.value.code == b.code.value
      && r.value.title == b.title.value
      && r.value.description == b.description.value
      && r.value.discountAmount == b.discountAmount.value
      && r.value.affiliateLink == b.affiliateLink.value
      && r.value.categoryId == Nullable(b.categoryId)
      && r.value.brandId == Nullable(b.brandId)
      && r.value.expiryDate.None?
      && r.value.userId == Nullable(b.userId)
      && r.value.isActive == b.isActive
      && r.value.successScore.None?
  {
    var issue :=
      OrElse(RequiredText("code", b.code),
      OrElse(RequiredText("title", b.title),
      OrElse(RequiredText("description", b.description),
      OrElse(RequiredText("discountAmount", b.discountAmount),
      OrElse(DateField("expiryDate", b.expiryDate),
             RequiredText("affiliateLink", b.affiliateLink))))));
    if issue.Some? then Failure(issue.value)
    else
      Success(CouponInsert(
        b.code.value, b.title.value, b.description.value,
        Nullable(b.categoryId), Nullable(b.brandId), b.discountAmount.value,
        None, b.affiliateLink.value, b.isActive, Nullable(b.userId), None))
  }

  /** A body field that is optional and not nullable, read as "supplied or not". */
  function Supplied<T>(f: Field<T>): Option<T>
  {
    if f.Given? then Some(f.value) else None
  }

  /**
   * `insertCouponSchema.partial().parse(body)`, the PATCH input: every field may
   * be left out, the non-nullable text columns may not be null, `expiryDate` may
   * only be left out or null, and the generated columns and `successScore` are dropped.
   */
  function ParseUpdateCoupon(b: CouponBody): (r: Result<CouponUpdate, Issue>)
    ensures r.Success? <==>
      && !b.code.Null? && !b.title.Null? && !b.description.Null? && !b.discountAmount.Null? && !b.affiliateLink.Null?
      && !b.expiryDate.Given?
    ensures r.Failure? ==> r.error.field in {"code", "title", "description", "discountAmount", "expiryDate", "affiliateLink"}
    ensures b.expiryDate.Given? && !b.code.Null? && !b.title.Null? && !b.description.Null? && !b.discountAmount.Null? ==>
      r == Failure(Issue("expiryDate", "Expected date, received string"))
    ensures r.Success? ==>
      && (r.value.code.Some? <==> b.code.Given?)
      && (r.value.code.Some? ==> r.value.code.value == b.code.value)
      && (r.value.title.Some? <==> b.title.Given?)
      && (r.value.title.Some? ==> r.value.title.value == b.title.value)
      && (r.value.description.Some? <==> b.description.Given?)
      && (r.value.description.Some? ==> r.value.description.value == b.description.value)
      && (r.value.discountAmount.Some? <==> b.discountAmount.Given?)
      && (r.value.discountAmount.Some? ==> r.value.discountAmount.value == b.discountAmount.value)
      && (r.value.affiliateLink.Some? <==> b.affiliateLink.Given?)
      && (r.value.affiliateLink.Some? ==> r.value.affiliateLink.value == b.affiliateLink.value)
      && r.value.categoryId == b.categoryId
      && r.value.brandId == b.brandId
      && (r.value.expiryDate.Null? <==> b.expiryDate.Null?)
      && !r.value.expiryDate.Given?
      && r.value.isActive == b.isActive
      && r.value.userId == b.userId
  {
    var issue :=
      OrElse(OptionalText("code", b.code),
      OrElse(OptionalText("title", b.title),
      OrElse(OptionalText("description", b.description),
      OrElse(OptionalText("discountAmount", b.discountAmount),
      OrElse(DateField("expiryDate", b.expiryDate),
             OptionalText("affiliateLink", b.affiliateLink))))));
    if issue.Some? then Failure(issue.value)
    else
      Success(CouponUpdate(
        Supplied(b.code), Supplied(b.title), Supplied(b.description),
        b.categoryId, b.brandId, Supplied(b.discountAmount),
        if b.expiryDate.Null? then Null else Absent, Supplied(b.affiliateLink), b.isActive, b.userId))
  }

  // ---------------------------------------------------------------------
  // Feedback bodies

  datatype FeedbackBody = FeedbackBody(
    id: Field<int>,
    couponId: Field<int>,
    userId: Field<string>,
    worked: Field<bool>,
    createdAt: Field<Timestamp>)

  /** The values a feedback insert carries; `id` and `createdAt` are generated. */
  datatype FeedbackInsert = FeedbackInsert(couponId: Option<int>, userId: Option<string>, worked: bool)

  /** `insertFeedbackSchema.parse(body)`: `worked` must be a boolean. */
  function ParseInsertFeedback(b: FeedbackBody): (r: Result<FeedbackInsert, Issue>)
    ensures r.Success? <==> b.worked.Given?
    ensures r.Failure? ==> r.error.field == "worked"
    ensures r.Success? ==> r.value == FeedbackInsert(Nullable(b.couponId), Nullable(b.userId), b.worked.value)
  {
    match b.worked
    case Absent => Failure(Issue("worked", "Required"))
    case Null => Failure(Issue("worked", "Expected boolean, received null"))
    case Given(w) => Success(FeedbackInsert(Nullable(b.couponId), Nullable(b.userId), w))
  }

  /**
   * The generated columns and `successScore` are not part of either coupon
   * schema: whatever a body says about them, it parses the same.
   */
  lemma CouponParsersIgnoreGeneratedColumns(b: CouponBody, id: Field<int>, score: Field<int>, verified: Field<Timestamp>, created: Field<Timestamp>)
    ensures ParseInsertCoupon(b.(id := id, successScore := score, lastVerified := verified, createdAt := created)) == ParseInsertCoupon(b)
    ensures ParseUpdateCoupon(b.(id := id, successScore := score, lastVerified := verified, createdAt := created)) == ParseUpdateCoupon(b)
  {
  }

  /** Likewise a vote's `id` and `createdAt` are never taken from the body. */
  lemma FeedbackParserIgnoresGeneratedColumns(b: FeedbackBody, id: Field<int>, created: Field<Timestamp>)
    ensures ParseInsertFeedback(b.(id := id, createdAt := created)) == ParseInsertFeedback(b)
  {
  }

  // ---------------------------------------------------------------------
  // Validation response

  datatype Confidence = High | Medium | Low

  function ConfidenceName(c: Confidence): string
  {
    match c
    case High => "high"
    case Medium => "medium"
    case Low => "low"
  }

  /** Reading the `confidence` field of a validation response: exactly one of three words. */
  function ParseConfidence(s: string): (r: Option<Confidence>)
    ensures r.Some? <==> s in {"high", "medium", "low"}
    ensures r.Some? ==> ConfidenceName(r.value) == s
  {
    if s == "high" then Some(High)
    else if s == "medium" then Some(Medium)
    else if s == "low" then Some(Low)
    else None
  }

  lemma ConfidenceRoundTrip(c: Confidence)
    ensures ParseConfidence(ConfidenceName(c)) == Some(c)
  {
  }

  datatype ValidateResponse = ValidateResponse(successScore: int, confidence: Confidence, analysis: string)
}

=== FILE: server.dfy ===
/**
 * The HTTP layer over the store: how the list endpoint reads its query
 * string, what the PATCH, DELETE, click and convert handlers answer, and the
 * start-up seed.
 */
module Server {
  import opened Wrappers
  import opened Tables
  import opened Text
  import opened Schema
  import opened Ordering
  import opened Storage
  import opened StoreValid
  import opened StoreProps

  // ---------------------------------------------------------------------
  // Query strings

  /** A decoded query string: its `key=value` pairs in order. */
  type Query = seq<(string, string)>

  function KeyIs(key: string): ((string, string)) -> bool { (p: (string, string)) => p.0 == key }

  /** `req.query[key]`: the value of the first pair with that key, `None` when there is none. */
  function QueryValue(q: Query, key: string): (r: Option<string>)
    ensures r.None? <==> forall p :: p in q ==> p.0 != key
    ensures r.Some? ==> (key, r.value) in q
  {
    match Find(q, KeyIs(key))
    case None => None
    case Some(p) => Some(p.1)
  }

  /** `req.query.x ? Number(req.query.x) : undefined`: an empty string is falsy. */
  function NumberParam(v: Option<string>): (r: Option<Numeric>)
    ensures r.None? <==> v.None? || v.value == ""
    ensures r.Some? ==> r.value == JsNumber(v.value)
  {
    if v.Some? && v.value != "" then Some(JsNumber(v.value)) else None
  }

  /** The filters the list handler passes to `getCoupons`. */
  function ParseListQuery(q: Query): (f: ListFilter)
    ensures f.includeInactive <==> QueryValue(q, "includeInactive") == Some("true")
    ensures f.search == QueryValue(q, "search") && f.sort == QueryValue(q, "sort")
    ensures f.categoryId.None? <==> QueryValue(q, "categoryId") in {None, Some("")}
    ensures f.brandId.None? <==> QueryValue(q, "brandId") in {None, Some("")}
    ensures f.categoryId.Some? ==> f.categoryId.value == JsNumber(QueryValue(q, "categoryId").value)
    ensures f.brandId.Some? ==> f.brandId.value == JsNumber(QueryValue(q, "brandId").value)
  {
    ListFilter(
      NumberParam(QueryValue(q, "categoryId")),
      NumberParam(QueryValue(q, "brandId")),
      QueryValue(q, "search"),
      QueryValue(q, "sort"),
      QueryValue(q, "includeInactive") == Some("true"))
  }

  /** Any value other than exactly "true" lists active coupons only, "1" and "TRUE" included. */
  lemma IncludeInactiveOnlyForTrue(q: Query, v: string)
    requires QueryValue(q, "includeInactive") == Some(v)
    ensures ParseListQuery(q).includeInactive <==> v == "true"
  {
  }

  /** A category or brand id of "0", or one that is not a number, restricts nothing. */
  lemma ZeroOrJunkIdsIgnored(q: Query)
    requires QueryValue(q, "categoryId") == Some("0") || QueryValue(q, "categoryId") == Some("abc")
    requires QueryValue(q, "brandId") == Some("0") || QueryValue(q, "brandId") == Some("abc")
    ensures IdFilter(ParseListQuery(q).categoryId).None?
    ensures IdFilter(ParseListQuery(q).brandId).None?
  {
    assert AllDigits("0");
    assert !IsDigit("abc"[0]);
  }

  /** A positive decimal id in the query becomes the filter on that id. */
  lemma DecimalIdFilters(q: Query, n: nat)
    requires n > 0
    requires QueryValue(q, "categoryId") == Some(NatToString(n))
    ensures IdFilter(ParseListQuery(q).categoryId) == Some(n)
  {
    NatToStringValue(n);
  }

  /** A JSON body with no keys, `{}`. */
  function EmptyCouponBody(): CouponBody
  {
    CouponBody(Absent, Absent, Absent, Absent, Absent, Absent, Absent, Absent, Absent, Absent, Absent, Absent, Absent, Absent)
  }

  // ---------------------------------------------------------------------
  // Handlers

  /**
   * What a handler sends. `Unanswered` is a handler whose promise rejects or
   * whose `catch` sends nothing: the client gets no response.
   */
  datatype Response<+T> = Ok(body: T) | NoContent | NotFound(message: string) | BadRequest(message: string) | Unanswered

  /**
   * `GET /api/coupons`: the listing for the parsed filters. The handler has no
   * `catch`, so when PostgreSQL rejects an id filter outside the `integer`
   * range the request is never answered.
   */
  function ListRoute(s: Store, q: Query): (r: Response<seq<CouponView>>)
    ensures r.Ok? || r.Unanswered?
    ensures r.Ok? <==> FilterIdsInRange(ParseListQuery(q))
    ensures r.Ok? ==> forall c :: c in CouponsOf(r.body) <==> c in s.coupons && Eligible(ParseListQuery(q), c)
  {
    var f := ParseListQuery(q);
    if FilterIdsInRange(f) then Ok(ListCoupons(s, f)) else Unanswered
  }

  /** A category id in the query beyond the `integer` range, 3000000000 say, gets no answer. */
  lemma OutOfRangeIdUnanswered(s: Store, q: Query, n: nat)
    requires n >= 0x8000_0000
    requires QueryValue(q, "categoryId") == Some(NatToString(n))
    ensures ListRoute(s, q) == Unanswered
  {
    DecimalIdFilters(q, n);
  }

  /** A body that only sets an expiry date, as the client's `JSON.stringify` sends it, gets 400. */
  lemma PatchExpiryRejected(s: Store, id: int, b: CouponBody)
    requires b.expiryDate.Given?
    requires !b.code.Null? && !b.title.Null? && !b.description.Null? && !b.discountAmount.Null?
    ensures PatchRoute(s, id, b) == Step(s, BadRequest("Expected date, received string"))
  {
  }

  /** A body naming no column of the update schema, `{}` or `{"successScore": 90}`, gets no answer and changes nothing. */
  lemma EmptyPatchUnanswered(s: Store, id: int, score: Field<int>)
    ensures PatchRoute(s, id, EmptyCouponBody().(successScore := score)) == Step(s, Unanswered)
  {
  }

  /**
   * `PATCH /api/coupons/:id`: 400 with the first issue's message for a body the
   * update schema rejects, 404 when no coupon has the id, the updated coupon
   * otherwise. A foreign-key error, the error of an update with no column to
   * set and PostgreSQL's rejection of an id outside the `integer` range are not
   * `ZodError`s, so the `catch` drops them and nothing is sent. The body is
   * parsed before the store is asked, so a bad body gets 400 whatever the id.
   */
  function PatchRoute(s: Store, id: int, body: CouponBody): (r: Step<Response<Coupon>>)
    ensures ParseUpdateCoupon(body).Failure? <==> r.result.BadRequest?
    ensures r.result.BadRequest? ==> r.store == s && r.result.message == ParseUpdateCoupon(body).error.message
    ensures ParseUpdateCoupon(body).Success? && !SuppliesColumn(ParseUpdateCoupon(body).value) ==>
      r == Step(s, Unanswered)
    ensures ParseUpdateCoupon(body).Success? && !InIntegerRange(id) ==> r == Step(s, Unanswered)
    ensures r.result.NotFound? <==>
      && ParseUpdateCoupon(body).Success? && SuppliesColumn(ParseUpdateCoupon(body).value)
      && InIntegerRange(id) && CouponById(s, id).None?
    ensures r.result.NotFound? ==> r.store == s && r.result.message == "Coupon not found"
    ensures r.result.Ok? ==>
      && CouponById(s, id).Some?
      && r.result.body == ApplyUpdate(CouponById(s, id).value, ParseUpdateCoupon(body).value)
    ensures
      && ParseUpdateCoupon(body).Success? && SuppliesColumn(ParseUpdateCoupon(body).value)
      && InIntegerRange(id) && CouponById(s, id).Some? ==>
      (r.result.Ok? <==> ReferencesExist(s, Assign(CouponById(s, id).value.categoryId, ParseUpdateCoupon(body).value.categoryId),
                                            Assign(CouponById(s, id).value.brandId, ParseUpdateCoupon(body).value.brandId)))
    ensures r.result.Ok? ==> r.store == s.(coupons := UpdateWhereId(s.coupons, id, UpdateWith(ParseUpdateCoupon(body).value)))
    ensures r.result.Unanswered? ==> r.store == s
    ensures !r.result.NoContent?
  {
    match ParseUpdateCoupon(body)
    case Failure(issue) => Step(s, BadRequest(issue.message))
    case Success(u) =>
      if !InIntegerRange(id) then Step(s, Unanswered)
      else
      var step := UpdateCoupon(s, id, u);
      match step.result
      case Failure(_) => Step(step.store, Unanswered)
      case Success(None) => Step(step.store, NotFound("Coupon not found"))
      case Success(Some(c)) => Step(step.store, Ok(c))
  }

  /** After a 200 from PATCH, reading the coupon back gives the answered row, and every other id reads as before. */
  lemma PatchThenGet(s: Store, id: int, body: CouponBody)
    requires Distinct(s.coupons, CouponId)
    requires PatchRoute(s, id, body).result.Ok?
    ensures var r := PatchRoute(s, id, body);
      && GetCoupon(r.store, id).Some?
      && GetCoupon(r.store, id).value.coupon == r.result.body
      && forall other :: other != id ==> CouponById(r.store, other) == CouponById(s, other)
  {
    UpdateCouponTouchesOneRow(s, id, ParseUpdateCoupon(body).value);
  }

  /**
   * `DELETE /api/coupons/:id`: 204 whether or not the id existed. The delete
   * throws, and nothing is sent, for a coupon that has votes and for an id
   * PostgreSQL rejects as outside the `integer` range.
   */
  function DeleteRoute(s: Store, id: int): (r: Step<Response<()>>)
    ensures r.result.NoContent? || r.result.Unanswered?
    ensures r.result.Unanswered? <==> !InIntegerRange(id) || (CouponById(s, id).Some? && HasFeedbackFor(s, id))
    ensures r.result.Unanswered? ==> r.store == s
    ensures InIntegerRange(id) && CouponById(s, id).None? ==> r == Step(s, NoContent)
    ensures r.result.NoContent? ==> forall c :: c in r.store.coupons <==> c in s.coupons && c.id != id
  {
    if !InIntegerRange(id) then Step(s, Unanswered)
    else
    match DeleteCoupon(s, id)
    case Success(t) => DeleteUnknown(s, id); Step(t, NoContent)
    case Failure(_) => Step(s, Unanswered)
  }

  lemma DeleteUnknown(s: Store, id: int)
    ensures CouponById(s, id).None? ==> DeleteCoupon(s, id) == Success(s)
  {
    if CouponById(s, id).None? {
      WhereAll(s.coupons, (c: Coupon) => c.id != id);
    }
  }

  /**
   * `POST /api/coupons/:id/click`: the new count, or no answer for an unknown
   * id, whose audit row stays. An id outside the `integer` range is rejected by
   * the audit insert itself, so nothing is written.
   */
  function ClickRoute(s: Store, id: int, userId: Option<string>): (r: Step<Response<int>>)
    ensures r.result.Ok? <==> InIntegerRange(id) && CouponById(s, id).Some?
    ensures r.result.Ok? ==> r.result.body == CouponById(s, id).value.clickCount + 1
    ensures r.result.Ok? || r.result.Unanswered?
    ensures InIntegerRange(id) ==> |r.store.clicks| == |s.clicks| + 1
    ensures !InIntegerRange(id) ==> r == Step(s, Unanswered)
  {
    if !InIntegerRange(id) then Step(s, Unanswered)
    else
    var step := RecordClick(s, id, userId);
    match step.result
    case Success(n) => Step(step.store, Ok(n))
    case Failure(_) => Step(step.store, Unanswered)
  }

  /** `POST /api/coupons/:id/convert`: the new count, or no answer for an unknown or out-of-range id. */
  function ConvertRoute(s: Store, id: int): (r: Step<Response<int>>)
    ensures r.result.Ok? <==> InIntegerRange(id) && CouponById(s, id).Some?
    ensures r.result.Ok? ==> r.result.body == CouponById(s, id).value.conversionCount + 1
    ensures r.result.Unanswered? ==> r.store == s
    ensures r.result.Ok? || r.result.Unanswered?
  {
    if !InIntegerRange(id) then Step(s, Unanswered)
    else
    var step := RecordConversion(s, id);
    match step.result
    case Success(n) => Step(step.store, Ok(n))
    case Failure(_) => Step(step.store, Unanswered)
  }

  /**
   * A path id of 3000000000 reaches no handler's store call: PostgreSQL
   * rejects it, so a valid PATCH, the DELETE, the click and the conversion
   * all go unanswered and nothing is written.
   */
  lemma OutOfRangePathIdUnanswered(s: Store, body: CouponBody, userId: Option<string>)
    requires ParseUpdateCoupon(body).Success?
    ensures PatchRoute(s, 3000000000, body) == Step(s, Unanswered)
    ensures DeleteRoute(s, 3000000000) == Step(s, Unanswered)
    ensures ClickRoute(s, 3000000000, userId) == Step(s, Unanswered)
    ensures ConvertRoute(s, 3000000000) == Step(s, Unanswered)
  {
  }

  // ---------------------------------------------------------------------
  // Seed data

  const Day := 86400000

  function CategorySeeds(): seq<CategorySeed>
  {
    [ CategorySeed("Flights", "flights", "Plane", None),
      CategorySeed("Trains", "trains", "Train", None),
      CategorySeed("Hotels", "hotels", "Hotel", None),
      CategorySeed("Shopping", "shopping", "ShoppingBag", None),
      CategorySeed("Food", "food", "Utensils", None),
      CategorySeed("Recharge", "recharge", "Smartphone", None),
      CategorySeed("Education", "education", "GraduationCap", None),
      CategorySeed("Kids", "kids", "Baby", None),
      CategorySeed("Sports", "sports", "Dumbbell", None) ]
  }

  function BrandSeeds(): seq<BrandSeed>
  {
    [ BrandSeed("Amazon", "amazon", WikimediaUpload("commons", "4/4a", "Amazon_icon.svg")),
      BrandSeed("Flipkart", "flipkart", WikimediaUpload("en", "7/7a", "Flipkart_logo.svg")),
      BrandSeed("MakeMyTrip", "makemytrip", WikimediaUpload("commons", "8/80", "MakeMyTrip_Logo.png")),
      BrandSeed("Swiggy", "swiggy", WikimediaUpload("en", "1/12", "Swiggy_logo.svg")),
      BrandSeed("Zomato", "zomato", WikimediaUpload("commons", "b/bd", "Zomato_Logo.svg")) ]
  }

  /** The address of an uploaded file on Wikimedia, where every seeded brand logo lives. */
  function WikimediaUpload(project: string, hash: string, file: string): string
  {
    "https://upload.wikimedia.org/wikipedia/" + project + "/" + hash + "/" + file
  }

  /** `cats.find(c => c.slug === slug)?.id`. */
  function CategoryIdBySlug(s: Store, slug: string): Option<int>
  {
    match Find(s.categories, HasCategorySlug(slug))
    case None => None
    case Some(c) => Some(c.id)
  }

  function BrandIdBySlug(s: Store, slug: string): Option<int>
  {
    match Find(s.brands, HasBrandSlug(slug))
    case None => None
    case Some(b) => Some(b.id)
  }

  /** The first seed coupon; its description keeps the rupee sign as it was mis-decoded. */
  function FlightsCoupon(s: Store, now: Timestamp): CouponInsert
  {
    CouponInsert(
      "FLY50", "50% OFF on Domestic Flights",
      "Get flat 50% off up to \U{E2}\U{201A}\U{B9}2000 on domestic flights.",
      CategoryIdBySlug(s, "flights"), BrandIdBySlug(s, "makemytrip"),
      "50% OFF", Some(now + Day * 7), "https://makemytrip.com", Absent, None, Some(85))
  }

  function ElectronicsCoupon(s: Store, now: Timestamp): CouponInsert
  {
    CouponInsert(
      "TECH10", "Extra 10% Cashback on Electronics",
      "Valid on credit card EMI transactions.",
      CategoryIdBySlug(s, "shopping"), BrandIdBySlug(s, "amazon"),
      "10% Cashback", Some(now + Day * 3), "https://amazon.in", Absent, None, Some(92))
  }

  /** The category and brand seed rows, each skipped when its slug is taken. */
  function SeedTables(s: Store, cats: seq<CategorySeed>, brands: seq<BrandSeed>): (r: Store)
    ensures r.coupons == s.coupons && r.feedback == s.feedback && r.clicks == s.clicks
    ensures r.nextCouponId == s.nextCouponId
  {
    SeedBrands(SeedCategories(s, cats), brands)
  }

  /** Seed lists that contain the four slugs the seed coupons look up. */
  predicate HoldsLookedUpSlugs(cats: seq<CategorySeed>, brands: seq<BrandSeed>)
  {
    && |cats| > 3 && cats[0].slug == "flights" && cats[3].slug == "shopping"
    && |brands| > 2 && brands[0].slug == "amazon" && brands[2].slug == "makemytrip"
  }

  /** The tables hold a row with each slug the seed coupons look up. */
  predicate LookedUpSlugsPresent(t: Store)
  {
    && Find(t.categories, HasCategorySlug("flights")).Some?
    && Find(t.categories, HasCategorySlug("shopping")).Some?
    && Find(t.brands, HasBrandSlug("makemytrip")).Some?
    && Find(t.brands, HasBrandSlug("amazon")).Some?
  }

  lemma SeedListsHoldLookedUpSlugs()
    ensures HoldsLookedUpSlugs(CategorySeeds(), BrandSeeds())
  {
  }

  /** Seeding lists that hold the four looked-up slugs leaves those slugs present, whatever was there. */
  lemma SlugsAfterSeeding(s: Store, cats: seq<CategorySeed>, brands: seq<BrandSeed>)
    requires HoldsLookedUpSlugs(cats, brands)
    ensures LookedUpSlugsPresent(SeedTables(s, cats, brands))
  {
    var s1 := SeedCategories(s, cats);
    SeedCategoriesPresent(s, cats);
    SeedBrandsPresent(s1, brands);
    assert SeedBrands(s1, brands).categories == s1.categories;
  }

  /** After seeding the tables, the slugs the seed coupons look up are all there. */
  lemma SeededSlugsPresent(s: Store)
    ensures LookedUpSlugsPresent(SeedTables(s, CategorySeeds(), BrandSeeds()))
  {
    SeedListsHoldLookedUpSlugs();
    SlugsAfterSeeding(s, CategorySeeds(), BrandSeeds());
  }

  /**
   * The seeding procedure over given seed lists: only when there are no
   * categories, seed the categories and brands, then the two coupons if both
   * tables are non-empty. `now` stands for `Date.now()` and the insert time.
   */
  function SeedWith(s: Store, now: Timestamp, cats: seq<CategorySeed>, brands: seq<BrandSeed>): (r: Store)
    ensures |s.categories| > 0 ==> r == s
    ensures r.feedback == s.feedback && r.clicks == s.clicks
    ensures s.coupons <= r.coupons && |r.coupons| <= |s.coupons| + 2
  {
    if |s.categories| > 0 then s
    else
      var t := SeedTables(s, cats, brands);
      if |t.brands| > 0 && |t.categories| > 0 then
        var fly := CreateCoupon(t, FlightsCoupon(t, now), now).store;
        CreateCouponAppends(t, FlightsCoupon(t, now), now);
        CreateCouponAppends(fly, ElectronicsCoupon(t, now), now);
        CreateCoupon(fly, ElectronicsCoupon(t, now), now).store
      else t
  }

  /** `seedDatabase()`: the seeding procedure over the nine categories and five brands above. */
  function SeedDatabase(s: Store, now: Timestamp): (r: Store)
    ensures |s.categories| > 0 ==> r == s
    ensures r.feedback == s.feedback && r.clicks == s.clicks
    ensures s.coupons <= r.coupons && |r.coupons| <= |s.coupons| + 2
  {
    SeedWith(s, now, CategorySeeds(), BrandSeeds())
  }

  /** A coupon insert appends at most one coupon and leaves the votes and clicks alone. */
  lemma CreateCouponAppends(s: Store, c: CouponInsert, now: Timestamp)
    ensures var t := CreateCoupon(s, c, now).store;
      && t.feedback == s.feedback && t.clicks == s.clicks
      && s.coupons <= t.coupons && |t.coupons| <= |s.coupons| + 1
  {
  }

  /** A coupon insert leaves the category and brand tables alone. */
  lemma CreateCouponKeepsTables(s: Store, c: CouponInsert, now: Timestamp)
    ensures CreateCoupon(s, c, now).store.categories == s.categories
    ensures CreateCoupon(s, c, now).store.brands == s.brands
  {
  }

  /** On an empty category table, seeding lists with the looked-up slugs fills both tables and inserts both coupons. */
  lemma SeedWithFills(s: Store, now: Timestamp, cats: seq<CategorySeed>, brands: seq<BrandSeed>)
    requires |s.categories| == 0
    requires HoldsLookedUpSlugs(cats, brands)
    ensures var t, r := SeedTables(s, cats, brands), SeedWith(s, now, cats, brands);
      && LookedUpSlugsPresent(t)
      && r.categories == t.categories && r.brands == t.brands
      && |r.categories| > 0 && |r.brands| > 0
      && r == CreateCoupon(CreateCoupon(t, FlightsCoupon(t, now), now).store, ElectronicsCoupon(t, now), now).store
  {
    var t := SeedTables(s, cats, brands);
    SlugsAfterSeeding(s, cats, brands);
    assert Find(t.categories, HasCategorySlug("flights")).value in t.categories;
    assert Find(t.brands, HasBrandSlug("amazon")).value in t.brands;
    var fly := CreateCoupon(t, FlightsCoupon(t, now), now).store;
    CreateCouponKeepsTables(t, FlightsCoupon(t, now), now);
    CreateCouponKeepsTables(fly, ElectronicsCoupon(t, now), now);
  }

  /** Seeding on an empty category table fills both tables and inserts the two coupons. */
  lemma SeedFillsEmptyStore(s: Store, now: Timestamp)
    requires |s.categories| == 0
    ensures var t, r := SeedTables(s, CategorySeeds(), BrandSeeds()), SeedDatabase(s, now);
      && r.categories == t.categories && r.brands == t.brands
      && |r.categories| > 0 && |r.brands| > 0
      && r == CreateCoupon(CreateCoupon(t, FlightsCoupon(t, now), now).store, ElectronicsCoupon(t, now), now).store
  {
    SeedListsHoldLookedUpSlugs();
    SeedWithFills(s, now, CategorySeeds(), BrandSeeds());
  }

  /** Seeding does nothing once there is a category. */
  lemma SeedOnlyWhenEmpty(s: Store, now: Timestamp)
    requires |s.categories| > 0
    ensures SeedDatabase(s, now) == s
  {
  }

  /** Seeding over any lists is idempotent once it has produced a category. */
  lemma SeedWithIdempotent(s: Store, now: Timestamp, later: Timestamp, cats: seq<CategorySeed>, brands: seq<BrandSeed>)
    requires HoldsLookedUpSlugs(cats, brands)
    ensures SeedWith(SeedWith(s, now, cats, brands), later, cats, brands) == SeedWith(s, now, cats, brands)
  {
    if |s.categories| == 0 {
      SeedWithFills(s, now, cats, brands);
    }
  }

  /** Seeding twice is seeding once: the second run finds categories and does nothing. */
  lemma SeedIdempotent(s: Store, now: Timestamp, later: Timestamp)
    ensures SeedDatabase(SeedDatabase(s, now), later) == SeedDatabase(s, now)
  {
    SeedListsHoldLookedUpSlugs();
    SeedWithIdempotent(s, now, later, CategorySeeds(), BrandSeeds());
  }

  /** A sorted pair whose second row does not precede its first is in that order. */
  lemma SortedPair(k: SortKey, r: seq<Coupon>, a: Coupon, b: Coupon)
    requires |r| == 2 && a in r && b in r && a != b
    requires SortedBy(k, r)
    requires !Precedes(k, b, a)
    ensures r == [a, b]
  {
  }

  /** A coupon the seed inserts satisfies every foreign key, so its insert succeeds. */
  lemma SeedReferencesExist(t: Store, catSlug: string, brandSlug: string)
    requires Find(t.categories, HasCategorySlug(catSlug)).Some?
    requires Find(t.brands, HasBrandSlug(brandSlug)).Some?
    ensures ReferencesExist(t, CategoryIdBySlug(t, catSlug), BrandIdBySlug(t, brandSlug))
  {
    var c := Find(t.categories, HasCategorySlug(catSlug)).value;
    var b := Find(t.brands, HasBrandSlug(brandSlug)).value;
    assert c in t.categories && HasCategoryId(c.id)(c);
    assert b in t.brands && HasBrandId(b.id)(b);
  }

  lemma SameTablesSameReferences(s: Store, t: Store, c: Option<int>, b: Option<int>)
    requires s.categories == t.categories && s.brands == t.brands
    ensures ReferencesExist(s, c, b) == ReferencesExist(t, c, b)
  {
  }

  /** The two seed coupons in a table of their own, as the seed leaves them. */
  predicate HoldsSeedCoupons(r: Store, now: Timestamp)
  {
    && |r.coupons| == 2
    && r.coupons[0].code == "FLY50" && r.coupons[0].successScore == 85
    && r.coupons[0].expiryDate == Some(now + 7 * Day) && r.coupons[0].isActive == Some(true)
    && r.coupons[1].code == "TECH10" && r.coupons[1].successScore == 92
    && r.coupons[1].expiryDate == Some(now + 3 * Day) && r.coupons[1].isActive == Some(true)
    && r.coupons[0].createdAt == r.coupons[1].createdAt == now
  }

  /** Two inserts into an empty coupon table whose references both exist leave exactly their two rows, in order. */
  lemma TwoInserts(t: Store, a: CouponInsert, b: CouponInsert, now: Timestamp)
    requires t.coupons == []
    requires ReferencesExist(t, a.categoryId, a.brandId) && ReferencesExist(t, b.categoryId, b.brandId)
    ensures var r := CreateCoupon(CreateCoupon(t, a, now).store, b, now).store;
      && |r.coupons| == 2
      && InsertedFrom(r.coupons[0], a, t.nextCouponId, now)
      && InsertedFrom(r.coupons[1], b, t.nextCouponId + 1, now)
  {
    var first := CreateCoupon(t, a, now);
    CreateCouponKeepsTables(t, a, now);
    SameTablesSameReferences(first.store, t, b.categoryId, b.brandId);
    var second := CreateCoupon(first.store, b, now);
    assert first.store.coupons == [first.result.value];
    assert second.store.coupons == [first.result.value, second.result.value];
  }

  /** The two seed inserts on tables that hold the slugs they look up and no coupons yet. */
  lemma SeedInserts(t: Store, now: Timestamp)
    requires t.coupons == []
    requires LookedUpSlugsPresent(t)
    ensures HoldsSeedCoupons(CreateCoupon(CreateCoupon(t, FlightsCoupon(t, now), now).store, ElectronicsCoupon(t, now), now).store, now)
  {
    SeedReferencesExist(t, "flights", "makemytrip");
    SeedReferencesExist(t, "shopping", "amazon");
    TwoInserts(t, FlightsCoupon(t, now), ElectronicsCoupon(t, now), now);
  }

  /** On empty tables, seeding lists with the looked-up slugs writes the flights coupon, then the electronics one. */
  lemma SeedWithCoupons(s: Store, now: Timestamp, cats: seq<CategorySeed>, brands: seq<BrandSeed>)
    requires s.categories == [] && s.coupons == []
    requires HoldsLookedUpSlugs(cats, brands)
    ensures HoldsSeedCoupons(SeedWith(s, now, cats, brands), now)
  {
    SeedWithFills(s, now, cats, brands);
    SeedInserts(SeedTables(s, cats, brands), now);
  }

  /** On a database with no categories and no coupons the seed writes the flights coupon, then the electronics one. */
  lemma SeededCoupons(s: Store, now: Timestamp)
    requires s.categories == [] && s.coupons == []
    ensures HoldsSeedCoupons(SeedDatabase(s, now), now)
  {
    SeedListsHoldLookedUpSlugs();
    SeedWithCoupons(s, now, CategorySeeds(), BrandSeeds());
  }

  /**
   * On the seeded data the default listing puts TECH10 (score 92) before
   * FLY50 (85), and 'expiring' puts FLY50 (a week out) before TECH10 (three days).
   */
  lemma SeedCouponsOrder(r: Store, now: Timestamp)
    requires HoldsSeedCoupons(r, now)
    ensures var byDefault := CouponsOf(ListCoupons(r, NoFilters()));
      |byDefault| == 2 && byDefault[0].code == "TECH10" && byDefault[1].code == "FLY50"
    ensures var expiring := CouponsOf(ListCoupons(r, NoFilters().(sort := Some("expiring"))));
      |expiring| == 2 && expiring[0].code == "FLY50" && expiring[1].code == "TECH10"
  {
    var fly, tech := r.coupons[0], r.coupons[1];
    assert fly in r.coupons && tech in r.coupons;
    OrderOfSeed(r, NoFilters(), tech, fly);
    OrderOfSeed(r, NoFilters().(sort := Some("expiring")), fly, tech);
  }

  /** Listing the two seeded coupons, both active, under a filter that keeps both. */
  lemma OrderOfSeed(r: Store, f: ListFilter, a: Coupon, b: Coupon)
    requires |r.coupons| == 2 && a in r.coupons && b in r.coupons && a != b
    requires forall c :: c in r.coupons ==> Eligible(f, c)
    requires !Precedes(SortKeyOf(f.sort), b, a)
    ensures CouponsOf(ListCoupons(r, f)) == [a, b]
  {
    var l := CouponsOf(ListCoupons(r, f));
    WhereAll(r.coupons, EligibleUnder(f));
    assert |multiset(l)| == |multiset(r.coupons)|;
    SortedPair(SortKeyOf(f.sort), l, a, b);
  }

  /** Seeding over lists with the looked-up slugs keeps the database's constraints. */
  lemma SeedWithValid(s: Store, now: Timestamp, cats: seq<CategorySeed>, brands: seq<BrandSeed>)
    requires Valid(s)
    requires HoldsLookedUpSlugs(cats, brands)
    ensures Valid(SeedWith(s, now, cats, brands))
  {
    if |s.categories| == 0 {
      SeedCategoriesValid(s, cats);
      SeedBrandsValid(SeedCategories(s, cats), brands);
      var t := SeedTables(s, cats, brands);
      SeedWithFills(s, now, cats, brands);
      CreateCouponValid(t, FlightsCoupon(t, now), now);
      CreateCouponValid(CreateCoupon(t, FlightsCoupon(t, now), now).store, ElectronicsCoupon(t, now), now);
    }
  }

  /** The seed keeps the database's constraints. */
  lemma SeedDatabaseValid(s: Store, now: Timestamp)
    requires Valid(s)
    ensures Valid(SeedDatabase(s, now))
  {
    SeedListsHoldLookedUpSlugs();
    SeedWithValid(s, now, CategorySeeds(), BrandSeeds());
  }
}

=== FILE: storage.dfy ===
/**
 * The coupon store (`DatabaseStorage`): an immutable value holding the five
 * tables and one serial counter per table. Every operation returns the store
 * it leaves behind together with what the original returns to its caller.
 */
module Storage {
  import opened Wrappers
  import opened Tables
  import opened Text
  import opened Like
  import opened Schema
  import opened Ordering

  datatype Store = Store(
    categories: seq<Category>,
    brands: seq<Brand>,
    coupons: seq<Coupon>,
    feedback: seq<Feedback>,
    clicks: seq<Click>,
    // next value of each table's `serial` id; PostgreSQL never hands a value out twice
    nextCategoryId: int,
    nextBrandId: int,
    nextCouponId: int,
    nextFeedbackId: int,
    nextClickId: int)

  /** A freshly created database: empty tables, sequences starting at 1. */
  function EmptyStore(): Store
  {
    Store([], [], [], [], [], 1, 1, 1, 1, 1)
  }

  /** The store left behind by an operation, and what the operation returned. */
  datatype Step<+T> = Step(store: Store, result: T)

  /**
   * Why a store call throws: a foreign key rejects the write, a `returning()`
   * gives no row, or an update has no column to set (drizzle refuses to build
   * an `UPDATE` with an empty `SET`, before any query runs).
   */
  datatype StoreError = ForeignKeyViolation | NoRowReturned | NoValuesToSet

  // ---------------------------------------------------------------------
  // Row selectors and lookups

  function CategoryId(c: Category): int { c.id }
  function CategorySlug(c: Category): string { c.slug }
  function BrandId(b: Brand): int { b.id }
  function BrandSlug(b: Brand): string { b.slug }
  function CouponId(c: Coupon): int { c.id }
  function FeedbackId(f: Feedback): int { f.id }
  function ClickId(k: Click): int { k.id }

  function HasCouponId(id: int): Coupon -> bool { (c: Coupon) => c.id == id }
  function HasCategoryId(id: int): Category -> bool { (c: Category) => c.id == id }
  function HasBrandId(id: int): Brand -> bool { (b: Brand) => b.id == id }
  function HasCategorySlug(slug: string): Category -> bool { (c: Category) => c.slug == slug }
  function HasBrandSlug(slug: string): Brand -> bool { (b: Brand) => b.slug == slug }

  /** `select ... from coupons where id = ?`, first row. */
  function CouponById(s: Store, id: int): Option<Coupon>
  {
    Find(s.coupons, HasCouponId(id))
  }

  /** The brand a left join on `brandId` finds, or `None` (also for a NULL id). */
  function BrandFor(s: Store, id: Option<int>): Option<Brand>
  {
    if id.None? then None else Find(s.brands, HasBrandId(id.value))
  }

  /** The category a left join on `categoryId` finds, or `None` (also for a NULL id). */
  function CategoryFor(s: Store, id: Option<int>): Option<Category>
  {
    if id.None? then None else Find(s.categories, HasCategoryId(id.value))
  }

  /** The foreign keys `coupons.category_id` and `coupons.brand_id` accept these values. */
  predicate ReferencesExist(s: Store, categoryId: Option<int>, brandId: Option<int>)
  {
    && (categoryId.Some? ==> CategoryFor(s, categoryId).Some?)
    && (brandId.Some? ==> BrandFor(s, brandId).Some?)
  }

  /** Some feedback row references coupon `id` (`feedback.coupon_id` foreign key). */
  predicate HasFeedbackFor(s: Store, id: int)
  {
    exists i :: 0 <= i < |s.feedback| && s.feedback[i].couponId == Some(id)
  }

  // ---------------------------------------------------------------------
  // Integrity: keys, unique slugs, foreign keys, counters

  /** Primary keys and `unique()` slug columns hold. */
  predicate KeysUnique(s: Store)
  {
    && Distinct(s.categories, CategoryId) && Distinct(s.categories, CategorySlug)
    && Distinct(s.brands, BrandId) && Distinct(s.brands, BrandSlug)
    && Distinct(s.coupons, CouponId)
    && Distinct(s.feedback, FeedbackId)
    && Distinct(s.clicks, ClickId)
  }

  /** Every id was drawn from its table's sequence, so the next value is above them all. */
  predicate IdsBelowCounters(s: Store)
  {
    && (forall c :: c in s.categories ==> c.id < s.nextCategoryId)
    && (forall b :: b in s.brands ==> b.id < s.nextBrandId)
    && (forall c :: c in s.coupons ==> c.id < s.nextCouponId)
    && (forall f :: f in s.feedback ==> f.id < s.nextFeedbackId)
    && (forall k :: k in s.clicks ==> k.id < s.nextClickId)
  }

  /** The foreign keys from coupons to categories and brands, and from feedback to coupons, hold. */
  predicate ForeignKeysHold(s: Store)
  {
    && (forall c :: c in s.coupons ==> ReferencesExist(s, c.categoryId, c.brandId))
    && (forall f :: f in s.feedback ==> f.couponId.Some? ==> CouponById(s, f.couponId.value).Some?)
  }

  /** Click and conversion counters start at 0 and only go up. */
  predicate CountersNonNegative(s: Store)
  {
    forall c :: c in s.coupons ==> c.clickCount >= 0 && c.conversionCount >= 0
  }

  /** The constraints the database enforces, plus non-negative counters. */
  predicate Valid(s: Store)
  {
    KeysUnique(s) && IdsBelowCounters(s) && ForeignKeysHold(s) && CountersNonNegative(s)
  }

  // ---------------------------------------------------------------------
  // Listing (`getCoupons`)

  /** The `filters` argument of `getCoupons`; ids arrive as JavaScript numbers. */
  datatype ListFilter = ListFilter(
    categoryId: Option<Numeric>,
    brandId: Option<Numeric>,
    search: Option<string>,
    sort: Option<string>,
    includeInactive: bool)

  /** `getCoupons()` called without filters. */
  function NoFilters(): ListFilter
  {
    ListFilter(None, None, None, None, false)
  }

  /** The id an `if (filters?.categoryId)` style guard lets through: only truthy numbers. */
  function IdFilter(x: Option<Numeric>): (r: Option<int>)
    ensures r.Some? <==> x.Some? && x.value.Truthy()
    ensures r.Some? ==> r.value != 0 && x.value == Finite(r.value)
  {
    if x.Some? && x.value.Truthy() then Some(x.value.n) else None
  }

  /** The values a PostgreSQL `integer` column holds, as every id column of the schema is. */
  predicate InIntegerRange(n: int)
  {
    -0x8000_0000 <= n < 0x8000_0000
  }

  /**
   * The id filters are compared with `integer` columns, so PostgreSQL rejects
   * the listing query when an applied id lies outside that type's range.
   */
  predicate FilterIdsInRange(f: ListFilter)
  {
    && (IdFilter(f.categoryId).Some? ==> InIntegerRange(IdFilter(f.categoryId).value))
    && (IdFilter(f.brandId).Some? ==> InIntegerRange(IdFilter(f.brandId).value))
  }

  /** The search an `if (filters?.search)` guard lets through: only non-empty text. */
  function SearchFilter(x: Option<string>): (r: Option<string>)
    ensures r.Some? <==> x.Some? && x.value != ""
    ensures r.Some? ==> r.value == x.value
  {
    if x.Some? && x.value != "" then x else None
  }

  /** The `ORDER BY` the `sort` value selects; anything but 'newest' and 'expiring' gets the default. */
  function SortKeyOf(sort: Option<string>): (k: SortKey)
    ensures k == Newest <==> sort == Some("newest")
    ensures k == Expiring <==> sort == Some("expiring")
  {
    if sort == Some("newest") then Newest
    else if sort == Some("expiring") then Expiring
    else ScoreThenNewest
  }

  /** The `WHERE` conjunction of the listing query. */
  predicate Eligible(f: ListFilter, c: Coupon)
  {
    && (f.includeInactive || c.isActive == Some(true))
    && (IdFilter(f.categoryId).Some? ==> c.categoryId == IdFilter(f.categoryId))
    && (IdFilter(f.brandId).Some? ==> c.brandId == IdFilter(f.brandId))
    && (SearchFilter(f.search).Some? ==>
          ILike(c.title, SearchPattern(f.search.value)) || ILike(c.code, SearchPattern(f.search.value)))
  }

  function EligibleUnder(f: ListFilter): Coupon -> bool
  {
    (c: Coupon) => Eligible(f, c)
  }

  /** The coupons the listing query returns, in the order it returns them. */
  function ListedCoupons(s: Store, f: ListFilter): (r: seq<Coupon>)
    ensures forall c :: c in r <==> c in s.coupons && Eligible(f, c)
    ensures multiset(r) == multiset(Where(s.coupons, EligibleUnder(f)))
    ensures SortedBy(SortKeyOf(f.sort), r)
  {
    var w := Where(s.coupons, EligibleUnder(f));
    var r := Sort(SortKeyOf(f.sort), w);
    assert forall c :: c in r <==> c in w by {
      forall c ensures c in r <==> c in w {
        assert c in r <==> c in multiset(r);
        assert c in w <==> c in multiset(w);
      }
    }
    r
  }

  /** A coupon with the brand and category its left joins found. */
  datatype CouponView = CouponView(coupon: Coupon, brand: Option<Brand>, category: Option<Category>)

  /** The brand and category of a view are those rows the coupon references, or null. */
  predicate JoinedCorrectly(s: Store, v: CouponView)
  {
    && (v.brand.Some? ==> v.brand.value in s.brands && v.coupon.brandId == Some(v.brand.value.id))
    && (v.brand.None? ==> v.coupon.brandId.None? || forall b :: b in s.brands ==> b.id != v.coupon.brandId.value)
    && (v.category.Some? ==> v.category.value in s.categories && v.coupon.categoryId == Some(v.category.value.id))
    && (v.category.None? ==> v.coupon.categoryId.None? || forall c :: c in s.categories ==> c.id != v.coupon.categoryId.value)
  }

  function Joined(s: Store, c: Coupon): (v: CouponView)
    ensures v.coupon == c && JoinedCorrectly(s, v)
  {
    CouponView(c, BrandFor(s, c.brandId), CategoryFor(s, c.categoryId))
  }

  function CouponsOf(vs: seq<CouponView>): (r: seq<Coupon>)
    ensures |r| == |vs| && forall i :: 0 <= i < |vs| ==> r[i] == vs[i].coupon
  {
    seq(|vs|, i requires 0 <= i < |vs| => vs[i].coupon)
  }

  /**
   * `getCoupons(filters)`: the eligible coupons, each joined with its brand and
   * category, sorted by the key `filters.sort` selects.
   */
  function ListCoupons(s: Store, f: ListFilter): (r: seq<CouponView>)
    ensures forall c :: c in CouponsOf(r) <==> c in s.coupons && Eligible(f, c)
    ensures multiset(CouponsOf(r)) == multiset(Where(s.coupons, EligibleUnder(f)))
    ensures SortedBy(SortKeyOf(f.sort), CouponsOf(r))
    ensures forall i :: 0 <= i < |r| ==> JoinedCorrectly(s, r[i])
  {
    var cs := ListedCoupons(s, f);
    var r := JoinAll(s, cs);
    assert CouponsOf(r) == cs;
    r
  }

  /** Each coupon of `cs`, in order, joined with its brand and category. */
  function JoinAll(s: Store, cs: seq<Coupon>): (r: seq<CouponView>)
    ensures |r| == |cs|
    ensures forall i :: 0 <= i < |r| ==> r[i].coupon == cs[i] && JoinedCorrectly(s, r[i])
  {
    seq(|cs|, i requires 0 <= i < |cs| => Joined(s, cs[i]))
  }

  // ---------------------------------------------------------------------
  // Single rows

  /** `getCoupon(id)`: the coupon with that id, active or not, joined; `None` for an unknown id. */
  function GetCoupon(s: Store, id: int): (r: Option<CouponView>)
    ensures r.Some? <==> exists c :: c in s.coupons && c.id == id
    ensures r.Some? ==> r.value.coupon in s.coupons && r.value.coupon.id == id && JoinedCorrectly(s, r.value)
  {
    match CouponById(s, id)
    case None => None
    case Some(c) => Some(Joined(s, c))
  }

  /** The `isActive` column an insert writes: default true, or the given value or NULL. */
  function ActiveOnInsert(f: Field<bool>): Option<bool>
  {
    match f
    case Absent => Some(true)
    case Null => None
    case Given(b) => Some(b)
  }

  /** The row an insert of `c` writes with id `id` at time `now`. */
  predicate InsertedFrom(row: Coupon, c: CouponInsert, id: int, now: Timestamp)
  {
    && row.id == id
    && row.code == c.code && row.title == c.title && row.description == c.description
    && row.categoryId == c.categoryId && row.brandId == c.brandId
    && row.discountAmount == c.discountAmount && row.expiryDate == c.expiryDate
    && row.affiliateLink == c.affiliateLink && row.userId == c.userId
    && row.successScore == c.successScore.GetOr(0)
    && row.isActive == ActiveOnInsert(c.isActive)
    && row.clickCount == 0 && row.conversionCount == 0
    && row.createdAt == now && row.lastVerified == now
  }

  /**
   * `createCoupon(c)`: appends a row with the next id and the column defaults.
   * A category or brand id that names no row is rejected by its foreign key;
   * the id drawn from the sequence is spent either way.
   */
  function CreateCoupon(s: Store, c: CouponInsert, now: Timestamp): (r: Step<Result<Coupon, StoreError>>)
    ensures r.result.Success? <==> ReferencesExist(s, c.categoryId, c.brandId)
    ensures r.result.Failure? ==> r.store == s.(nextCouponId := s.nextCouponId + 1)
    ensures r.result.Success? ==>
      && InsertedFrom(r.result.value, c, s.nextCouponId, now)
      && r.store == s.(coupons := s.coupons + [r.result.value], nextCouponId := s.nextCouponId + 1)
  {
    var s' := s.(nextCouponId := s.nextCouponId + 1);
    if !ReferencesExist(s, c.categoryId, c.brandId) then Step(s', Failure(ForeignKeyViolation))
    else
      var row := Coupon(
        s.nextCouponId, c.code, c.title, c.description, c.categoryId, c.brandId,
        c.discountAmount, c.expiryDate, c.successScore.GetOr(0), now, c.affiliateLink,
        ActiveOnInsert(c.isActive), c.userId, 0, 0, now);
      Step(s'.(coupons := s.coupons + [row]), Success(row))
  }

  /** A nullable column after an update: kept when absent, cleared when null. */
  function Assign<T>(current: Option<T>, f: Field<T>): Option<T>
  {
    match f
    case Absent => current
    case Null => None
    case Given(v) => Some(v)
  }

  /** The row `.set(u)` leaves: the supplied columns changed, every other column kept. */
  function ApplyUpdate(c: Coupon, u: CouponUpdate): (r: Coupon)
    ensures r.id == c.id && r.successScore == c.successScore && r.lastVerified == c.lastVerified
    ensures r.clickCount == c.clickCount && r.conversionCount == c.conversionCount && r.createdAt == c.createdAt
  {
    c.(
      code := u.code.GetOr(c.code),
      title := u.title.GetOr(c.title),
      description := u.description.GetOr(c.description),
      categoryId := Assign(c.categoryId, u.categoryId),
      brandId := Assign(c.brandId, u.brandId),
      discountAmount := u.discountAmount.GetOr(c.discountAmount),
      expiryDate := Assign(c.expiryDate, u.expiryDate),
      affiliateLink := u.affiliateLink.GetOr(c.affiliateLink),
      isActive := Assign(c.isActive, u.isActive),
      userId := Assign(c.userId, u.userId))
  }

  /** Applies `f` to every row whose id is `id` (an `UPDATE ... WHERE id = ?`). */
  function UpdateWhereId(cs: seq<Coupon>, id: int, f: Coupon -> Coupon): (r: seq<Coupon>)
    ensures |r| == |cs|
    ensures forall i :: 0 <= i < |cs| ==> r[i] == (if cs[i].id == id then f(cs[i]) else cs[i])
  {
    seq(|cs|, i requires 0 <= i < |cs| => if cs[i].id == id then f(cs[i]) else cs[i])
  }

  function UpdateWith(u: CouponUpdate): Coupon -> Coupon
  {
    (c: Coupon) => ApplyUpdate(c, u)
  }

  /** The update sets at least one column: some field is supplied, a null included. */
  predicate SuppliesColumn(u: CouponUpdate)
  {
    || u.code.Some? || u.title.Some? || u.description.Some? || u.discountAmount.Some? || u.affiliateLink.Some?
    || !u.categoryId.Absent? || !u.brandId.Absent? || !u.expiryDate.Absent? || !u.isActive.Absent? || !u.userId.Absent?
  }

  /**
   * `updateCoupon(id, u)`: the updated row, or `None` when no coupon has that id.
   * An update that supplies no column throws whatever the id; a new category or
   * brand id that names no row is rejected by its foreign key.
   */
  function UpdateCoupon(s: Store, id: int, u: CouponUpdate): (r: Step<Result<Option<Coupon>, StoreError>>)
    ensures !SuppliesColumn(u) <==> r.result == Failure(NoValuesToSet)
    ensures SuppliesColumn(u) && CouponById(s, id).None? ==> r == Step(s, Success(None))
    ensures r.result.Failure? ==> r.store == s
    ensures r.result.Success? && r.result.value.Some? ==>
      && CouponById(s, id).Some?
      && r.result.value.value == ApplyUpdate(CouponById(s, id).value, u)
      && r.store == s.(coupons := UpdateWhereId(s.coupons, id, UpdateWith(u)))
    ensures SuppliesColumn(u) && CouponById(s, id).Some? && r.result.Success? ==> r.result.value.Some?
    ensures SuppliesColumn(u) && CouponById(s, id).Some? ==>
      (r.result.Success? <==> ReferencesExist(s, Assign(CouponById(s, id).value.categoryId, u.categoryId),
                                                 Assign(CouponById(s, id).value.brandId, u.brandId)))
  {
    if !SuppliesColumn(u) then Step(s, Failure(NoValuesToSet))
    else match CouponById(s, id)
    case None => Step(s, Success(None))
    case Some(current) =>
      var row := ApplyUpdate(current, u);
      if !ReferencesExist(s, row.categoryId, row.brandId) then Step(s, Failure(ForeignKeyViolation))
      else Step(s.(coupons := UpdateWhereId(s.coupons, id, UpdateWith(u))), Success(Some(row)))
  }

  function CouponsWithout(cs: seq<Coupon>, id: int): seq<Coupon>
  {
    Where(cs, (c: Coupon) => c.id != id)
  }

  /**
   * `deleteCoupon(id)`: removes the rows with that id. Feedback rows reference
   * coupons without a cascade, so a coupon that has feedback cannot be deleted.
   */
  function DeleteCoupon(s: Store, id: int): (r: Result<Store, StoreError>)
    ensures r.Failure? <==> CouponById(s, id).Some? && HasFeedbackFor(s, id)
    ensures r.Success? ==> r.value == s.(coupons := CouponsWithout(s.coupons, id))
    ensures r.Success? ==> forall c :: c in r.value.coupons <==> c in s.coupons && c.id != id
  {
    if CouponById(s, id).Some? && HasFeedbackFor(s, id) then Failure(ForeignKeyViolation)
    else Success(s.(coupons := CouponsWithout(s.coupons, id)))
  }

  // ---------------------------------------------------------------------
  // Feedback

  /**
   * `createFeedback(f)`: appends a vote with the next id. A coupon id that names
   * no coupon is rejected by the foreign key; the id is spent either way.
   */
  function CreateFeedback(s: Store, f: FeedbackInsert, now: Timestamp): (r: Step<Result<Feedback, StoreError>>)
    ensures r.result.Success? <==> f.couponId.None? || CouponById(s, f.couponId.value).Some?
    ensures r.result.Failure? ==> r.store == s.(nextFeedbackId := s.nextFeedbackId + 1)
    ensures r.result.Success? ==>
      && r.result.value == Feedback(s.nextFeedbackId, f.couponId, f.userId, f.worked, now)
      && r.store == s.(feedback := s.feedback + [r.result.value], nextFeedbackId := s.nextFeedbackId + 1)
  {
    var s' := s.(nextFeedbackId := s.nextFeedbackId + 1);
    if f.couponId.Some? && CouponById(s, f.couponId.value).None? then Step(s', Failure(ForeignKeyViolation))
    else
      var row := Feedback(s.nextFeedbackId, f.couponId, f.userId, f.worked, now);
      Step(s'.(feedback := s.feedback + [row]), Success(row))
  }

  datatype FeedbackStats = FeedbackStats(positive: nat, total: nat)

  /** One pass over the feedback table counting a coupon's votes and its positive votes. */
  function Tally(rows: seq<Feedback>, couponId: int): (r: FeedbackStats)
    ensures r.positive <= r.total <= |rows|
    decreases |rows|
  {
    if |rows| == 0 then FeedbackStats(0, 0)
    else
      var rest := Tally(rows[1..], couponId);
      if rows[0].couponId == Some(couponId) then
        FeedbackStats(rest.positive + (if rows[0].worked then 1 else 0), rest.total + 1)
      else rest
  }

  /** `getCouponFeedbackStats(couponId)`: `count(*)` and the number of `worked` votes, 0 when none. */
  function FeedbackStatsFor(s: Store, couponId: int): (r: FeedbackStats)
    ensures r.positive <= r.total <= |s.feedback|
  {
    Tally(s.feedback, couponId)
  }

  // ---------------------------------------------------------------------
  // Counters

  function BumpClicks(c: Coupon): Coupon { c.(clickCount := c.clickCount + 1) }
  function BumpConversions(c: Coupon): Coupon { c.(conversionCount := c.conversionCount + 1) }

  /**
   * `recordClick(couponId, userId)` as written: the click row is inserted first;
   * then the coupon's `clickCount` goes up by one and the new value is returned.
   * For an unknown id the update returns no row and the call throws, but the
   * click row is already in the table.
   */
  function RecordClick(s: Store, couponId: int, userId: Option<string>): (r: Step<Result<int, StoreError>>)
    ensures r.store.clicks == s.clicks + [Click(s.nextClickId, couponId, userId)]
    ensures r.store.nextClickId == s.nextClickId + 1
    ensures r.result.Success? <==> CouponById(s, couponId).Some?
    ensures r.result.Failure? ==> r.store.coupons == s.coupons
    ensures r.result.Success? ==>
      && r.result.value == CouponById(s, couponId).value.clickCount + 1
      && r.store.coupons == UpdateWhereId(s.coupons, couponId, BumpClicks)
    ensures r.store.(clicks := s.clicks, nextClickId := s.nextClickId, coupons := s.coupons) == s
  {
    var s' := s.(clicks := s.clicks + [Click(s.nextClickId, couponId, userId)], nextClickId := s.nextClickId + 1);
    match CouponById(s, couponId)
    case None => Step(s', Failure(NoRowReturned))
    case Some(current) =>
      // `updated.clickCount || 0` is the count itself: the column is a non-null integer
      Step(s'.(coupons := UpdateWhereId(s.coupons, couponId, BumpClicks)), Success(current.clickCount + 1))
  }

  /**
   * `recordClick` with the existence check before the audit row is written:
   * an unknown id leaves the store as it was.
   */
  function RecordClickChecked(s: Store, couponId: int, userId: Option<string>): (r: Step<Result<int, StoreError>>)
    ensures CouponById(s, couponId).None? ==> r == Step(s, Failure(NoRowReturned))
    ensures CouponById(s, couponId).Some? ==>
      && r.result == Success(CouponById(s, couponId).value.clickCount + 1)
      && r.store == s.(clicks := s.clicks + [Click(s.nextClickId, couponId, userId)],
                       nextClickId := s.nextClickId + 1,
                       coupons := UpdateWhereId(s.coupons, couponId, BumpClicks))
  {
    if CouponById(s, couponId).None? then Step(s, Failure(NoRowReturned))
    else RecordClick(s, couponId, userId)
  }

  /** `recordConversion(couponId)`: `conversionCount` goes up by one; an unknown id throws. */
  function RecordConversion(s: Store, couponId: int): (r: Step<Result<int, StoreError>>)
    ensures r.result.Success? <==> CouponById(s, couponId).Some?
    ensures r.result.Failure? ==> r.store == s
    ensures r.result.Success? ==>
      && r.result.value == CouponById(s, couponId).value.conversionCount + 1
      && r.store == s.(coupons := UpdateWhereId(s.coupons, couponId, BumpConversions))
  {
    match CouponById(s, couponId)
    case None => Step(s, Failure(NoRowReturned))
    case Some(current) =>
      Step(s.(coupons := UpdateWhereId(s.coupons, couponId, BumpConversions)), Success(current.conversionCount + 1))
  }

  // ---------------------------------------------------------------------
  // Analytics

  datatype Analytics = Analytics(
    totalClicks: int,
    totalConversions: int,
    totalCoupons: nat,
    pendingCoupons: nat,
    topCoupons: seq<CouponView>)

  function ClickCountOf(c: Coupon): int { c.clickCount }
  function ConversionCountOf(c: Coupon): int { c.conversionCount }

  /** `isActive = false`: NULL is not pending. */
  predicate IsPending(c: Coupon) { c.isActive == Some(false) }

  /** The filters the dashboard lists with: default order, inactive included. */
  function DashboardFilter(): ListFilter
  {
    ListFilter(None, None, None, Some("popular"), true)
  }

  function Min(a: int, b: int): int { if a <= b then a else b }

  /** The first five coupons of the dashboard listing (all of them when there are fewer). */
  function TopCoupons(s: Store): (r: seq<CouponView>)
    ensures |r| == Min(5, |s.coupons|)
    ensures r <= ListCoupons(s, DashboardFilter())
  {
    var listed := ListCoupons(s, DashboardFilter());
    DashboardListsAll(s);
    listed[..Min(5, |listed|)]
  }

  /** `getAdminAnalytics()`: column sums and counts over every coupon, and the first five listed. */
  function AdminAnalytics(s: Store): (r: Analytics)
    ensures r.totalCoupons == |s.coupons|
    ensures r.pendingCoupons <= r.totalCoupons
    ensures r.topCoupons == TopCoupons(s)
    ensures |s.coupons| == 0 ==> r.totalClicks == 0 && r.totalConversions == 0 && r.pendingCoupons == 0
  {
    Analytics(
      Sum(s.coupons, ClickCountOf),
      Sum(s.coupons, ConversionCountOf),
      |s.coupons|,
      Count(s.coupons, IsPending),
      TopCoupons(s))
  }

  /** With no filters and inactive coupons included, the listing has every coupon. */
  lemma DashboardListsAll(s: Store)
    ensures |ListCoupons(s, DashboardFilter())| == |s.coupons|
  {
    var f := DashboardFilter();
    WhereAll(s.coupons, EligibleUnder(f));
    var listed := ListCoupons(s, f);
    assert |multiset(CouponsOf(listed))| == |multiset(s.coupons)|;
  }

  // ---------------------------------------------------------------------
  // Brands and categories

  /**
   * `slug || name.toLowerCase().replace(/ /g, '-')`: a given slug is kept as it
   * is; a derived one is as long as the name, with no space and no upper-case
   * ASCII letter. The key is empty only when both the slug and the name are.
   */
  function SlugFor(name: string, slug: Option<string>): (r: string)
    ensures slug.Some? && slug.value != "" ==> r == slug.value
    ensures slug.None? || slug.value == "" ==> r == SlugFromName(name)
    ensures slug.None? || slug.value == "" ==>
      && |r| == |name|
      && forall i :: 0 <= i < |r| ==> r[i] != ' ' && !('A' <= r[i] <= 'Z')
    ensures r == "" <==> name == "" && (slug.None? || slug.value == "")
  {
    SlugShape(name);
    if slug.Some? && slug.value != "" then slug.value else SlugFromName(name)
  }

  /**
   * `getOrCreateBrand(name, slug)`: the brand with the derived slug if there is
   * one, otherwise a new brand with that slug and no logo.
   */
  function GetOrCreateBrand(s: Store, name: string, slug: Option<string>): (r: Step<Brand>)
    ensures r.result.slug == SlugFor(name, slug)
    ensures Find(s.brands, HasBrandSlug(SlugFor(name, slug))).Some? ==>
      r == Step(s, Find(s.brands, HasBrandSlug(SlugFor(name, slug))).value)
    ensures Find(s.brands, HasBrandSlug(SlugFor(name, slug))).None? ==>
      && r.result == Brand(s.nextBrandId, name, SlugFor(name, slug), None, None)
      && r.store == s.(brands := s.brands + [r.result], nextBrandId := s.nextBrandId + 1)
  {
    var key := SlugFor(name, slug);
    match Find(s.brands, HasBrandSlug(key))
    case Some(existing) => Step(s, existing)
    case None =>
      var b := Brand(s.nextBrandId, name, key, None, None);
      Step(s.(brands := s.brands + [b], nextBrandId := s.nextBrandId + 1), b)
  }

  /** `icon || 'Tag'`: the stored icon is never empty, and is the given one whenever that is not. */
  function IconOrDefault(icon: Option<string>): (r: string)
    ensures icon.None? || icon.value == "" ==> r == "Tag"
    ensures icon.Some? && icon.value != "" ==> r == icon.value
    ensures r != ""
  {
    if icon.Some? && icon.value != "" then icon.value else "Tag"
  }

  /**
   * `getOrCreateCategory(name, slug, icon, parentId)`: the category with the
   * derived slug if there is one, otherwise a new one whose icon defaults to 'Tag'.
   */
  function GetOrCreateCategory(s: Store, name: string, slug: Option<string>, icon: Option<string>, parentId: Option<int>): (r: Step<Category>)
    ensures r.result.slug == SlugFor(name, slug)
    ensures Find(s.categories, HasCategorySlug(SlugFor(name, slug))).Some? ==>
      r == Step(s, Find(s.categories, HasCategorySlug(SlugFor(name, slug))).value)
    ensures Find(s.categories, HasCategorySlug(SlugFor(name, slug))).None? ==>
      && r.result == Category(s.nextCategoryId, name, SlugFor(name, slug), IconOrDefault(icon), parentId)
      && r.store == s.(categories := s.categories + [r.result], nextCategoryId := s.nextCategoryId + 1)
  {
    var key := SlugFor(name, slug);
    match Find(s.categories, HasCategorySlug(key))
    case Some(existing) => Step(s, existing)
    case None =>
      var c := Category(s.nextCategoryId, name, key, IconOrDefault(icon), parentId);
      Step(s.(categories := s.categories + [c], nextCategoryId := s.nextCategoryId + 1), c)
  }

  // ---------------------------------------------------------------------
  // Seeding (`insert ... on conflict do nothing`)

  datatype CategorySeed = CategorySeed(name: string, slug: string, icon: string, parentId: Option<int>)
  datatype BrandSeed = BrandSeed(name: string, slug: string, logoUrl: string)

  /** One seed row: inserted unless its slug is taken; the id is drawn either way. */
  function SeedCategory(s: Store, row: CategorySeed): (r: Store)
    ensures r.nextCategoryId == s.nextCategoryId + 1
    ensures Find(s.categories, HasCategorySlug(row.slug)).Some? ==> r.categories == s.categories
    ensures Find(s.categories, HasCategorySlug(row.slug)).None? ==>
      r.categories == s.categories + [Category(s.nextCategoryId, row.name, row.slug, row.icon, row.parentId)]
    ensures r.(categories := s.categories, nextCategoryId := s.nextCategoryId) == s
  {
    var s' := s.(nextCategoryId := s.nextCategoryId + 1);
    if Find(s.categories, HasCategorySlug(row.slug)).Some? then s'
    else s'.(categories := s.categories + [Category(s.nextCategoryId, row.name, row.slug, row.icon, row.parentId)])
  }

  /** `seedCategories(rows)`: the rows in order, each skipped when its slug is already present. */
  function SeedCategories(s: Store, rows: seq<CategorySeed>): (r: Store)
    ensures r.nextCategoryId == s.nextCategoryId + |rows|
    ensures |s.categories| <= |r.categories| && r.categories[..|s.categories|] == s.categories
    ensures r.(categories := s.categories, nextCategoryId := s.nextCategoryId) == s
    decreases |rows|
  {
    if |rows| == 0 then s
    else SeedCategories(SeedCategory(s, rows[0]), rows[1..])
  }

  /** After `seedCategories(rows)` a category with each seed slug is present, inserted or already there. */
  lemma {:induction false} SeedCategoriesPresent(s: Store, rows: seq<CategorySeed>)
    ensures forall i :: 0 <= i < |rows| ==> Find(SeedCategories(s, rows).categories, HasCategorySlug(rows[i].slug)).Some?
    decreases |rows|
  {
    if |rows| > 0 {
      var s1 := SeedCategory(s, rows[0]);
      var r := SeedCategories(s1, rows[1..]);
      if Find(s.categories, HasCategorySlug(rows[0].slug)).None? {
        FindAppend(s.categories, Category(s.nextCategoryId, rows[0].name, rows[0].slug, rows[0].icon, rows[0].parentId),
                   HasCategorySlug(rows[0].slug));
      }
      FindExtends(s1.categories, r.categories, HasCategorySlug(rows[0].slug));
      SeedCategoriesPresent(s1, rows[1..]);
      assert forall i :: 1 <= i < |rows| ==> rows[i] == rows[1..][i - 1];
    }
  }

  /** One brand seed row: inserted unless its slug is taken; the id is drawn either way. */
  function SeedBrand(s: Store, row: BrandSeed): (r: Store)
    ensures r.nextBrandId == s.nextBrandId + 1
    ensures Find(s.brands, HasBrandSlug(row.slug)).Some? ==> r.brands == s.brands
    ensures Find(s.brands, HasBrandSlug(row.slug)).None? ==>
      r.brands == s.brands + [Brand(s.nextBrandId, row.name, row.slug, Some(row.logoUrl), None)]
    ensures r.(brands := s.brands, nextBrandId := s.nextBrandId) == s
  {
    var s' := s.(nextBrandId := s.nextBrandId + 1);
    if Find(s.brands, HasBrandSlug(row.slug)).Some? then s'
    else s'.(brands := s.brands + [Brand(s.nextBrandId, row.name, row.slug, Some(row.logoUrl), None)])
  }

  /** `seedBrands(rows)`: the rows in order, each skipped when its slug is already present. */
  function SeedBrands(s: Store, rows: seq<BrandSeed>): (r: Store)
    ensures r.nextBrandId == s.nextBrandId + |rows|
    ensures |s.brands| <= |r.brands| && r.brands[..|s.brands|] == s.brands
    ensures r.(brands := s.brands, nextBrandId := s.nextBrandId) == s
    decreases |rows|
  {
    if |rows| == 0 then s
    else SeedBrands(SeedBrand(s, rows[0]), rows[1..])
  }

  /** After `seedBrands(rows)` a brand with each seed slug is present, inserted or already there. */
  lemma {:induction false} SeedBrandsPresent(s: Store, rows: seq<BrandSeed>)
    ensures forall i :: 0 <= i < |rows| ==> Find(SeedBrands(s, rows).brands, HasBrandSlug(rows[i].slug)).Some?
    decreases |rows|
  {
    if |rows| > 0 {
      var s1 := SeedBrand(s, rows[0]);
      var r := SeedBrands(s1, rows[1..]);
      if Find(s.brands, HasBrandSlug(rows[0].slug)).None? {
        FindAppend(s.brands, Brand(s.nextBrandId, rows[0].name, rows[0].slug, Some(rows[0].logoUrl), None),
                   HasBrandSlug(rows[0].slug));
      }
      FindExtends(s1.brands, r.brands, HasBrandSlug(rows[0].slug));
      SeedBrandsPresent(s1, rows[1..]);
      assert forall i :: 1 <= i < |rows| ==> rows[i] == rows[1..][i - 1];
    }
  }
}

=== FILE: store_props.dfy ===
/** Properties of the store's row, feedback and counter operations. */
module StoreProps {
  import opened Wrappers
  import opened Tables
  import opened Schema
  import opened Storage

  // ---------------------------------------------------------------------
  // Updating one coupon by id

  /** An update that keeps ids keeps them unique. */
  lemma UpdateKeepsIdsDistinct(cs: seq<Coupon>, id: int, f: Coupon -> Coupon)
    requires Distinct(cs, CouponId)
    requires forall c :: f(c).id == c.id
    ensures Distinct(UpdateWhereId(cs, id, f), CouponId)
  {
    var us := UpdateWhereId(cs, id, f);
    forall i, j | 0 <= i < j < |us| ensures CouponId(us[i]) != CouponId(us[j]) {
      assert us[i].id == cs[i].id && us[j].id == cs[j].id;
    }
  }

  /** Rows with another id are not touched, so lookups of other ids see the same row. */
  lemma UpdateKeepsOtherIds(cs: seq<Coupon>, id: int, f: Coupon -> Coupon, other: int)
    requires forall c :: f(c).id == c.id
    requires other != id
    ensures Find(UpdateWhereId(cs, id, f), HasCouponId(other)) == Find(cs, HasCouponId(other))
  {
    FindSameMatches(UpdateWhereId(cs, id, f), cs, HasCouponId(other));
  }

  /** With unique ids, the update rewrites exactly the row that has the id. */
  lemma UpdateAt(cs: seq<Coupon>, id: int, f: Coupon -> Coupon, i: int)
    requires Distinct(cs, CouponId)
    requires 0 <= i < |cs| && cs[i].id == id
    ensures UpdateWhereId(cs, id, f) == cs[i := f(cs[i])]
  {
    var us := UpdateWhereId(cs, id, f);
    forall j | 0 <= j < |cs| ensures us[j] == cs[i := f(cs[i])][j] {
      if j != i {
        assert CouponId(cs[j]) != CouponId(cs[i]);
      }
    }
  }

  /** The position of the row a lookup finds. */
  lemma FoundAt(cs: seq<Coupon>, id: int) returns (i: int)
    requires Find(cs, HasCouponId(id)).Some?
    ensures 0 <= i < |cs| && cs[i] == Find(cs, HasCouponId(id)).value && cs[i].id == id
  {
    var c := Find(cs, HasCouponId(id)).value;
    assert c in cs;
    i :| 0 <= i < |cs| && cs[i] == c;
  }

  /** After the update, looking the id up finds the rewritten row. */
  lemma UpdateFindsNewRow(cs: seq<Coupon>, id: int, f: Coupon -> Coupon)
    requires Distinct(cs, CouponId)
    requires forall c :: f(c).id == c.id
    requires Find(cs, HasCouponId(id)).Some?
    ensures Find(UpdateWhereId(cs, id, f), HasCouponId(id)) == Some(f(Find(cs, HasCouponId(id)).value))
  {
    var i := FoundAt(cs, id);
    UpdateAt(cs, id, f, i);
    UpdateKeepsIdsDistinct(cs, id, f);
    var us := UpdateWhereId(cs, id, f);
    forall j | 0 <= j < |us| && j != i ensures !HasCouponId(id)(us[j]) {
      assert CouponId(us[j]) != CouponId(us[i]);
    }
    FindUnique(us, i, HasCouponId(id));
  }

  // ---------------------------------------------------------------------
  // Feedback statistics

  function VoteFor(id: int): Feedback -> bool { (f: Feedback) => f.couponId == Some(id) }
  function PositiveVoteFor(id: int): Feedback -> bool { (f: Feedback) => f.couponId == Some(id) && f.worked }

  /** The single-pass tally agrees with the two `count` queries it stands for. */
  lemma {:induction false} TallyCounts(rows: seq<Feedback>, id: int)
    ensures Tally(rows, id).total == Count(rows, VoteFor(id))
    ensures Tally(rows, id).positive == Count(rows, PositiveVoteFor(id))
    decreases |rows|
  {
    if |rows| > 0 {
      TallyCounts(rows[1..], id);
    }
  }

  /** The stats of a coupon nobody voted on are zero. */
  lemma NoVotesNoStats(s: Store, id: int)
    requires forall f :: f in s.feedback ==> f.couponId != Some(id)
    ensures FeedbackStatsFor(s, id) == FeedbackStats(0, 0)
  {
    TallyCounts(s.feedback, id);
    WhereNone(s.feedback, VoteFor(id));
  }

  lemma {:induction false} TallyAppend(rows: seq<Feedback>, x: Feedback, id: int)
    ensures Tally(rows + [x], id) ==
      if x.couponId == Some(id) then
        FeedbackStats(Tally(rows, id).positive + (if x.worked then 1 else 0), Tally(rows, id).total + 1)
      else Tally(rows, id)
    decreases |rows|
  {
    if |rows| == 0 {
      assert rows + [x] == [x];
      assert [x][1..] == [];
    } else {
      assert (rows + [x])[1..] == rows[1..] + [x];
      TallyAppend(rows[1..], x, id);
    }
  }

  /**
   * A recorded vote raises its coupon's total by exactly one, and its positive
   * count by one exactly when it says the code worked; every other coupon's
   * stats stay as they were.
   */
  lemma CreateFeedbackCounts(s: Store, f: FeedbackInsert, now: Timestamp, id: int)
    requires CreateFeedback(s, f, now).result.Success?
    ensures var before, after := FeedbackStatsFor(s, id), FeedbackStatsFor(CreateFeedback(s, f, now).store, id);
      if f.couponId == Some(id) then
        after.total == before.total + 1 && after.positive == before.positive + (if f.worked then 1 else 0)
      else after == before
  {
    var r := CreateFeedback(s, f, now);
    TallyAppend(s.feedback, r.result.value, id);
  }

  // ---------------------------------------------------------------------
  // Click and conversion counters

  /**
   * A click on an existing coupon raises that coupon's `clickCount` by exactly
   * one and returns the new value; every other coupon stays as it was.
   */
  lemma RecordClickCounts(s: Store, id: int, userId: Option<string>)
    requires Distinct(s.coupons, CouponId)
    requires CouponById(s, id).Some?
    ensures RecordClick(s, id, userId).result == Success(CouponById(s, id).value.clickCount + 1)
    ensures CouponById(RecordClick(s, id, userId).store, id) == Some(BumpClicks(CouponById(s, id).value))
    ensures forall other :: other != id ==> CouponById(RecordClick(s, id, userId).store, other) == CouponById(s, other)
    ensures Distinct(RecordClick(s, id, userId).store.coupons, CouponId)
  {
    var r := RecordClick(s, id, userId);
    var us := UpdateWhereId(s.coupons, id, BumpClicks);
    assert r.store.coupons == us;
    UpdateKeepsIdsDistinct(s.coupons, id, BumpClicks);
    UpdateFindsNewRow(s.coupons, id, BumpClicks);
    assert CouponById(r.store, id) == Find(us, HasCouponId(id));
    forall other | other != id ensures CouponById(r.store, other) == CouponById(s, other) {
      UpdateKeepsOtherIds(s.coupons, id, BumpClicks, other);
      assert CouponById(r.store, other) == Find(us, HasCouponId(other));
    }
  }

  /** Bumping one coupon's counter moves that column's sum by one and leaves the other column's. */
  lemma BumpSums(s: Store, id: int, f: Coupon -> Coupon, bumped: Coupon -> int, kept: Coupon -> int)
    requires Distinct(s.coupons, CouponId)
    requires CouponById(s, id).Some?
    requires forall c :: bumped(f(c)) == bumped(c) + 1 && kept(f(c)) == kept(c)
    ensures Sum(UpdateWhereId(s.coupons, id, f), bumped) == Sum(s.coupons, bumped) + 1
    ensures Sum(UpdateWhereId(s.coupons, id, f), kept) == Sum(s.coupons, kept)
  {
    var i := FoundAt(s.coupons, id);
    UpdateAt(s.coupons, id, f, i);
    SumUpdate(s.coupons, i, f(s.coupons[i]), bumped);
    SumUpdate(s.coupons, i, f(s.coupons[i]), kept);
  }

  /** A click on an existing coupon raises the dashboard's click total by one, and nothing else. */
  lemma RecordClickTotals(s: Store, id: int, userId: Option<string>)
    requires Distinct(s.coupons, CouponId)
    requires CouponById(s, id).Some?
    ensures AdminAnalytics(RecordClick(s, id, userId).store).totalClicks == AdminAnalytics(s).totalClicks + 1
    ensures AdminAnalytics(RecordClick(s, id, userId).store).totalConversions == AdminAnalytics(s).totalConversions
    ensures |RecordClick(s, id, userId).store.clicks| == |s.clicks| + 1
  {
    BumpSums(s, id, BumpClicks, ClickCountOf, ConversionCountOf);
  }

  /** The same for a conversion, which writes no click row. */
  lemma RecordConversionCounts(s: Store, id: int)
    requires Distinct(s.coupons, CouponId)
    requires CouponById(s, id).Some?
    ensures RecordConversion(s, id).result == Success(CouponById(s, id).value.conversionCount + 1)
    ensures CouponById(RecordConversion(s, id).store, id) == Some(BumpConversions(CouponById(s, id).value))
    ensures forall other :: other != id ==> CouponById(RecordConversion(s, id).store, other) == CouponById(s, other)
    ensures Distinct(RecordConversion(s, id).store.coupons, CouponId)
  {
    var r := RecordConversion(s, id);
    var us := UpdateWhereId(s.coupons, id, BumpConversions);
    assert r.store.coupons == us;
    UpdateKeepsIdsDistinct(s.coupons, id, BumpConversions);
    UpdateFindsNewRow(s.coupons, id, BumpConversions);
    assert CouponById(r.store, id) == Find(us, HasCouponId(id));
    forall other | other != id ensures CouponById(r.store, other) == CouponById(s, other) {
      UpdateKeepsOtherIds(s.coupons, id, BumpConversions, other);
      assert CouponById(r.store, other) == Find(us, HasCouponId(other));
    }
  }

  lemma RecordConversionTotals(s: Store, id: int)
    requires Distinct(s.coupons, CouponId)
    requires CouponById(s, id).Some?
    ensures AdminAnalytics(RecordConversion(s, id).store).totalConversions == AdminAnalytics(s).totalConversions + 1
    ensures AdminAnalytics(RecordConversion(s, id).store).totalClicks == AdminAnalytics(s).totalClicks
    ensures RecordConversion(s, id).store.clicks == s.clicks
  {
    BumpSums(s, id, BumpConversions, ConversionCountOf, ClickCountOf);
  }

  /**
   * The default listing (active coupons) and the dashboard's pending figure
   * (coupons with `isActive = false`) never count a coupon twice: together they
   * are at most the coupon total, and exactly it when no row has a NULL `isActive`.
   */
  lemma ListedAndPendingPartition(s: Store)
    ensures |ListCoupons(s, NoFilters())| + AdminAnalytics(s).pendingCoupons <= AdminAnalytics(s).totalCoupons
    ensures NoNullActive(s.coupons) ==>
      |ListCoupons(s, NoFilters())| + AdminAnalytics(s).pendingCoupons == AdminAnalytics(s).totalCoupons
  {
    DefaultListingCount(s);
    PendingIsCount(s);
    ActiveAndPendingCounts(s.coupons);
  }

  /** Active and deactivated rows, counted separately, add up to at most the table. */
  lemma ActiveAndPendingCounts(cs: seq<Coupon>)
    ensures Count(cs, EligibleUnder(NoFilters())) + Count(cs, IsPending) <= |cs|
    ensures NoNullActive(cs) ==> Count(cs, EligibleUnder(NoFilters())) + Count(cs, IsPending) == |cs|
  {
    forall c | c in cs ensures !(EligibleUnder(NoFilters())(c) && IsPending(c)) {
      assert EligibleUnder(NoFilters())(c) == Eligible(NoFilters(), c);
    }
    if NoNullActive(cs) {
      forall c | c in cs ensures EligibleUnder(NoFilters())(c) || IsPending(c) {
        assert EligibleUnder(NoFilters())(c) == Eligible(NoFilters(), c);
        assert c.isActive == Some(c.isActive.value);
        if c.isActive.value {
          assert Eligible(NoFilters(), c);
        } else {
          assert IsPending(c);
        }
      }
    }
    CountDisjoint(cs, EligibleUnder(NoFilters()), IsPending);
  }

  /** No row has a NULL `isActive`. */
  predicate NoNullActive(cs: seq<Coupon>)
  {
    forall c :: c in cs ==> c.isActive.Some?
  }

  /** The default listing has as many rows as the table has coupons it accepts. */
  lemma DefaultListingCount(s: Store)
    ensures |ListCoupons(s, NoFilters())| == Count(s.coupons, EligibleUnder(NoFilters()))
  {
    var l := ListCoupons(s, NoFilters());
    assert |multiset(CouponsOf(l))| == |multiset(Where(s.coupons, EligibleUnder(NoFilters())))|;
  }

  /** The pending figure counts the deactivated rows. */
  lemma PendingIsCount(s: Store)
    ensures AdminAnalytics(s).pendingCoupons == Count(s.coupons, IsPending)
    ensures AdminAnalytics(s).totalCoupons == |s.coupons|
  {
  }

  /** A successful update moves the pending figure by whether its row was, and now is, deactivated. */
  lemma UpdatePendingDelta(s: Store, id: int, u: CouponUpdate)
    requires Distinct(s.coupons, CouponId)
    requires CouponById(s, id).Some?
    requires UpdateCoupon(s, id, u).result.Success?
    ensures var before := CouponById(s, id).value;
      AdminAnalytics(UpdateCoupon(s, id, u).store).pendingCoupons
        == AdminAnalytics(s).pendingCoupons - (if IsPending(before) then 1 else 0) + (if IsPending(ApplyUpdate(before, u)) then 1 else 0)
  {
    var i := FoundAt(s.coupons, id);
    UpdateAt(s.coupons, id, UpdateWith(u), i);
    CountUpdate(s.coupons, i, ApplyUpdate(s.coupons[i], u), IsPending);
  }

  /** The PATCH body `{"isActive": false}` after parsing. */
  function Deactivation(): CouponUpdate
  {
    CouponUpdate(None, None, None, Absent, Absent, None, Absent, None, Given(false), Absent)
  }

  /** Deactivating an active coupon succeeds and raises the pending figure by exactly one. */
  lemma DeactivateRaisesPending(s: Store, id: int)
    requires Valid(s)
    requires CouponById(s, id).Some? && CouponById(s, id).value.isActive == Some(true)
    ensures UpdateCoupon(s, id, Deactivation()).result.Success?
    ensures AdminAnalytics(UpdateCoupon(s, id, Deactivation()).store).pendingCoupons == AdminAnalytics(s).pendingCoupons + 1
  {
    assert CouponById(s, id).value in s.coupons;
    UpdatePendingDelta(s, id, Deactivation());
  }

  /**
   * `n` anonymous clicks in a row on the same existing coupon raise its count
   * by exactly `n` and add `n` audit rows: no click is lost.
   */
  function ClickTimes(s: Store, id: int, n: nat): (r: Store)
    requires Distinct(s.coupons, CouponId)
    requires CouponById(s, id).Some?
    ensures Distinct(r.coupons, CouponId)
    ensures CouponById(r, id).Some?
    ensures CouponById(r, id).value.clickCount == CouponById(s, id).value.clickCount + n
    ensures |r.clicks| == |s.clicks| + n
    decreases n
  {
    if n == 0 then s
    else
      OneMoreClick(s, id);
      ClickTimes(RecordClick(s, id, None).store, id, n - 1)
  }

  /** One anonymous click: the count goes up by one, ids stay unique, one audit row is added. */
  lemma OneMoreClick(s: Store, id: int)
    requires Distinct(s.coupons, CouponId)
    requires CouponById(s, id).Some?
    ensures var t := RecordClick(s, id, None).store;
      && Distinct(t.coupons, CouponId)
      && CouponById(t, id).Some?
      && CouponById(t, id).value.clickCount == CouponById(s, id).value.clickCount + 1
      && |t.clicks| == |s.clicks| + 1
  {
    RecordClickCounts(s, id, None);
  }

  /** A click or conversion on an unknown id fails; a conversion then changes nothing. */
  lemma UnknownCouponCounters(s: Store, id: int, userId: Option<string>)
    requires CouponById(s, id).None?
    ensures RecordClick(s, id, userId).result.Failure?
    ensures RecordClick(s, id, userId).store.coupons == s.coupons
    ensures RecordConversion(s, id) == Step(s, Failure(NoRowReturned))
  {
  }

  // ---------------------------------------------------------------------
  // Inserts from a client body

  /**
   * A coupon created from a client body gets the next id, a score of 0, both
   * timestamps set to the insert time, zero counters, and is active unless
   * the body says otherwise.
   */
  lemma ClientInsertDefaults(s: Store, b: CouponBody, now: Timestamp)
    requires ParseInsertCoupon(b).Success?
    requires CreateCoupon(s, ParseInsertCoupon(b).value, now).result.Success?
    ensures var row := CreateCoupon(s, ParseInsertCoupon(b).value, now).result.value;
      && row.id == s.nextCouponId
      && row.successScore == 0
      && row.createdAt == now && row.lastVerified == now
      && row.clickCount == 0 && row.conversionCount == 0
      && (b.isActive.Absent? ==> row.isActive == Some(true))
      && (b.isActive.Given? ==> row.isActive == Some(b.isActive.value))
      && row.code == b.code.value && row.title == b.title.value
      && row.expiryDate.None?
  {
  }

  // ---------------------------------------------------------------------
  // Updates and deletes

  /**
   * A PATCH changes only the columns it supplies: the id, the score, the
   * timestamps and the counters of the row never change, and an absent field
   * keeps its column.
   */
  lemma UpdateKeepsUnsuppliedColumns(c: Coupon, u: CouponUpdate)
    ensures var n := ApplyUpdate(c, u);
      && n.id == c.id && n.successScore == c.successScore
      && n.createdAt == c.createdAt && n.lastVerified == c.lastVerified
      && n.clickCount == c.clickCount && n.conversionCount == c.conversionCount
      && (u.code.None? ==> n.code == c.code)
      && (u.title.None? ==> n.title == c.title)
      && (u.description.None? ==> n.description == c.description)
      && (u.discountAmount.None? ==> n.discountAmount == c.discountAmount)
      && (u.affiliateLink.None? ==> n.affiliateLink == c.affiliateLink)
      && (u.categoryId.Absent? ==> n.categoryId == c.categoryId)
      && (u.brandId.Absent? ==> n.brandId == c.brandId)
      && (u.expiryDate.Absent? ==> n.expiryDate == c.expiryDate)
      && (u.isActive.Absent? ==> n.isActive == c.isActive)
      && (u.userId.Absent? ==> n.userId == c.userId)
      && (u.isActive.Given? ==> n.isActive == Some(u.isActive.value))
      && (u.isActive.Null? ==> n.isActive.None?)
  {
  }

  /** A successful update changes that one coupon and no other; the other tables stay. */
  lemma UpdateCouponTouchesOneRow(s: Store, id: int, u: CouponUpdate)
    requires Distinct(s.coupons, CouponId)
    requires UpdateCoupon(s, id, u).result.Success?
    ensures var r := UpdateCoupon(s, id, u);
      && (forall other :: other != id ==> CouponById(r.store, other) == CouponById(s, other))
      && (CouponById(s, id).Some? ==> CouponById(r.store, id) == Some(ApplyUpdate(CouponById(s, id).value, u)))
      && |r.store.coupons| == |s.coupons|
      && r.store.(coupons := s.coupons) == s
  {
    var r := UpdateCoupon(s, id, u);
    forall other | other != id ensures CouponById(r.store, other) == CouponById(s, other) {
      if CouponById(s, id).Some? {
        UpdateKeepsOtherIds(s.coupons, id, UpdateWith(u), other);
      }
    }
    if CouponById(s, id).Some? {
      UpdateFindsNewRow(s.coupons, id, UpdateWith(u));
    }
  }

  /** A successful delete removes exactly the coupon with that id. */
  lemma DeleteCouponRemovesOnlyThatId(s: Store, id: int)
    requires DeleteCoupon(s, id).Success?
    ensures var t := DeleteCoupon(s, id).value;
      && CouponById(t, id).None?
      && (forall other :: other != id ==> CouponById(t, other) == CouponById(s, other))
      && t.(coupons := s.coupons) == s
  {
    var t := DeleteCoupon(s, id).value;
    forall other | other != id ensures CouponById(t, other) == CouponById(s, other) {
      FindWhere(s.coupons, (c: Coupon) => c.id != id, HasCouponId(other));
    }
  }

  /** Deleting an id no coupon has always succeeds and changes nothing. */
  lemma DeleteUnknownIsNoOp(s: Store, id: int)
    requires CouponById(s, id).None?
    ensures DeleteCoupon(s, id) == Success(s)
  {
    WhereAll(s.coupons, (c: Coupon) => c.id != id);
  }
}

=== FILE: store_valid.dfy ===
/**
 * The database's constraints as an invariant of the store: every operation
 * that succeeds, and every one that fails, leaves a valid store valid.
 */
module StoreValid {
  import opened Wrappers
  import opened Tables
  import opened Schema
  import opened Storage
  import opened StoreProps

  /** A freshly created database satisfies its constraints. */
  lemma EmptyStoreValid()
    ensures Valid(EmptyStore())
  {
  }

  // ---------------------------------------------------------------------
  // Lookups that survive a change to the coupon table

  /** Appending a row keeps every lookup that found something. */
  lemma AppendKeepsCouponLookups(cs: seq<Coupon>, row: Coupon, id: int)
    requires Find(cs, HasCouponId(id)).Some?
    ensures Find(cs + [row], HasCouponId(id)) == Find(cs, HasCouponId(id))
  {
    FindAppend(cs, row, HasCouponId(id));
  }

  /** An update that keeps ids keeps which ids can be found. */
  lemma UpdateKeepsCouponLookups(cs: seq<Coupon>, id: int, f: Coupon -> Coupon, x: int)
    requires forall c :: f(c).id == c.id
    ensures Find(UpdateWhereId(cs, id, f), HasCouponId(x)).Some? == Find(cs, HasCouponId(x)).Some?
  {
    var us := UpdateWhereId(cs, id, f);
    forall i | 0 <= i < |cs| ensures HasCouponId(x)(us[i]) == HasCouponId(x)(cs[i]) {
    }
    if Find(cs, HasCouponId(x)).Some? {
      var i := FoundAt(cs, x);
      assert us[i] in us;
    } else {
      forall c | c in us ensures !HasCouponId(x)(c) {
        var i :| 0 <= i < |us| && us[i] == c;
        assert cs[i] in cs;
      }
    }
  }

  // ---------------------------------------------------------------------
  // Coupons

  /** Creating a coupon keeps the store valid, whether the insert succeeds or not. */
  lemma CreateCouponValid(s: Store, c: CouponInsert, now: Timestamp)
    requires Valid(s)
    ensures Valid(CreateCoupon(s, c, now).store)
  {
    var r := CreateCoupon(s, c, now);
    if r.result.Success? {
      var row := r.result.value;
      var t := r.store;
      DistinctAppend(s.coupons, row, CouponId);
      assert KeysUnique(t);
      assert IdsBelowCounters(t);
      forall f | f in t.feedback && f.couponId.Some? ensures CouponById(t, f.couponId.value).Some? {
        AppendKeepsCouponLookups(s.coupons, row, f.couponId.value);
      }
      assert ForeignKeysHold(t);
    }
  }

  /** A PATCH keeps the store valid: the updated row's new references were checked. */
  lemma UpdateCouponValid(s: Store, id: int, u: CouponUpdate)
    requires Valid(s)
    ensures Valid(UpdateCoupon(s, id, u).store)
  {
    var r := UpdateCoupon(s, id, u);
    if r.result.Success? && r.result.value.Some? {
      var current := CouponById(s, id).value;
      forall c | c in s.coupons && c.id == id
        ensures ReferencesExist(s, UpdateWith(u)(c).categoryId, UpdateWith(u)(c).brandId)
      {
        var i := FoundAt(s.coupons, id);
        var j :| 0 <= j < |s.coupons| && s.coupons[j] == c;
        assert CouponId(s.coupons[i]) == CouponId(s.coupons[j]);
      }
      RewriteByIdValid(s, id, UpdateWith(u));
    }
  }

  /** Deleting keeps the store valid: a coupon that has votes is never removed. */
  lemma DeleteCouponValid(s: Store, id: int)
    requires Valid(s)
    requires DeleteCoupon(s, id).Success?
    ensures Valid(DeleteCoupon(s, id).value)
  {
    var t := DeleteCoupon(s, id).value;
    DistinctWhere(s.coupons, (c: Coupon) => c.id != id, CouponId);
    assert KeysUnique(t);
    assert IdsBelowCounters(t);
    forall fb | fb in t.feedback && fb.couponId.Some? ensures CouponById(t, fb.couponId.value).Some? {
      var x := fb.couponId.value;
      FindWhere(s.coupons, (c: Coupon) => c.id != id, HasCouponId(x));
    }
    assert ForeignKeysHold(t);
  }

  // ---------------------------------------------------------------------
  // Feedback and counters

  lemma CreateFeedbackValid(s: Store, f: FeedbackInsert, now: Timestamp)
    requires Valid(s)
    ensures Valid(CreateFeedback(s, f, now).store)
  {
    var r := CreateFeedback(s, f, now);
    if r.result.Success? {
      DistinctAppend(s.feedback, r.result.value, FeedbackId);
      assert KeysUnique(r.store);
      assert IdsBelowCounters(r.store);
      assert ForeignKeysHold(r.store);
    }
  }

  /** Appending a click row with the next id keeps the store valid. */
  lemma ClickRowValid(s: Store, k: Click)
    requires Valid(s)
    requires k.id == s.nextClickId
    ensures Valid(s.(clicks := s.clicks + [k], nextClickId := s.nextClickId + 1))
  {
    var t := s.(clicks := s.clicks + [k], nextClickId := s.nextClickId + 1);
    DistinctAppend(s.clicks, k, ClickId);
    assert KeysUnique(t) && IdsBelowCounters(t) && ForeignKeysHold(t) && CountersNonNegative(t);
  }

  /** A click keeps the database's constraints, also for an unknown id: clicks have no foreign key. */
  lemma RecordClickValid(s: Store, id: int, userId: Option<string>)
    requires Valid(s)
    ensures Valid(RecordClick(s, id, userId).store)
  {
    var k := Click(s.nextClickId, id, userId);
    var t := s.(clicks := s.clicks + [k], nextClickId := s.nextClickId + 1);
    ClickRowValid(s, k);
    if RecordClick(s, id, userId).result.Success? {
      RewriteByIdValid(t, id, BumpClicks);
      assert RecordClick(s, id, userId).store == t.(coupons := UpdateWhereId(t.coupons, id, BumpClicks));
    }
  }

  lemma RecordConversionValid(s: Store, id: int)
    requires Valid(s)
    ensures Valid(RecordConversion(s, id).store)
  {
    if RecordConversion(s, id).result.Success? {
      RewriteByIdValid(s, id, BumpConversions);
    }
  }

  /**
   * Rewriting the coupon with a given id keeps every constraint, provided the
   * rewrite keeps the id, does not lower a counter, and the new references exist.
   */
  lemma RewriteByIdValid(s: Store, id: int, f: Coupon -> Coupon)
    requires Valid(s)
    requires forall c :: f(c).id == c.id
    requires forall c :: f(c).clickCount >= c.clickCount && f(c).conversionCount >= c.conversionCount
    requires forall c :: c in s.coupons && c.id == id ==> ReferencesExist(s, f(c).categoryId, f(c).brandId)
    ensures Valid(s.(coupons := UpdateWhereId(s.coupons, id, f)))
  {
    var t := s.(coupons := UpdateWhereId(s.coupons, id, f));
    UpdateKeepsIdsDistinct(s.coupons, id, f);
    forall c | c in t.coupons
      ensures c.id < t.nextCouponId
      ensures ReferencesExist(t, c.categoryId, c.brandId)
      ensures c.clickCount >= 0 && c.conversionCount >= 0
    {
      var i :| 0 <= i < |t.coupons| && t.coupons[i] == c;
      assert s.coupons[i] in s.coupons;
    }
    forall fb | fb in t.feedback && fb.couponId.Some? ensures CouponById(t, fb.couponId.value).Some? {
      UpdateKeepsCouponLookups(s.coupons, id, f, fb.couponId.value);
    }
    assert KeysUnique(t) && IdsBelowCounters(t) && ForeignKeysHold(t) && CountersNonNegative(t);
  }

  // ---------------------------------------------------------------------
  // Brands and categories

  lemma GetOrCreateBrandValid(s: Store, name: string, slug: Option<string>)
    requires Valid(s)
    ensures Valid(GetOrCreateBrand(s, name, slug).store)
  {
    var key := SlugFor(name, slug);
    if Find(s.brands, HasBrandSlug(key)).None? {
      var t := GetOrCreateBrand(s, name, slug).store;
      var b := GetOrCreateBrand(s, name, slug).result;
      DistinctAppend(s.brands, b, BrandId);
      assert forall i :: 0 <= i < |s.brands| ==> BrandSlug(s.brands[i]) != BrandSlug(b) by {
        forall i | 0 <= i < |s.brands| ensures BrandSlug(s.brands[i]) != BrandSlug(b) {
          assert s.brands[i] in s.brands;
        }
      }
      DistinctAppend(s.brands, b, BrandSlug);
      forall x | x in s.brands ensures Find(t.brands, HasBrandId(x.id)).Some? {
        FindAppend(s.brands, b, HasBrandId(x.id));
      }
      assert KeysUnique(t) && IdsBelowCounters(t) && CountersNonNegative(t);
      forall c | c in t.coupons ensures ReferencesExist(t, c.categoryId, c.brandId) {
        assert ReferencesExist(s, c.categoryId, c.brandId);
        if c.brandId.Some? {
          FindAppend(s.brands, b, HasBrandId(c.brandId.value));
        }
      }
      assert ForeignKeysHold(t);
    }
  }

  lemma GetOrCreateCategoryValid(s: Store, name: string, slug: Option<string>, icon: Option<string>, parentId: Option<int>)
    requires Valid(s)
    ensures Valid(GetOrCreateCategory(s, name, slug, icon, parentId).store)
  {
    var key := SlugFor(name, slug);
    if Find(s.categories, HasCategorySlug(key)).None? {
      var t := GetOrCreateCategory(s, name, slug, icon, parentId).store;
      var k := GetOrCreateCategory(s, name, slug, icon, parentId).result;
      DistinctAppend(s.categories, k, CategoryId);
      assert forall i :: 0 <= i < |s.categories| ==> CategorySlug(s.categories[i]) != CategorySlug(k) by {
        forall i | 0 <= i < |s.categories| ensures CategorySlug(s.categories[i]) != CategorySlug(k) {
          assert s.categories[i] in s.categories;
        }
      }
      DistinctAppend(s.categories, k, CategorySlug);
      assert KeysUnique(t) && IdsBelowCounters(t) && CountersNonNegative(t);
      forall c | c in t.coupons ensures ReferencesExist(t, c.categoryId, c.brandId) {
        assert ReferencesExist(s, c.categoryId, c.brandId);
        if c.categoryId.Some? {
          FindAppend(s.categories, k, HasCategoryId(c.categoryId.value));
        }
      }
      assert ForeignKeysHold(t);
    }
  }

  /** Asking again for the same brand returns the same row and adds nothing. */
  lemma GetOrCreateBrandIdempotent(s: Store, name: string, slug: Option<string>)
    ensures var first := GetOrCreateBrand(s, name, slug);
      GetOrCreateBrand(first.store, name, slug) == Step(first.store, first.result)
  {
    var key := SlugFor(name, slug);
    var first := GetOrCreateBrand(s, name, slug);
    if Find(s.brands, HasBrandSlug(key)).None? {
      FindAppend(s.brands, first.result, HasBrandSlug(key));
    }
  }

  /** Asking again for the same category returns the same row and adds nothing. */
  lemma GetOrCreateCategoryIdempotent(s: Store, name: string, slug: Option<string>, icon: Option<string>, parentId: Option<int>)
    ensures var first := GetOrCreateCategory(s, name, slug, icon, parentId);
      GetOrCreateCategory(first.store, name, slug, icon, parentId) == Step(first.store, first.result)
  {
    var key := SlugFor(name, slug);
    var first := GetOrCreateCategory(s, name, slug, icon, parentId);
    if Find(s.categories, HasCategorySlug(key)).None? {
      FindAppend(s.categories, first.result, HasCategorySlug(key));
    }
  }

  /** Both lookups key on the slug alone: a second request with another name or icon gets the first row. */
  lemma GetOrCreateBrandKeysOnSlug(s: Store, name: string, other: string, slug: string)
    requires slug != ""
    ensures var first := GetOrCreateBrand(s, name, Some(slug));
      GetOrCreateBrand(first.store, other, Some(slug)) == Step(first.store, first.result)
  {
    var first := GetOrCreateBrand(s, name, Some(slug));
    if Find(s.brands, HasBrandSlug(slug)).None? {
      FindAppend(s.brands, first.result, HasBrandSlug(slug));
    }
  }

  // ---------------------------------------------------------------------
  // Seeding

  lemma SeedCategoryValid(s: Store, row: CategorySeed)
    requires Valid(s)
    ensures Valid(SeedCategory(s, row))
  {
    var t := SeedCategory(s, row);
    if Find(s.categories, HasCategorySlug(row.slug)).None? {
      var k := Category(s.nextCategoryId, row.name, row.slug, row.icon, row.parentId);
      DistinctAppend(s.categories, k, CategoryId);
      forall i | 0 <= i < |s.categories| ensures CategorySlug(s.categories[i]) != CategorySlug(k) {
        assert s.categories[i] in s.categories;
      }
      DistinctAppend(s.categories, k, CategorySlug);
      forall c | c in t.coupons ensures ReferencesExist(t, c.categoryId, c.brandId) {
        assert ReferencesExist(s, c.categoryId, c.brandId);
        if c.categoryId.Some? {
          FindAppend(s.categories, k, HasCategoryId(c.categoryId.value));
        }
      }
    }
    assert KeysUnique(t) && IdsBelowCounters(t) && ForeignKeysHold(t) && CountersNonNegative(t);
  }

  lemma {:induction false} SeedCategoriesValid(s: Store, rows: seq<CategorySeed>)
    requires Valid(s)
    ensures Valid(SeedCategories(s, rows))
    decreases |rows|
  {
    if |rows| > 0 {
      SeedCategoryValid(s, rows[0]);
      SeedCategoriesValid(SeedCategory(s, rows[0]), rows[1..]);
    }
  }

  lemma SeedBrandValid(s: Store, row: BrandSeed)
    requires Valid(s)
    ensures Valid(SeedBrand(s, row))
  {
    var t := SeedBrand(s, row);
    if Find(s.brands, HasBrandSlug(row.slug)).None? {
      var b := Brand(s.nextBrandId, row.name, row.slug, Some(row.logoUrl), None);
      DistinctAppend(s.brands, b, BrandId);
      forall i | 0 <= i < |s.brands| ensures BrandSlug(s.brands[i]) != BrandSlug(b) {
        assert s.brands[i] in s.brands;
      }
      DistinctAppend(s.brands, b, BrandSlug);
      forall c | c in t.coupons ensures ReferencesExist(t, c.categoryId, c.brandId) {
        assert ReferencesExist(s, c.categoryId, c.brandId);
        if c.brandId.Some? {
          FindAppend(s.brands, b, HasBrandId(c.brandId.value));
        }
      }
    }
    assert KeysUnique(t) && IdsBelowCounters(t) && ForeignKeysHold(t) && CountersNonNegative(t);
  }

  lemma {:induction false} SeedBrandsValid(s: Store, rows: seq<BrandSeed>)
    requires Valid(s)
    ensures Valid(SeedBrands(s, rows))
    decreases |rows|
  {
    if |rows| > 0 {
      SeedBrandValid(s, rows[0]);
      SeedBrandsValid(SeedBrand(s, rows[0]), rows[1..]);
    }
  }
}

=== FILE: tables.dfy ===
/** Generic queries over a table held as a sequence of rows. */
module Tables {
  import opened Wrappers

  /** The rows of `s` satisfying `p`, in table order (a SQL `WHERE`). */
  function Where<T(!new)>(s: seq<T>, p: T -> bool): (r: seq<T>)
    ensures |r| <= |s|
    ensures forall x :: x in r <==> x in s && p(x)
    ensures multiset(r) <= multiset(s)
    decreases |s|
  {
    if |s| == 0 then []
    else
      assert s == [s[0]] + s[1..];
      (if p(s[0]) then [s[0]] else []) + Where(s[1..], p)
  }

  /** The first row satisfying `p` (a `const [row] = await select ... where ...`). */
  function Find<T(!new)>(s: seq<T>, p: T -> bool): (r: Option<T>)
    ensures r.Some? ==> r.value in s && p(r.value)
    ensures r.None? <==> forall x :: x in s ==> !p(x)
    decreases |s|
  {
    if |s| == 0 then None
    else if p(s[0]) then Some(s[0])
    else Find(s[1..], p)
  }

  /** Number of rows satisfying `p` (`count(*)` under a `WHERE`). */
  function Count<T(!new)>(s: seq<T>, p: T -> bool): nat
  {
    |Where(s, p)|
  }

  /** Sum of an integer column (`sum(...)`, with an empty table giving 0). */
  function Sum<T>(s: seq<T>, f: T -> int): int
    decreases |s|
  {
    if |s| == 0 then 0 else f(s[0]) + Sum(s[1..], f)
  }

  /** No two rows share a key (a primary key or `unique()` constraint). */
  predicate Distinct<T, K(==)>(s: seq<T>, key: T -> K)
  {
    forall i, j :: 0 <= i < j < |s| ==> key(s[i]) != key(s[j])
  }

  lemma {:induction false} WhereAppend<T(!new)>(s: seq<T>, x: T, p: T -> bool)
    ensures Where(s + [x], p) == Where(s, p) + (if p(x) then [x] else [])
    decreases |s|
  {
    if |s| == 0 {
      assert s + [x] == [x];
    } else {
      assert (s + [x])[1..] == s[1..] + [x];
      WhereAppend(s[1..], x, p);
    }
  }

  lemma {:induction false} SumAppend<T>(s: seq<T>, x: T, f: T -> int)
    ensures Sum(s + [x], f) == Sum(s, f) + f(x)
    decreases |s|
  {
    if |s| == 0 {
      assert s + [x] == [x];
    } else {
      assert (s + [x])[1..] == s[1..] + [x];
      SumAppend(s[1..], x, f);
    }
  }

  /** Replacing one row by another changes a column sum by the difference of the two values. */
  lemma {:induction false} SumUpdate<T>(s: seq<T>, i: nat, y: T, f: T -> int)
    requires i < |s|
    ensures Sum(s[i := y], f) == Sum(s, f) - f(s[i]) + f(y)
    decreases |s|
  {
    if i > 0 {
      assert s[i := y][1..] == s[1..][i - 1 := y];
      SumUpdate(s[1..], i - 1, y, f);
    } else {
      assert s[i := y][1..] == s[1..];
    }
  }

  /** Replacing one row changes a count by whether the old row and the new one meet the condition. */
  lemma {:induction false} CountUpdate<T(!new)>(s: seq<T>, i: nat, y: T, p: T -> bool)
    requires i < |s|
    ensures Count(s[i := y], p) == Count(s, p) - (if p(s[i]) then 1 else 0) + (if p(y) then 1 else 0)
    decreases |s|
  {
    var t := s[i := y];
    assert s == [s[0]] + s[1..];
    assert t == [t[0]] + t[1..];
    if i > 0 {
      assert t[1..] == s[1..][i - 1 := y];
      CountUpdate(s[1..], i - 1, y, p);
    } else {
      assert t[1..] == s[1..];
    }
  }

  /**
   * Two conditions no row meets together count at most the whole table, and
   * exactly the whole table when every row meets one of them.
   */
  lemma {:induction false} CountDisjoint<T(!new)>(s: seq<T>, p: T -> bool, q: T -> bool)
    requires forall x :: x in s ==> !(p(x) && q(x))
    ensures Count(s, p) + Count(s, q) <= |s|
    ensures (forall x :: x in s ==> p(x) || q(x)) ==> Count(s, p) + Count(s, q) == |s|
    decreases |s|
  {
    if |s| > 0 {
      assert s == [s[0]] + s[1..];
      CountDisjoint(s[1..], p, q);
    }
  }

  /** A filter that keeps every row keeps the table as it is. */
  lemma {:induction false} WhereAll<T(!new)>(s: seq<T>, p: T -> bool)
    requires forall x :: x in s ==> p(x)
    ensures Where(s, p) == s
    decreases |s|
  {
    if |s| > 0 {
      WhereAll(s[1..], p);
      assert s == [s[0]] + s[1..];
    }
  }

  /** Filters that agree on every row of the table select the same rows. */
  lemma {:induction false} WhereCongruent<T(!new)>(s: seq<T>, p: T -> bool, q: T -> bool)
    requires forall x :: x in s ==> p(x) == q(x)
    ensures Where(s, p) == Where(s, q)
    decreases |s|
  {
    if |s| > 0 {
      WhereCongruent(s[1..], p, q);
    }
  }

  /** Appending a row changes the first match only when there was none. */
  lemma FindAppend<T(!new)>(s: seq<T>, x: T, p: T -> bool)
    ensures Find(s + [x], p) == if Find(s, p).Some? then Find(s, p) else if p(x) then Some(x) else None
    decreases |s|
  {
    if |s| == 0 {
      assert s + [x] == [x];
      assert [x][1..] == [];
    } else {
      assert (s + [x])[1..] == s[1..] + [x];
      FindAppend(s[1..], x, p);
    }
  }

  /** A row that matches in a table still matches once rows are appended after it. */
  lemma FindExtends<T(!new)>(s: seq<T>, t: seq<T>, p: T -> bool)
    requires Find(s, p).Some?
    requires |s| <= |t| && t[..|s|] == s
    ensures Find(t, p).Some?
  {
    var x := Find(s, p).value;
    var k :| 0 <= k < |s| && s[k] == x;
    assert t[..|s|][k] == x;
    assert x in t && p(x);
  }

  /** When a single row satisfies `p`, the first match is that row. */
  lemma FindUnique<T(!new)>(s: seq<T>, i: int, p: T -> bool)
    requires 0 <= i < |s| && p(s[i])
    requires forall j :: 0 <= j < |s| && j != i ==> !p(s[j])
    ensures Find(s, p) == Some(s[i])
    decreases |s|
  {
    if i > 0 {
      FindUnique(s[1..], i - 1, p);
    }
  }

  /** Two tables whose matching rows agree position by position have the same first match. */
  lemma {:induction false} FindSameMatches<T(!new)>(s: seq<T>, t: seq<T>, p: T -> bool)
    requires |s| == |t|
    requires forall i :: 0 <= i < |s| ==> p(s[i]) == p(t[i]) && (p(s[i]) ==> s[i] == t[i])
    ensures Find(s, p) == Find(t, p)
    decreases |s|
  {
    if |s| > 0 {
      FindSameMatches(s[1..], t[1..], p);
    }
  }

  /** Filtering out rows that cannot match does not change the first match. */
  lemma {:induction false} FindWhere<T(!new)>(s: seq<T>, p: T -> bool, q: T -> bool)
    requires forall x :: x in s && q(x) ==> p(x)
    ensures Find(Where(s, p), q) == Find(s, q)
    decreases |s|
  {
    if |s| > 0 {
      FindWhere(s[1..], p, q);
      var rest := Where(s[1..], p);
      if p(s[0]) {
        assert Where(s, p) == [s[0]] + rest;
        assert ([s[0]] + rest)[1..] == rest;
      } else {
        assert Where(s, p) == rest;
        assert !q(s[0]);
      }
    }
  }

  /** A filter no row passes selects nothing. */
  lemma WhereNone<T(!new)>(s: seq<T>, p: T -> bool)
    requires forall x :: x in s ==> !p(x)
    ensures Where(s, p) == []
  {
  }

  /** A row whose key no row has yet can be appended without breaking uniqueness. */
  lemma DistinctAppend<T, K>(s: seq<T>, x: T, key: T -> K)
    requires Distinct(s, key)
    requires forall i :: 0 <= i < |s| ==> key(s[i]) != key(x)
    ensures Distinct(s + [x], key)
  {
    var t := s + [x];
    forall i, j | 0 <= i < j < |t| ensures key(t[i]) != key(t[j]) {
      if j < |s| {
        assert t[i] == s[i] && t[j] == s[j];
      } else {
        assert t[i] == s[i] && t[j] == x;
      }
    }
  }

  /** Removing rows keeps keys unique. */
  lemma {:induction false} DistinctWhere<T(!new), K>(s: seq<T>, p: T -> bool, key: T -> K)
    requires Distinct(s, key)
    ensures Distinct(Where(s, p), key)
    decreases |s|
  {
    if |s| > 0 {
      var rest := Where(s[1..], p);
      assert Distinct(s[1..], key) by {
        forall i, j | 0 <= i < j < |s[1..]| ensures key(s[1..][i]) != key(s[1..][j]) {
          assert s[1..][i] == s[i + 1] && s[1..][j] == s[j + 1];
        }
      }
      DistinctWhere(s[1..], p, key);
      if p(s[0]) {
        var t := [s[0]] + rest;
        assert Where(s, p) == t;
        forall i, j | 0 <= i < j < |t| ensures key(t[i]) != key(t[j]) {
          if i == 0 {
            assert t[j] in rest;
            assert t[j] in s[1..];
            var k :| 0 <= k < |s[1..]| && s[1..][k] == t[j];
            assert s[k + 1] == t[j];
          } else {
            assert t[i] == rest[i - 1] && t[j] == rest[j - 1];
          }
        }
      }
    }
  }

  /** The first match in a concatenation: in the first part if it has one, else in the second. */
  lemma {:induction false} FindConcat<T(!new)>(s: seq<T>, t: seq<T>, p: T -> bool)
    ensures Find(s + t, p) == if Find(s, p).Some? then Find(s, p) else Find(t, p)
    decreases |s|
  {
    if |s| > 0 {
      assert (s + t)[1..] == s[1..] + t;
      FindConcat(s[1..], t, p);
    } else {
      assert s + t == t;
    }
  }
}

=== FILE: text.dfy ===
/** String helpers standing in for the JavaScript string and number built-ins the source uses. */
module Text {
  import opened Wrappers

  /** ASCII `toLowerCase` of one character. */
  function LowerChar(c: char): char
  {
    if 'A' <= c <= 'Z' then (c as int + 32) as char else c
  }

  /** ASCII `toLowerCase` of a string. */
  function Lower(s: string): (r: string)
    ensures |r| == |s|
    ensures forall i :: 0 <= i < |s| ==> r[i] == LowerChar(s[i])
  {
    seq(|s|, i requires 0 <= i < |s| => LowerChar(s[i]))
  }

  /** `s.replace(/a/g, b)` for a one-character pattern `a`. */
  function ReplaceEvery(s: string, a: char, b: char): (r: string)
    ensures |r| == |s|
    ensures forall i :: 0 <= i < |s| ==> r[i] == (if s[i] == a then b else s[i])
  {
    seq(|s|, i requires 0 <= i < |s| => if s[i] == a then b else s[i])
  }

  /** The slug derived from a display name: `name.toLowerCase().replace(/ /g, '-')`. */
  function SlugFromName(name: string): string
  {
    ReplaceEvery(Lower(name), ' ', '-')
  }

  /** A derived slug has no spaces and no upper-case ASCII letters, and keeps the name's length. */
  lemma SlugShape(name: string)
    ensures |SlugFromName(name)| == |name|
    ensures forall i :: 0 <= i < |name| ==> SlugFromName(name)[i] != ' ' && !('A' <= SlugFromName(name)[i] <= 'Z')
    ensures forall i :: 0 <= i < |name| && name[i] != ' ' && !('A' <= name[i] <= 'Z') ==> SlugFromName(name)[i] == name[i]
  {
  }

  /** Deriving a slug from a slug changes nothing. */
  lemma SlugIdempotent(name: string)
    ensures SlugFromName(SlugFromName(name)) == SlugFromName(name)
  {
    var s := SlugFromName(name);
    SlugShape(name);
    assert forall i :: 0 <= i < |s| ==> SlugFromName(s)[i] == s[i];
  }

  // ---------------------------------------------------------------------
  // Substring search (`includes`, `indexOf`)

  /** `pat` occurs in `s` starting at index `i`. */
  predicate OccursAt(s: string, pat: string, i: int)
  {
    0 <= i && i + |pat| <= |s| && s[i..i + |pat|] == pat
  }

  /** `s.includes(pat)`. */
  ghost predicate Contains(s: string, pat: string)
  {
    exists i :: OccursAt(s, pat, i)
  }

  /** The first occurrence of `pat` in `s` at or after `k`. */
  function IndexFrom(s: string, pat: string, k: nat): (r: Option<nat>)
    ensures r.Some? ==> k <= r.value && OccursAt(s, pat, r.value)
    ensures r.Some? ==> forall j :: k <= j < r.value ==> !OccursAt(s, pat, j)
    ensures r.None? ==> forall j :: k <= j ==> !OccursAt(s, pat, j)
    decreases |s| - k
  {
    if k + |pat| > |s| then None
    else if s[k..k + |pat|] == pat then Some(k)
    else IndexFrom(s, pat, k + 1)
  }

  /** `s.indexOf(pat)`, with `None` for -1. */
  function IndexOf(s: string, pat: string): (r: Option<nat>)
    ensures r.Some? ==> OccursAt(s, pat, r.value) && forall j :: 0 <= j < r.value ==> !OccursAt(s, pat, j)
    ensures r.None? <==> !Contains(s, pat)
  {
    IndexFrom(s, pat, 0)
  }

  // ---------------------------------------------------------------------
  // Decimal numbers (`String(n)`, `n.toString()`, `Number(s)`)

  predicate IsDigit(c: char)
  {
    '0' <= c <= '9'
  }

  predicate AllDigits(s: string)
  {
    forall i :: 0 <= i < |s| ==> IsDigit(s[i])
  }

  function DigitChar(d: nat): (c: char)
    requires d < 10
    ensures IsDigit(c)
  {
    ('0' as int + d) as char
  }

  /** Decimal representation of a natural number, without leading zeros. */
  function NatToString(n: nat): (r: string)
    ensures |r| >= 1 && AllDigits(r)
    ensures |r| > 1 ==> r[0] != '0'
    decreases n
  {
    if n < 10 then [DigitChar(n)] else NatToString(n / 10) + [DigitChar(n % 10)]
  }

  /** `String(i)` / `i.toString()` for an integer. */
  function IntToString(i: int): (r: string)
    ensures |r| >= 1
    ensures i < 0 <==> r[0] == '-'
    ensures forall k :: 0 <= k < |r| ==> r[k] != '$' && r[k] != ':'
  {
    if i < 0 then "-" + NatToString(-i) else NatToString(i)
  }

  /** Value of a string of decimal digits. */
  function DigitsValue(s: string): nat
    requires AllDigits(s)
    decreases |s|
  {
    if |s| == 0 then 0 else DigitsValue(s[..|s| - 1]) * 10 + (s[|s| - 1] as int - '0' as int)
  }

  /** A JavaScript number as far as this model needs one: an integer or NaN. */
  datatype Numeric = Finite(n: int) | NaN {
    /** JavaScript truthiness: 0 and NaN are falsy. */
    predicate Truthy() {
      Finite? && n != 0
    }
  }

  /** `Number(s)` on decimal integer literals with an optional leading '+' or '-'. */
  function JsNumber(s: string): (r: Numeric)
    ensures |s| >= 1 && AllDigits(s) ==> r == Finite(DigitsValue(s))
    ensures s == "" ==> r == Finite(0)
    ensures |s| > 1 && s[0] == '+' && AllDigits(s[1..]) ==> r == Finite(DigitsValue(s[1..]))
    ensures |s| > 1 && s[0] == '-' && AllDigits(s[1..]) ==> r == Finite(-(DigitsValue(s[1..]) as int))
    ensures r.Finite? && s != "" ==> AllDigits(s) || (|s| > 1 && (s[0] == '-' || s[0] == '+') && AllDigits(s[1..]))
  {
    if s == "" then Finite(0)
    else if AllDigits(s) then Finite(DigitsValue(s))
    else if |s| > 1 && s[0] == '+' && AllDigits(s[1..]) then Finite(DigitsValue(s[1..]))
    else if |s| > 1 && s[0] == '-' && AllDigits(s[1..]) then Finite(-(DigitsValue(s[1..]) as int))
    else NaN
  }

  lemma {:induction false} NatToStringValue(n: nat)
    ensures DigitsValue(NatToString(n)) == n
    decreases n
  {
    if n >= 10 {
      var s := NatToString(n);
      assert s[..|s| - 1] == NatToString(n / 10);
      NatToStringValue(n / 10);
    }
  }

  /** `Number(String(i)) === i` for every integer. */
  lemma NumberOfIntToString(i: int)
    ensures JsNumber(IntToString(i)) == Finite(i)
  {
    if i < 0 {
      var s := IntToString(i);
      assert s[1..] == NatToString(-i);
      assert !IsDigit(s[0]);
      NatToStringValue(-i);
    } else {
      NatToStringValue(i);
    }
  }
}

=== FILE: wrappers.dfy ===
/** Failure-compatible wrappers shared by the whole model. */
module Wrappers {

  /** A value that may be missing: SQL NULL, a JavaScript `undefined`, or "no row". */
  datatype Option<+T> = None | Some(value: T) {
    function GetOr(default: T): T {
      match this
      case Some(v) => v
      case None => default
    }
  }

  /** The outcome of an operation that may fail with an error value. */
  datatype Result<+T, +E> = Success(value: T) | Failure(error: E)

  /** A field of a JSON request body: left out (`undefined`), sent as `null`, or given a value. */
  datatype Field<+T> = Absent | Null | Given(value: T)
}
